=== FILE: README.md ===
# rust_tools in Dafny

A Dafny model of the small programs in the rust_tools repository that have
sequential logic worth stating as contracts:

- **math_lang**: a term-rewriting language. The character lexer, the
  recursive-descent parser over a peekable token stream, first-order pattern
  matching, substitution of bindings, single-rule `apply_all` rewriting,
  `Display`, and the `rule` / `shape` / `apply` / `done` command machine of
  `Context` (`math_lexer.dfy`, `math_parser.dfy`, `math_expr.dfy`,
  `math_context.dfy`).
- **regex**: the table-driven matcher. `compile` builds one 130-slot column
  per state; `match_str` runs the table (`regex.dfy`).
- **tcp_rust**: a toy TCP in the style of RFC 793, built from these pieces:
  - wrapping 32-bit sequence arithmetic and `is_between_wrapped`;
  - the segment acceptability test;
  - the transmission control block with `accept`, `write`, `on_packet` and
    `close`;
  - the connection manager of `lib.rs`, with `TcpStream` read, write, flush
    and shutdown, `Interface::bind`, `TcpListener::accept` and the pending
    queue filled by the packet loop.

  These are in `tcp_seq.dfy`, `tcp_connection.dfy` and `tcp_interface.dfy`.
- **my_macro**: the token-tree counting macros, the push-down accumulator
  array builders, `count_exprs!` and the iterator that `recurrence!` expands
  to (`macro_basic.dfy`, `macro_pushdown.dfy`, `macro_recurrence.dfy`).
- **test_mem**: the 16-bytes-per-line hex viewer loop (`hexdump.dfy`, with the
  `{:0Nx}` rendering in `hex.dfy`).
- **stack_print**: the C and the Rust frame-pointer stack walkers. Memory is a
  map from address to word, and a read outside it is a fault
  (`stack_memory.dfy`, `stack_print_c.dfy`, `stack_print_rust.dfy`).

Throughout the model:
- A Rust panic (`expect`, `unreachable!`, `unimplemented!`, `assert!`, an index
  out of bounds) is an explicit error result, never a precondition.
- Standard output is a returned or accumulated string.
- Where the source mutates an object (`Lexer`, the token stream, `Context`,
  the `recurrence!` iterator, `Connection`, the connection manager, the
  streams), the model is a class whose methods are proved against a
  specification function.
- Loops are methods with loop invariants.

## Model

| member | source | states |
|---|---|---|
| MathLexer.SymbolRun | math_lang/src/lexer.rs:33-40 | the characters `lex_symbol` takes after the first are a prefix of the remaining input |
| MathLexer.SymbolRunMaximal | math_lang/src/lexer.rs:33-40 | the run holds only alphanumeric or `_` characters and stops only at the end of input or at a character that is neither |
| MathLexer.NextToken | math_lang/src/lexer.rs:46-71 | `next` gives None exactly on exhausted input; `(`, `)`, `,`, `=` give the tokens OpenParen, CloeParen, Comma and Equals respectively and consume one character; any other character starts a symbol made of it and the following run; the token text followed by the rest is the input |
| MathLexer.LexRoundTrip | math_lang/src/lexer.rs:46-71 | lexing to the end puts every input character in exactly one token, in order: the token texts concatenate back to the input |
| MathLexer.Lexer.FromIter | math_lang/src/lexer.rs:24-26 | the new lexer has the whole input left |
| MathLexer.Lexer.LexSymbol | math_lang/src/lexer.rs:28-42 | returns `first` followed by the maximal symbol run and leaves exactly the characters after the run |
| MathLexer.Lexer.Next | math_lang/src/lexer.rs:46-71 | the token returned and the input left are those of `NextToken` on the old input |
| MathParser.Expect | math_lang/src/main.rs:214-221 | the first token is returned and consumed when its kind is expected; otherwise `UnexpectedToken` with the expected kinds and that token; an empty stream panics |
| MathParser.ExpectTokenKind | math_lang/src/main.rs:214-221 | on the token stream: the result of `Expect` on the old tokens, with exactly one token consumed when there was one |
| MathParser.TokenStream.constructor | math_lang/src/main.rs:55 | a new `Peekable` yields exactly the tokens it wraps, with nothing looked ahead yet |
| MathParser.TokenStream.Next | math_lang/src/main.rs:23 | `next` returns and removes the first token, or None on an empty stream |
| MathParser.TokenStream.NextIf | math_lang/src/main.rs:26 | `next_if` removes the first token only when it has the given kind; otherwise the stream is unchanged |
| MathParser.ParseExpr | math_lang/src/main.rs:22-53 | a successful parse consumes at least one token and leaves a suffix of the input |
| MathParser.ParseArgs | math_lang/src/main.rs:31-34 | a non-empty argument list parses at least one expression and leaves a shorter suffix |
| MathParser.ParsePeekable | math_lang/src/main.rs:22-53 | the method's result is `ParseExpr` on the old stream, and on success the stream is left at the unparsed rest |
| MathParser.ParseArguments | math_lang/src/main.rs:31-42 | the argument loop returns `ParseArgs` on the old stream and leaves its rest |
| MathParser.ParseWrapped | math_lang/src/main.rs:54-56 | `Expr::parse` consumes a prefix of the tokens |
| MathParser.Parse | math_lang/src/main.rs:54-56 | `Expr::parse` on the stream returns `ParseWrapped` of the old tokens: `parse_peekable` on a new wrapper, whose look-ahead (the token after a lone symbol, pulled by the failed `next_if` for `(`) is lost with the wrapper |
| MathParser.ParseWrappedTokens | math_lang/src/main.rs:22-56 | `Expr::parse` reads back the tokens of any expression; after an application it leaves exactly what follows, after a lone symbol it leaves what follows minus its first token |
| MathParser.MoreAfterComma | math_lang/src/main.rs:32-34 | after a comma, the comma loop parses one expression and continues, or stops with that expression's error |
| MathParser.TokensShow | math_lang/src/main.rs:153-167 | the tokens of an expression spell exactly what `Display` prints: name, `(`, comma-separated arguments, `)` |
| MathParser.ArgTokensShow | math_lang/src/main.rs:159-162 | the argument tokens spell the comma-separated arguments |
| MathParser.ParseTokens | math_lang/src/main.rs:22-53 | parsing the tokens of any expression gives it back and leaves what follows, unless a lone symbol is followed by `(`; this covers `Sym` and the zero-argument `name()` |
| MathParser.ParseArgTokens | math_lang/src/main.rs:31-34 | a printed argument list parses back to the same arguments |
| MathParser.ParseMoreTokens | math_lang/src/main.rs:32-34 | the `, EXPR` repetitions parse back to the same expressions |
| MathParser.ParseMoreStep | math_lang/src/main.rs:32-34 | one more `, EXPR` before a list that parses back still parses back |
| MathParser.NotSymbol | math_lang/src/main.rs:48-50 | a first token that is not a symbol gives `UnexpectedToken` expecting `Sym` |
| MathParser.MissingCloseParen | math_lang/src/main.rs:37-42 | a token after the arguments that is neither `)` nor a comma gives `UnexpectedToken` expecting `CloseParen` |
| MathParser.Unterminated | math_lang/src/main.rs:37 | a stream that ends inside an argument list panics on the exhausted lexer |
| MathExpr.PatternMatchInner | math_lang/src/main.rs:116-143 | the method succeeds exactly when `Match` does, and then returns its bindings |
| MathExpr.PatternMatch | math_lang/src/main.rs:113-151 | returns the bindings of matching from no bindings, or None |
| MathExpr.MatchExtends | math_lang/src/main.rs:119-125 | a successful match keeps every earlier binding and binds exactly the pattern's variables on top |
| MathExpr.MatchSound | math_lang/src/main.rs:113-151 | substituting the bindings of a successful match into the pattern gives back the matched value, when no function name of the pattern is bound |
| MathExpr.RepeatedVariable | math_lang/src/main.rs:119-125 | `f(x, x)` matches `f(a, c)` exactly when `a == c` |
| MathExpr.SubstituteBindings | math_lang/src/main.rs:65-88 | the method returns the substituted expression, or None where the source panics |
| MathExpr.SubstituteNothing | math_lang/src/main.rs:67-74 | with no bindings, substitution changes nothing |
| MathExpr.SubstituteApplication | math_lang/src/main.rs:75-86 | an application keeps its arity and argument order; its name is renamed only when bound to a symbol; it panics exactly when its name is bound to an application or an argument panics |
| MathExpr.SubstitutedArgsAt | math_lang/src/main.rs:81-84 | arguments are substituted one by one, in order, and any one panicking makes the whole panic |
| MathExpr.Rule.ApplyAll | math_lang/src/main.rs:91-108 | the method returns `Rewritten` of the rule on the expression |
| MathExpr.ApplyAllAtNode | math_lang/src/main.rs:91-108 | a root match returns the substituted body, without rewriting inside it; otherwise a symbol is unchanged, and an application keeps its name and arity with each child rewritten |
| MathExpr.RewrittenArgsAt | math_lang/src/main.rs:99-105 | children are rewritten one by one, in order |
| MathExpr.SwapOnce | math_lang/src/main.rs:390-404 | the swap rule turns `swap(pair(x, y))` into `pair(y, x)` for any x and y |
| MathExpr.SwapExample | math_lang/src/main.rs:390-404 | the `test_apply_all` case rewrites both redexes under `foo` and nothing else |
| MathContext.ParseRule | math_lang/src/main.rs:244-246 | `HEAD = BODY` (two `Expr::parse` calls around an expected `=`) consumes a prefix of the tokens |
| MathContext.RuleTokens | math_lang/src/main.rs:244-246 | with an application as head, the tokens of `HEAD = BODY` parse back to that rule; a lone symbol as body also takes the token after it |
| MathContext.SymbolHeadRule | math_lang/src/main.rs:244-245 | with a lone symbol as head, the `=` is lost with the wrapper and `HEAD = BODY` fails with `UnexpectedToken` expecting `=` at the body's first token |
| MathContext.RuleDefinition | math_lang/src/main.rs:244-246 | on the stream: `ParseRule` of the old tokens, leaving its rest |
| MathContext.Context.constructor | math_lang/src/main.rs:224-228 | `Context::default()` has no rules, nothing shaped, nothing printed |
| MathContext.Context.ProcessCommand | math_lang/src/main.rs:231-307 | the result is `Command` of the old context and tokens; on success the context, the stream and the printed text are its new ones; on an error or a panic the context and the output are unchanged |
| MathContext.Context.ProcessRule | math_lang/src/main.rs:239-254 | the `rule` arm is `DefineCommand`, with the context unchanged on failure |
| MathContext.Context.ProcessShape | math_lang/src/main.rs:255-263 | the `shape` arm is `ShapeCommand`, with the context unchanged on failure |
| MathContext.Context.ProcessApply | math_lang/src/main.rs:264-296 | the `apply` arm is `ApplyCommand`, with the context unchanged on failure |
| MathContext.Context.ProcessDone | math_lang/src/main.rs:297-303 | the `done` arm is `DoneCommand`, with the context unchanged on failure |
| MathContext.NotACommand | math_lang/src/main.rs:232-237 | an empty stream panics; a first token that is not one of the four keywords is `UnexpectedToken` |
| MathContext.CommandAfter | math_lang/src/main.rs:237-238 | after a keyword, the command is the arm for that keyword on the tokens that follow |
| MathContext.ShapeWhileShaping | math_lang/src/main.rs:255-258 | `shape` while shaping is `AlreadyShaping` |
| MathContext.NothingShaped | math_lang/src/main.rs:293-302 | `apply` or `done` with nothing shaped is `NoShapingInPlace` |
| MathContext.DoneClears | math_lang/src/main.rs:297-300 | `done` clears the shaped expression, keeps the rules and prints nothing |
| MathContext.ShapeStarts | math_lang/src/main.rs:255-263 | `shape EXPR` with nothing shaped starts shaping EXPR and prints `shaping EXPR`; when EXPR is a lone symbol the token after it is lost as well |
| MathContext.Redefinition | math_lang/src/main.rs:240-243 | `rule NAME` with NAME already defined is `RuleAlreadyExists`, before anything else is parsed |
| MathContext.DefineRule | math_lang/src/main.rs:239-254 | `rule NAME HEAD = BODY` with a fresh NAME and an application as HEAD adds that rule, keeps the shaped expression and prints `rule HEAD = BODY`; a lone symbol as BODY also takes the next token |
| MathContext.DefineAfterKeyword | math_lang/src/main.rs:240-253 | the part of `rule` after the keyword, on a fresh name and an application as head |
| MathContext.DefineSymbolHead | math_lang/src/main.rs:239-246 | `rule NAME x = BODY` with a lone symbol as head defines nothing: `UnexpectedToken` expecting `=` at the body's first token |
| MathContext.SharedRuleTokens | math_lang/src/main.rs:244-246 | read with `parse_peekable` on the command's own stream, `HEAD = BODY` parses back to the rule for every head and leaves exactly what follows |
| MathContext.ApplyNamed | math_lang/src/main.rs:271-279 | `apply NAME` of an unknown rule is `RuleDoesNotExist`; for a known rule it replaces the shaped expression by its rewrite and prints ` => ` with it |
| MathContext.RulesKept | math_lang/src/main.rs:231-307 | a successful command keeps every existing rule unchanged; only `rule` adds one, under a name not yet defined |
| Regex.StepAsWritten | regex/src/main.rs:44-101 | one character as written: `*` keeps the column count, every other character adds one column; earlier columns are kept |
| Regex.Step | regex/src/main.rs:44-101 | the corrected step refuses a quantifier with no atom before it and otherwise is the step as written |
| Regex.RewriteStar | regex/src/main.rs:64-77 | the `*` loop over the last column's slots computes `StarColumn`, panicking on any slot that leads elsewhere |
| Regex.RewritePlus | regex/src/main.rs:78-93 | the `+` loop over the clone's slots computes `PlusColumn` |
| Regex.FillDot | regex/src/main.rs:54-63 | the `.` loop builds the column with slots 32 to 126 set |
| Regex.Push | regex/src/main.rs:45-101 | the loop body for one pattern character computes `Step` |
| Regex.Compile | regex/src/main.rs:41-104 | the compiled table is the corrected `CompileSpec` of the pattern |
| Regex.AtomColumns | regex/src/main.rs:47-100 | a literal `c` sets only slot `c`, to the next column with offset 1; `.` sets exactly slots 32 to 126; `$` sets only the line-end slot 129; all other slots are (0, 0) |
| Regex.QuantifierColumns | regex/src/main.rs:64-93 | `*` and `+` succeed exactly when every slot leads to the next column or to 0; looping slots then point at the column itself and keep their offset, and failing slots fall through to the next column with offset 0 |
| Regex.CompileWellFormed | regex/src/main.rs:112-116 | a compiled table starts with the all-(0, 0) column 0, and every slot of every live column either consumes a character or moves to a later state, so `match_str` terminates |
| Regex.CompileAgrees | regex/src/main.rs:41-104 | patterns that do not start with a quantifier compile exactly as written |
| Regex.CompileLiterals | regex/src/main.rs:94-100 | each plain literal appends one column that consumes exactly that character |
| Regex.MatchStr | regex/src/main.rs:106-128 | the loop returns `Match` of the table on the input, or panics on a character code of 130 or more |
| Regex.FailureIsFinal | regex/src/main.rs:118-120 | state 0 gives false whatever input is left |
| Regex.AcceptIsFinal | regex/src/main.rs:112-127 | once the state reaches the column count, the rest of the input is ignored and the result is true |
| Regex.ExhaustedTakesLineEnd | regex/src/main.rs:122-127 | with the input exhausted in a live state, exactly one line-end transition decides the result |
| Regex.LiteralPatternIsPrefix | regex/src/main.rs:106-128 | a pattern of plain literals matches an input exactly when it is a prefix of the input |
| Regex.LeadingQuantifierSelfLoop | regex/src/main.rs:64-93 | as written, `*+` compiles to a column 1 whose every slot jumps to column 1 without consuming; the corrected compile refuses it |
| TcpSeq.Add | tcp_rust/src/tcp.rs:273 | `wrapping_add` agrees with `+` when there is no overflow |
| TcpSeq.Sub | tcp_rust/src/tcp.rs:283 | `wrapping_sub` agrees with `-` when there is no underflow |
| TcpSeq.BetweenIsForward | tcp_rust/src/tcp.rs:384-443 | `is_between_wrapped(s, x, e)` holds exactly when, going round the sequence space from s, x comes strictly before e |
| TcpSeq.BetweenCases | tcp_rust/src/tcp.rs:384-443 | false when s == x; for s < x true iff not (s <= e <= x); for s > x true iff x < e < s |
| TcpSeq.SegLen | tcp_rust/src/tcp.rs:266-271 | SEG.LEN is the data length, plus one when SYN or FIN is set; it is 0 exactly for an empty segment with neither flag |
| TcpSeq.WindowCheck | tcp_rust/src/tcp.rs:283 | comparing against (RCV.NXT - 1, RCV.NXT + RCV.WND) is the test RCV.NXT =< s < RCV.NXT + RCV.WND modulo 2^32 |
| TcpSeq.AcceptableCases | tcp_rust/src/tcp.rs:275-302 | the four cases of the receive test in section 3.3 of RFC 793, including that a non-empty segment in an open window is accepted iff its first or its last octet is in the window |
| TcpConnection.Availability | tcp_rust/src/tcp.rs:49-57 | READ iff TIME-WAIT or `incoming` is non-empty; never WRITE |
| TcpConnection.Sending | tcp_rust/src/tcp.rs:222-257 | `write` sends one segment at SND.NXT acknowledging RCV.NXT with as much payload as fits after 40 header bytes in 1500, returns that count, clears SYN and FIN and changes nothing else but SND.NXT |
| TcpConnection.WriteAdvances | tcp_rust/src/tcp.rs:246-254 | SND.NXT moves by the payload bytes written plus one for SYN plus one for FIN, wrapping |
| TcpConnection.Connection.FromTcb | tcp_rust/src/tcp.rs:178-215 | a connection built from a TCB value holds exactly that value |
| TcpConnection.Connection.RcvClosed | tcp_rust/src/tcp.rs:40-47 | `is_rcv_closed` holds exactly in TIME-WAIT |
| TcpConnection.Connection.Avail | tcp_rust/src/tcp.rs:49-57 | `availability` of the connection's state |
| TcpConnection.Connection.Write | tcp_rust/src/tcp.rs:222-257 | the new state and the count are those of `Sending` on the old state |
| TcpConnection.Connection.Close | tcp_rust/src/tcp.rs:367-382 | the new state and result are those of `Closing` on the old state |
| TcpConnection.Connection.OnPacket | tcp_rust/src/tcp.rs:259-365 | the new state and the outcome, or the panic, are those of `Receive` on the old state |
| TcpConnection.Connection.OnAck | tcp_rust/src/tcp.rs:311-363 | the part after the acceptance test is `Acknowledge` |
| TcpConnection.Connection.OnAckSynchronized | tcp_rust/src/tcp.rs:330-345 | SEG.ACK processing in the synchronized states is `AckSynchronized` |
| TcpConnection.Connection.OnFin | tcp_rust/src/tcp.rs:347-363 | the FIN-WAIT-1 check and FIN processing are `Finish` |
| TcpConnection.Accept | tcp_rust/src/tcp.rs:166-220 | a connection is created exactly when the segment has SYN, and holds the TCB of `Accepted` |
| TcpConnection.AcceptInitial | tcp_rust/src/tcp.rs:172-218 | no SYN gives None; otherwise SYN-RECEIVED with ISS = SND.UNA = 0, SND.NXT = 1 after the SYN-ACK, IRS = SEG.SEQ, RCV.NXT = SEG.SEQ + 1, RCV.WND = SEG.WND, SND.WND = 1024, empty queues and the SYN-ACK sent |
| TcpConnection.UnacceptableOnlyAcks | tcp_rust/src/tcp.rs:305-308 | an unacceptable segment only sends an empty segment at SND.NXT acknowledging RCV.NXT; state, RCV.NXT and SND.UNA are unchanged |
| TcpConnection.AcceptableAdvancesRcvNxt | tcp_rust/src/tcp.rs:309 | an acceptable segment sets RCV.NXT to SEG.SEQ + SEG.LEN modulo 2^32 |
| TcpConnection.AcknowledgeKeepsRcvNxt | tcp_rust/src/tcp.rs:311-363 | nothing after the acceptance test changes RCV.NXT |
| TcpConnection.FinishKeepsRcvNxt | tcp_rust/src/tcp.rs:347-363 | the FIN handling does not change RCV.NXT |
| TcpConnection.StateNeverGoesBack | tcp_rust/src/tcp.rs:316-381 | `on_packet` and `close` never move a connection back along LISTEN, SYN-RECEIVED, ESTABLISHED, FIN-WAIT-1, FIN-WAIT-2, TIME-WAIT |
| TcpConnection.AcknowledgeNeverGoesBack | tcp_rust/src/tcp.rs:316-363 | the ACK and FIN processing never moves the state back |
| TcpConnection.FinishNeverGoesBack | tcp_rust/src/tcp.rs:347-363 | the FIN processing never moves the state back |
| TcpConnection.CloseTwice | tcp_rust/src/tcp.rs:367-381 | `closed` is set in every case; SYN-RECEIVED and ESTABLISHED go to FIN-WAIT-1; FIN-WAIT-1 and FIN-WAIT-2 stay and return Ok; any other state returns `NotConnected`; a second `close` changes nothing more |
| TcpConnection.Handshake | tcp_rust/src/tcp.rs:316-344 | the pure ACK of the SYN-ACK takes a fresh connection to ESTABLISHED, and the same call sends a FIN and goes to FIN-WAIT-1 |
| TcpConnection.SynRcvdLeavesOnAck | tcp_rust/src/tcp.rs:316-346 | for every SYN-RECEIVED connection, an ACK leaves SYN-RECEIVED exactly when SEG.ACK is in (SND.UNA - 1, SND.NXT + 1); otherwise the connection stays in SYN-RECEIVED |
| TcpConnection.SynRcvdAckAtUna | tcp_rust/src/tcp.rs:316-333 | SEG.ACK == SND.UNA reaches ESTABLISHED, then returns early: no FIN is sent, nothing else changes and the result is the availability |
| TcpConnection.FinAcked | tcp_rust/src/tcp.rs:347-352 | in FIN-WAIT-1, SND.UNA reaching ISS + 2 leads to FIN-WAIT-2 |
| TcpConnection.FinInFinWait2 | tcp_rust/src/tcp.rs:354-360 | in FIN-WAIT-2, a FIN that acknowledges something new sends an ACK and leads to TIME-WAIT |
| TcpConnection.FinWithOldAckIgnored | tcp_rust/src/tcp.rs:330-333 | as written, a FIN whose SEG.ACK acknowledges nothing new returns early: RCV.NXT moves past it, nothing is sent, the state stays FIN-WAIT-2 |
| TcpConnection.FinElsewherePanics | tcp_rust/src/tcp.rs:347-362 | a FIN at the FIN check reaches `unimplemented!` exactly when the state, after the FIN-WAIT-1 to FIN-WAIT-2 check, is not FIN-WAIT-2 |
| TcpConnection.FinUnsynchronizedPanics | tcp_rust/src/tcp.rs:316-362 | in LISTEN, in TIME-WAIT (a retransmitted FIN included) and in SYN-RECEIVED with an out-of-range ACK, an acceptable FIN with ACK reaches `unimplemented!` |
| TcpConnection.HandshakeFinPanics | tcp_rust/src/tcp.rs:316-362 | a FIN carried on the ACK of the SYN-ACK reaches `unimplemented!`, since SND.UNA = 1 is short of ISS + 2 and the connection is still in FIN-WAIT-1 |
| TcpConnection.SynAtTopOverflows | tcp_rust/src/tcp.rs:192 | as written, RCV.NXT = SEG.SEQ + 1 overflows exactly for SEG.SEQ = 2^32 - 1 |
| TcpConnection.AcceptRcvNxtFollowsSyn | tcp_rust/src/tcp.rs:191-192 | with wrapping addition, IRS is SEG.SEQ and RCV.NXT is always the octet after the SYN |
| TcpInterface.ConnectionManager.constructor | tcp_rust/src/lib.rs:35-40 | the default manager has no connections, no bound ports and is not terminating |
| TcpInterface.ConnectionManager.Dispatch | tcp_rust/src/lib.rs:209-242 | a known quad gets `on_packet`; an unknown quad on a bound port whose segment `accept` takes gets a new connection, queued at the back of that port's pending queue; otherwise nothing changes; the pending-queue invariant is kept |
| TcpInterface.Interface.constructor | tcp_rust/src/lib.rs:148-151 | the interface holds the given manager |
| TcpInterface.Interface.Bind | tcp_rust/src/lib.rs:276-295 | a fresh port gets an empty pending queue and a listener; a bound port gives `AddrInUse` with the map unchanged |
| TcpInterface.TcpListener.constructor | tcp_rust/src/lib.rs:291-294 | the listener holds its port and the manager |
| TcpInterface.TcpListener.Accept | tcp_rust/src/lib.rs:328-345 | pops the oldest pending quad of the port into a stream; waits on an empty queue; panics on an unbound port; when the manager is valid, the quad handed out has a connection, is for this port and is no longer queued |
| TcpInterface.TcpStream.constructor | tcp_rust/src/lib.rs:337-340 | the stream holds its quad and the manager |
| TcpInterface.TcpStream.Read | tcp_rust/src/lib.rs:58-88 | an unknown quad is `ConnectionAborted`; closed and empty gives 0 with `buf` untouched; open and empty waits; otherwise the first min(buf.len, incoming.len) bytes are copied in order to the front of `buf` and removed from `incoming`, the rest of `buf` untouched |
| TcpInterface.TcpStream.Write | tcp_rust/src/lib.rs:92-113 | an unknown quad is `ConnectionAborted`; a full send queue is `WouldBlock` with nothing appended; otherwise the first min(len, 1024 - unacked) bytes are appended and counted, keeping `unacked` within 1024 |
| TcpInterface.TcpStream.Flush | tcp_rust/src/lib.rs:114-132 | an unknown quad is `ConnectionAborted`; otherwise Ok iff `unacked` is empty, else `WouldBlock` |
| TcpInterface.TcpStream.Shutdown | tcp_rust/src/lib.rs:136-146 | an unknown quad is `ConnectionAborted`; otherwise `close` on the connection |
| TcpInterface.CopySlices | tcp_rust/src/lib.rs:73-83 | copying the head slice and then the tail slice puts the first min(buf.len, incoming.len) queue bytes at the front of `buf`, wherever the ring buffer splits |
| TcpInterface.CopyAt | tcp_rust/src/lib.rs:77 | `copy_from_slice` writes the source bytes at the given offset and nothing else |
| MacroBasic.CountTtsIsLength | my_macro/src/basic.rs:35-37 | `count_tts!` is the number of token trees |
| MacroBasic.CountTtsRIsLength | my_macro/src/basic.rs:39-42 | `count_tts_r!` is the number of token trees |
| MacroBasic.CountTtsRImprIsLength | my_macro/src/basic.rs:44-62 | `count_tts_r_impr!`, taking chunks of 20, 10, 5 or 1, is the number of token trees |
| MacroBasic.CountTtsArray | my_macro/src/basic.rs:70-72 | `count_tts_array!` is the number of token trees |
| MacroBasic.FirstOfPairs | my_macro/src/basic.rs:85-89 | the `$($a:tt $b:tt)*` repetition keeps the first tree of each pair, half as many |
| MacroBasic.CountTtsBitIsLength | my_macro/src/basic.rs:85-89 | `count_tts_bit!`, halving by odd and even counts, is the number of token trees |
| MacroBasic.IndexOf | my_macro/src/basic.rs:74-83 | the first position of a name, or None exactly when it is absent |
| MacroBasic.CountIdentsIsLength | my_macro/src/basic.rs:74-83 | distinct identifiers count to their number; a repeated one does not compile |
| MacroBasic.MainAssertions | my_macro/src/basic.rs:97-131 | the assertions of `main`: 3, 4, 700 and 3 |
| MacroPushdown.EvalBlock | my_macro/src/pushdown_acc.rs:13-16 | the block evaluates to one value per element |
| MacroPushdown.InitArrayAccumShape | my_macro/src/pushdown_acc.rs:3-10 | the accumulator appends n clones of `e` for n up to 3 and has no rule otherwise |
| MacroPushdown.InitArrayResult | my_macro/src/pushdown_acc.rs:2-18 | `init_array![e; n]` is n copies of the value of `e`, which is evaluated once; other counts do not expand |
| MacroPushdown.InitArray1AccumShape | my_macro/src/pushdown_acc.rs:22-29 | the accumulator appends `e+(4-n)` up to `e+3` for n up to 3 and has no rule otherwise |
| MacroPushdown.InitArray1Result | my_macro/src/pushdown_acc.rs:20-37 | `init_array1![e; n; first x]` is `[x, e+(4-n), ..., e+3]`, n + 1 elements, with `e` evaluated once |
| MacroPushdown.NoUserExpr | my_macro/src/pushdown_acc.rs:13-15 | a block whose elements never repeat the caller's expression evaluates it exactly once |
| MacroRecurrence.CountExprsIsLength | my_macro/src/lib.rs:38-49 | `count_exprs!` is 1 for no expression and the number of expressions otherwise |
| MacroRecurrence.Index | my_macro/src/lib.rs:74-85 | a read through `IndexOffset` that does not panic returns a value of the window |
| MacroRecurrence.IndexReadsBack | my_macro/src/lib.rs:74-85 | with offset `ind`, index `ind - k` reads `mem[MEM_SIZE - k]` for 1 <= k <= MEM_SIZE |
| MacroRecurrence.Window | my_macro/src/lib.rs:96-108 | the window before an index holds MEM_SIZE elements |
| MacroRecurrence.FirstWindow | my_macro/src/lib.rs:115 | the first window is the initial values |
| MacroRecurrence.WindowShift | my_macro/src/lib.rs:101-108 | advancing one index drops the oldest element and appends the newest |
| MacroRecurrence.WindowAt | my_macro/src/lib.rs:90-112 | the window after any number of calls holds MEM_SIZE elements |
| MacroRecurrence.Recurrence.constructor | my_macro/src/lib.rs:115 | the iterator starts at position 0 with `mem` the initial values and MEM_SIZE their `count_exprs!` |
| MacroRecurrence.Recurrence.Next | my_macro/src/lib.rs:90-112 | returns the element at the old position (never None), advances the position by one, and leaves `mem` as it was during the first MEM_SIZE calls and shifted by one with the new value last afterwards |
| MacroRecurrence.FibIsFibonacci | my_macro/src/lib.rs:141-142 | the `fib` instance yields 0, 1 and then each element the sum of the two before |
| HexDump.Lines | test_mem/src/main.rs:20-32 | one line per complete 16-byte block |
| HexDump.PrintLine | test_mem/src/main.rs:21-30 | one iteration prints the label, the sixteen cells of the block and a newline |
| HexDump.ReadExact | test_mem/src/main.rs:20 | `read_exact` puts the 16 bytes at the file position into the buffer |
| HexDump.Dump | test_mem/src/main.rs:17-32 | the output is the lines of every complete block at offsets 0, 16, 32, ...; a trailing partial block is not printed |
| HexDump.LinesPrefix | test_mem/src/main.rs:20-31 | after k + 1 iterations the output is the first k + 1 lines, and block k lies inside the file |
| HexDump.CellRoundTrip | test_mem/src/main.rs:23-27 | each cell is three characters and shows its byte unambiguously: `.  ` for 0x00, `## ` for 0xff, two hex digits otherwise |
| HexDump.CellsAt | test_mem/src/main.rs:22-28 | the cells of a block sit side by side, three characters each, in byte order |
| HexDump.LineParts | test_mem/src/main.rs:21-30 | a line is its 13-character label, its cells and a newline |
| HexDump.LineLayout | test_mem/src/main.rs:21-30 | a line for an offset below 2^32 is 62 characters: `[0x`, eight hex digits reading back as the offset, `] `, sixteen cells reading back as the bytes, a newline |
| Hex.PaddedExact | test_mem/src/main.rs:21 | `{:0wx}` of a value below 16^w is exactly w lower-case hex digits reading back as the value |
| Hex.MinimalValue | stack_print/src/main.rs:12-13 | the `{:x}` rendering reads back as the number |
| Hex.MinimalLeading | stack_print/src/main.rs:12-13 | the `{:x}` rendering has no leading zero, except for zero itself |
| Hex.MinimalLength | stack_print/src/main.rs:12-13 | a value below 16^k renders in at most k digits |
| StackMemory.SubWrap | stack_print/src/main.rs:12-16 | address subtraction agrees with `-` when it does not wrap below zero |
| StackPrintC.Chain | stack_print/stack_print.c:20-26 | a walk within the iteration bound visits at most that many frames |
| StackPrintC.PrintStackTrace | stack_print/stack_print.c:12-28 | the loop visits the frames of `Chain` and prints `Output`: header, three lines per frame and the footer unless a read faulted; every fp dereferenced was non-null and below the ceiling |
| StackPrintC.PrintFrame | stack_print/stack_print.c:21-23 | one iteration appends its three lines to what was printed |
| StackPrintC.Finish | stack_print/stack_print.c:27 | after the loop, the footer follows the frames unless a read faulted |
| StackPrintC.Advance | stack_print/stack_print.c:25 | one iteration continues the walk at the word stored at fp-16 |
| StackPrintC.NullStart | stack_print/stack_print.c:20 | a null frame pointer prints only the header and the footer |
| StackPrintC.ChainFacts | stack_print/stack_print.c:20-26 | every visited fp was plausible, its printed words are those stored at fp-8 and fp-16, and the next fp is the old stack pointer printed |
| StackPrintC.FiniteChain | stack_print/stack_print.c:19-27 | a chain of N frames ending in a null or out-of-range link is walked completely: its N frames in order, then the footer |
| StackPrintC.RetLineFormat | stack_print/stack_print.c:21 | the return-address line shows `0x` and exactly 16 lower-case hex digits reading back as the word |
| StackPrintC.OldLineFormat | stack_print/stack_print.c:22 | the old-stack-pointer line shows `0x` and exactly 16 lower-case hex digits reading back as the word |
| StackPrintRust.Chain | stack_print/src/main.rs:9-20 | a walk within the iteration bound visits at most that many frame pointers |
| StackPrintRust.Walk | stack_print/src/main.rs:9-22 | the loop visits the frame pointers of `Chain` and prints `Output`; every fp dereferenced was plausible |
| StackPrintRust.PrintFrame | stack_print/src/main.rs:12-14 | one iteration appends its three `println!` lines to what was printed |
| StackPrintRust.Finish | stack_print/src/main.rs:22 | after the loop, the footer follows the frames unless a read faulted |
| StackPrintRust.FaultStep | stack_print/src/main.rs:16 | an unmapped slot 128 bytes below fp ends the walk after that frame is printed |
| StackPrintRust.Advance | stack_print/src/main.rs:16 | one iteration continues the walk at the word stored 128 bytes below fp |
| StackPrintRust.NullStart | stack_print/src/main.rs:10 | a null frame pointer prints only the footer |
| StackPrintRust.ChainFacts | stack_print/src/main.rs:9-20 | every printed fp was plausible; each next one is the word 128 bytes below the previous; a fault happens only at the last; a footer means the last link left the plausible range |
| StackPrintRust.PointerFormat | stack_print/src/main.rs:12-13 | `{:p}` prints `0x` and 1 to 16 hex digits, without leading zeros, reading back as the address |

## Left out

- Input and output: reading the file in test_mem; the REPL, file input and `eprintln!` of math_lang's `main`; `print_idents!`, `print_items!`, `print_metas!` and `hello_marco!`, which only print; regex `dump` and `main`; tcp_rust's `main`. Standard output is modelled as a returned string.
- Inline assembly: the starting frame pointer of both walkers is a parameter. The Rust `asm!("mov rbp, {0}", out(reg) fp)` writes the register rather than reading it, so its starting value is unconstrained in any case.
- StackPrintC.PrintStackTrace, StackPrintRust.Walk: a frame-pointer chain need not end, so each walk runs for at most `bound` iterations; a walk that hits the bound stops without the footer.
- Source locations (`Loc`) in tokens, rules and errors are not modelled.
- MathLexer.IsAlphanumeric: `char::is_alphanumeric` is modelled on ASCII letters and digits only; Unicode letters and digits outside ASCII are not symbol characters here.
- The token API that math_lang's `main.rs` uses (kinds `Rule`, `Shape`, `Apply`, `Done`, `End`, `CloseParen`, token text) is not the one `lexer.rs` defines. The parser and the command machine are therefore modelled over abstract tokens (a kind and a text), and the lexer as written in `lexer.rs`.
- `TokenKindSet` is modelled as a set of kinds.
- The f64 factorial recurrence of the my_macro test: floating point.
- MacroRecurrence.FibIsFibonacci: values are unbounded integers, so the `u64` overflow of the Fibonacci instance past its 93rd element is not modelled.
- `init_array1!` without `first`: its expansion starts with `[,` and does not parse, so only the form with `first x` is modelled.
- my_macro's `parse.rs`, `callback.rs`, `repeat.rs`, `internal.rs` and examples, proc_mac, static_mut_ref and ls are not part of this model.
- Mutexes and condition variables: each locked call is one atomic step. A call that would wait on a condition variable returns `Wait`, and an `expect` that panics under the lock returns `Abort`.
- Packet building and parsing by etherparse, and checksums: both headers are taken to be 40 bytes in all (no options). Failures of `nic.send` and of header writing are not modelled; a sent segment is appended to the connection's `sent` log.
- `on_tick` (called by the packet loop but not defined), `packet_loop`'s polling and IP/TCP parsing, `Interface::new` with its thread, and the `Drop` implementations are not modelled.
- The TCB fields SND.UP, SND.WL1, SND.WL2, RCV.UP and `closed_at` are never read by the code and are not modelled.
- `iss + 2` in `on_packet` is a plain addition; with ISS = 0 it cannot overflow.
- Regex.Step: refuses a quantifier at the start of the pattern, a broader rule than needed. Only a leading quantifier followed by `+` (such as `*+` or `++`) builds the self-loop, so terminating patterns such as `*`, `+`, `*a` and `+a` are refused too; on every other pattern the corrected compiler agrees with the code (`Regex.CompileAgrees`).
- TcpSeq.SegLen: SEG.LEN adds one when SYN or FIN is set, once even when both are. This follows the code rather than RFC 793, which counts each flag.

## Findings

The command machine (`MathContext.Command` and `Context.ProcessCommand`) follows `Expr::parse` as written, so its lemmas hold for the code that runs; the corrected reading of the math_lang/src/main.rs:54-56 row, `parse_peekable` on the command's own stream, is `MathParser.ParseExpr` and `MathContext.SharedRule`, with the round trip proved for every head. The connection model uses the corrected RCV.NXT of the tcp_rust/src/tcp.rs:192 row, and the regex model uses the corrected compiler of the regex/src/main.rs:64-93 row.

| source | as written | input that shows it | evidently intended | confidence | as-written member | corrected member |
|---|---|---|---|---|---|---|
| regex/src/main.rs:64-93 | `*` as the first pattern character rewrites column 0 to all (1, 0); a following `+` clones it as column 1, whose every slot jumps to column 1 without consuming | pattern `*+` matched against any non-empty input: `match_str` repeats the same state and head forever | a quantifier needs an atom before it; such a pattern should be refused rather than compiled into a loop that never ends. The correction refuses every pattern that starts with a quantifier, so it also refuses `*`, `+`, `*a` and `+a`, which as written compile to tables that do terminate | not executed | Regex.LeadingQuantifierSelfLoop | Regex.CompileWellFormed |
| math_lang/src/main.rs:54-56 | `Expr::parse` wraps the caller's stream in a new `Peekable`; after a lone symbol the failed `next_if` for `(` leaves the next token in the wrapper, which is dropped | `rule r x = y` fails with `UnexpectedToken` expecting `=` at `y`; `shape x` followed by the end of the line loses the end token | the command arms read on the caller's stream with `parse_peekable`, losing nothing | not executed | MathContext.DefineSymbolHead | MathContext.SharedRuleTokens |
| tcp_rust/src/tcp.rs:192 | RCV.NXT is set with a plain `u32` addition `sequence_number() + 1` | a SYN with SEG.SEQ = 2^32 - 1 overflows, which panics in a debug build | RCV.NXT = SEG.SEQ + 1 modulo 2^32, as everywhere else in the file | not executed | TcpConnection.SynAtTopOverflows | TcpConnection.AcceptRcvNxtFollowsSyn |

=== FILE: hex.dfy ===
/**
 * Lower-case hexadecimal rendering, shared by the `{:0Nx}` style formatters
 * of the hex dump (test_mem) and the stack walkers (stack_print).
 */
module Hex {

  /** A lower-case hexadecimal digit. */
  predicate IsDigit(c: char)
  {
    '0' <= c <= '9' || 'a' <= c <= 'f'
  }

  /** The lower-case hex digit for a value below 16. */
  function Digit(d: nat): (c: char)
    requires d < 16
    ensures IsDigit(c) && DigitValue(c) == d
  {
    if d < 10 then ('0' as int + d) as char else ('a' as int + d - 10) as char
  }

  /** The value of a lower-case hex digit (0 for any other character). */
  function DigitValue(c: char): (d: nat)
    ensures d < 16
  {
    if '0' <= c <= '9' then c as int - '0' as int
    else if 'a' <= c <= 'f' then c as int - 'a' as int + 10
    else 0
  }

  predicate AllHex(s: string)
  {
    forall i :: 0 <= i < |s| ==> IsDigit(s[i])
  }

  /** Minimal hex rendering of n (no leading zeros; "0" for zero), as Rust's `{:x}` prints it. */
  function Minimal(n: nat): (s: string)
    decreases n
  {
    if n < 16 then [Digit(n)] else Minimal(n / 16) + [Digit(n % 16)]
  }

  /** `{:0wx}`: the minimal rendering left-padded with '0' up to width w (never truncated). */
  function Padded(n: nat, w: nat): (s: string)
  {
    var m := Minimal(n);
    if |m| < w then Zeros(w - |m|) + m else m
  }

  function Zeros(z: nat): (s: string)
    ensures |s| == z
  {
    seq(z, _ => '0')
  }

  /** The value a string of hex digits denotes, most significant first. */
  function Value(s: string): (n: nat)
  {
    if s == [] then 0 else Value(s[..|s| - 1]) * 16 + DigitValue(s[|s| - 1])
  }

  /** `16^k`. */
  function Pow16(k: nat): (p: nat)
    ensures p >= 1
  {
    if k == 0 then 1 else 16 * Pow16(k - 1)
  }

  /** Sixteen hex digits hold exactly the 64-bit values. */
  lemma Pow16Sixteen()
    ensures Pow16(16) == 0x1_0000_0000_0000_0000
  {
    assert Pow16(4) == 0x1_0000;
    assert Pow16(8) == 0x1_0000_0000 by {
      assert Pow16(8) == 16 * 16 * 16 * 16 * Pow16(4);
    }
    assert Pow16(12) == 16 * 16 * 16 * 16 * Pow16(8);
    assert Pow16(16) == 16 * 16 * 16 * 16 * Pow16(12);
  }

  lemma {:induction false} MinimalDigits(n: nat)
    ensures |Minimal(n)| >= 1 && AllHex(Minimal(n))
    decreases n
  {
    if n >= 16 { MinimalDigits(n / 16); }
  }

  /** Reading back the minimal rendering gives the number. */
  lemma {:induction false} MinimalValue(n: nat)
    ensures Value(Minimal(n)) == n
    decreases n
  {
    if n >= 16 {
      MinimalValue(n / 16);
      var m := Minimal(n);
      assert m[..|m| - 1] == Minimal(n / 16);
      assert DigitValue(m[|m| - 1]) == n % 16;
      assert Value(m) == Value(Minimal(n / 16)) * 16 + n % 16;
    }
  }

  /** The minimal rendering has no leading zero, except for zero itself. */
  lemma {:induction false} MinimalLeading(n: nat)
    ensures |Minimal(n)| >= 1 && (Minimal(n)[0] == '0' <==> n == 0)
    decreases n
  {
    if n >= 16 {
      MinimalLeading(n / 16);
      assert Minimal(n)[0] == Minimal(n / 16)[0];
    } else {
      assert DigitValue(Minimal(n)[0]) == n;
    }
  }

  /** A value below 16^k renders in at most k digits (k >= 1). */
  lemma {:induction false} MinimalLength(n: nat, k: nat)
    requires k >= 1 && n < Pow16(k)
    ensures |Minimal(n)| <= k
    decreases k
  {
    if n >= 16 {
      assert k >= 2;
      MinimalLength(n / 16, k - 1);
    }
  }

  lemma {:induction false} ZerosValue(z: nat)
    ensures Value(Zeros(z)) == 0
    decreases z
  {
    if z > 0 {
      ZerosValue(z - 1);
      assert Zeros(z)[..z - 1] == Zeros(z - 1);
    }
  }

  /** Leading zeros do not change the value. */
  lemma {:induction false} LeadingZerosValue(z: nat, m: string)
    ensures Value(Zeros(z) + m) == Value(m)
    decreases |m|
  {
    if m == [] {
      ZerosValue(z);
      assert Zeros(z) + m == Zeros(z);
    } else {
      LeadingZerosValue(z, m[..|m| - 1]);
      assert (Zeros(z) + m)[..z + |m| - 1] == Zeros(z) + m[..|m| - 1];
    }
  }

  /**
   * `{:0wx}` of a value below 16^w is exactly w lower-case hex digits whose value is n:
   * the padded field is fixed-width and reads back as the number.
   */
  lemma PaddedExact(n: nat, w: nat)
    requires w >= 1 && n < Pow16(w)
    ensures |Padded(n, w)| == w
    ensures AllHex(Padded(n, w))
    ensures Value(Padded(n, w)) == n
  {
    MinimalLength(n, w);
    MinimalDigits(n);
    MinimalValue(n);
    var m := Minimal(n);
    if |m| < w {
      LeadingZerosValue(w - |m|, m);
    }
  }
}

=== FILE: hexdump.dfy ===
/**
 * test_mem/src/main.rs: the hex viewer's loop that reads the file 16 bytes at
 * a time and prints one line per complete block. The file is given as its
 * byte sequence and standard output as the returned string.
 */
module HexDump {
  import Hex
  import opened Wrappers

  type u8 = x: int | 0 <= x < 256

  const BytesPerLine: nat := 16

  /** The cell printed for one byte: `.  ` for 0x00, `## ` for 0xff, else `{:02x} `. */
  function Cell(b: u8): (c: string)
  {
    if b == 0x00 then ".  " else if b == 0xff then "## " else Hex.Padded(b, 2) + " "
  }

  /** The label `[0x{:08x}] ` that starts a line. */
  function Label(pos: nat): (s: string)
  {
    "[0x" + Hex.Padded(pos, 8) + "] "
  }

  /** The cells of a block, in order. */
  function Cells(block: seq<u8>): (s: string)
  {
    if block == [] then "" else Cells(block[..|block| - 1]) + Cell(block[|block| - 1])
  }

  /** The line printed for the block at file offset `pos`. */
  function Line(pos: nat, block: seq<u8>): (s: string)
  {
    Label(pos) + Cells(block) + "\n"
  }

  /** The lines printed for a whole file: one per complete 16-byte block, the offset growing by 16. */
  function Lines(data: seq<u8>): (ls: seq<string>)
    ensures |ls| == |data| / BytesPerLine
  {
    seq(|data| / BytesPerLine, i requires 0 <= i < |data| / BytesPerLine =>
      Line(BytesPerLine * i, data[BytesPerLine * i .. BytesPerLine * i + BytesPerLine]))
  }

  function Concat(ls: seq<string>): string
  {
    if ls == [] then "" else Concat(ls[..|ls| - 1]) + ls[|ls| - 1]
  }

  lemma ConcatSnoc(ls: seq<string>, l: string)
    ensures Concat(ls + [l]) == Concat(ls) + l
  {
    assert (ls + [l])[..|ls|] == ls;
  }

  lemma LinesPrefix(data: seq<u8>, k: nat)
    requires k < |data| / BytesPerLine
    ensures BytesPerLine * k + BytesPerLine <= |data|
    ensures Concat(Lines(data)[..k + 1])
         == Concat(Lines(data)[..k]) + Line(BytesPerLine * k, data[BytesPerLine * k .. BytesPerLine * k + BytesPerLine])
  {
    var ls := Lines(data);
    assert ls[..k + 1] == ls[..k] + [ls[k]];
    ConcatSnoc(ls[..k], ls[k]);
  }

  /** The body of `main`'s loop for one block: the label, the 16 cells from the `for byte in &buffer` loop, a newline. */
  method PrintLine(pos: nat, buffer: array<u8>) returns (out: string)
    ensures out == Line(pos, buffer[..])
  {
    var cells := "";
    for i := 0 to buffer.Length
      invariant cells == Cells(buffer[..i])
    {
      assert buffer[..i + 1][..i] == buffer[..i];
      cells := cells + Cell(buffer[i]);
    }
    assert buffer[..buffer.Length] == buffer[..];
    out := Label(pos) + cells + "\n";
  }

  /** `read_exact` on the file at offset `pos`: the next 16 bytes land in `buffer`. */
  method ReadExact(data: seq<u8>, pos: nat, buffer: array<u8>)
    requires buffer.Length == BytesPerLine && pos + BytesPerLine <= |data|
    modifies buffer
    ensures buffer[..] == data[pos..pos + BytesPerLine]
  {
    forall j | 0 <= j < BytesPerLine {
      buffer[j] := data[pos + j];
    }
  }

  /**
   * `main`'s loop: while a whole block can be read into `buffer`, print its
   * line and advance `pos` by 16. A trailing partial block fails `read_exact`
   * and ends the loop unprinted.
   */
  method Dump(data: seq<u8>) returns (out: string)
    ensures out == Concat(Lines(data))
  {
    var pos: nat := 0;
    ghost var k: nat := 0;
    var buffer := new u8[BytesPerLine];
    out := "";
    while pos + BytesPerLine <= |data|
      invariant pos == BytesPerLine * k && pos <= |data|
      invariant k <= |data| / BytesPerLine
      invariant out == Concat(Lines(data)[..k])
    {
      DivBound(|data|, k);
      LinesPrefix(data, k);
      ReadExact(data, pos, buffer);
      var line := PrintLine(pos, buffer);
      out := out + line;
      pos := pos + BytesPerLine;
      k := k + 1;
    }
    DivExact(|data|, k);
    assert Lines(data)[..k] == Lines(data);
  }

  lemma DivBound(n: nat, k: nat)
    requires BytesPerLine * k + BytesPerLine <= n
    ensures k + 1 <= n / BytesPerLine
  {
  }

  lemma DivExact(n: nat, k: nat)
    requires BytesPerLine * k <= n < BytesPerLine * k + BytesPerLine
    ensures k == n / BytesPerLine
  {
  }

  /** Reading a cell back: the byte it shows. */
  function DecodeCell(c: string): (b: Option<u8>)
  {
    if c == ".  " then Some(0x00)
    else if c == "## " then Some(0xff)
    else if |c| == 3 && Hex.IsDigit(c[0]) && Hex.IsDigit(c[1]) && c[2] == ' ' then
      var v := Hex.Value(c[..2]);
      if v < 256 then Some(v) else None
    else None
  }

  /** Every cell is three characters and shows its byte unambiguously. */
  lemma CellRoundTrip(b: u8)
    ensures |Cell(b)| == 3
    ensures DecodeCell(Cell(b)) == Some(b)
  {
    if b != 0x00 && b != 0xff {
      Hex.PaddedExact(b, 2);
      var c := Cell(b);
      assert c[..2] == Hex.Padded(b, 2);
      assert c[0] != '.' && c[0] != '#';
    }
  }

  /** The cells of a block are its bytes' cells side by side, three characters each. */
  lemma {:induction false} CellsAt(block: seq<u8>, i: nat)
    requires i < |block|
    ensures |Cells(block)| == 3 * |block|
    ensures Cells(block)[3 * i .. 3 * i + 3] == Cell(block[i])
  {
    CellRoundTrip(block[|block| - 1]);
    if i < |block| - 1 {
      CellsAt(block[..|block| - 1], i);
    } else if |block| > 1 {
      CellsAt(block[..|block| - 1], 0);
    }
  }

  /** A line is its 13-character label, its cells and a newline. */
  lemma LineParts(pos: nat, block: seq<u8>)
    requires |block| == BytesPerLine && pos < Hex.Pow16(8)
    ensures var l := Line(pos, block);
      |l| == 62 && l[..13] == Label(pos) && l[13..61] == Cells(block) && l[61] == '\n'
    ensures |Hex.Padded(pos, 8)| == 8
  {
    Hex.PaddedExact(pos, 8);
    CellsAt(block, 0);
  }

  /**
   * A line for an offset below 2^32 is 62 characters: `[0x`, eight hex digits
   * reading back as the offset, `] `, the 16 cells reading back as the bytes,
   * and a newline.
   */
  lemma LineLayout(pos: nat, block: seq<u8>)
    requires |block| == BytesPerLine && pos < Hex.Pow16(8)
    ensures var l := Line(pos, block);
      |l| == 62 && l[..3] == "[0x" && l[11..13] == "] " && l[61] == '\n' &&
      Hex.AllHex(l[3..11]) && Hex.Value(l[3..11]) == pos &&
      forall i :: 0 <= i < BytesPerLine ==> DecodeCell(l[13 + 3 * i .. 16 + 3 * i]) == Some(block[i])
  {
    var l := Line(pos, block);
    LineParts(pos, block);
    Hex.PaddedExact(pos, 8);
    var lab := Label(pos);
    assert lab[3..11] == Hex.Padded(pos, 8);
    assert l[3..11] == lab[3..11];
    forall i | 0 <= i < BytesPerLine
      ensures DecodeCell(l[13 + 3 * i .. 16 + 3 * i]) == Some(block[i])
    {
      CellsAt(block, i);
      CellRoundTrip(block[i]);
      assert l[13 + 3 * i .. 16 + 3 * i] == l[13..61][3 * i .. 3 * i + 3];
    }
  }
}

=== FILE: macro_basic.dfy ===
/**
 * The token-tree counting macros of my_macro/src/basic.rs. A macro invocation's
 * input is a sequence of token trees (an uninterpreted type `T`); each macro is
 * modelled by the value its expansion evaluates to, following its rewrite
 * rules one rule application per recursive call.
 */
module MacroBasic {
  import opened Wrappers

  /** `count_tts!`: `0usize` followed by `+ 1usize` for each tree, summed left to right. */
  function CountTts<T>(tts: seq<T>): (n: nat)
  {
    if tts == [] then 0 else CountTts(tts[..|tts| - 1]) + 1
  }

  /** `count_tts_r!`: `1usize + count_tts_r!(tail)`, and `0usize` for no input. */
  function CountTtsR<T>(tts: seq<T>): (n: nat)
  {
    if tts == [] then 0 else 1 + CountTtsR(tts[1..])
  }

  /**
   * `count_tts_r_impr!`: the rules are tried in order, so a chunk of 20 is
   * taken when there are at least 20 trees, else 10, else 5, else 1.
   */
  function CountTtsRImpr<T>(tts: seq<T>): (n: nat)
    decreases |tts|
  {
    if |tts| >= 20 then 20 + CountTtsRImpr(tts[20..])
    else if |tts| >= 10 then 10 + CountTtsRImpr(tts[10..])
    else if |tts| >= 5 then 5 + CountTtsRImpr(tts[5..])
    else if |tts| >= 1 then 1 + CountTtsRImpr(tts[1..])
    else 0
  }

  /** `count_tts_array!`: the length of the slice `[(), (), …]` holding one unit per tree. */
  function CountTtsArray<T>(tts: seq<T>): (n: nat)
    ensures n == |tts|
  {
    |seq(|tts|, _ => ())|
  }

  /** The trees picked by the repetition `$($a:tt $b:tt)*`: the first of each pair. */
  function FirstOfPairs<T>(tts: seq<T>): (r: seq<T>)
    requires |tts| % 2 == 0
    ensures |r| == |tts| / 2
    ensures forall i :: 0 <= i < |r| ==> r[i] == tts[2 * i]
  {
    seq(|tts| / 2, i requires 0 <= i < |tts| / 2 => tts[2 * i])
  }

  /** `x << 1` on a non-negative integer. */
  function Shl1(x: nat): nat { 2 * x }

  /** `x | 1` on a non-negative integer. */
  function Or1(x: nat): nat { if x % 2 == 0 then x + 1 else x }

  /**
   * `count_tts_bit!`: an odd count matches `$odd:tt $($a:tt $b:tt)*` and gives
   * `(count_tts_bit!($($a)*) << 1) | 1`; an even, non-zero count falls through to
   * `$($a:tt $even:tt)*` and gives `count_tts_bit!($($a)*) << 1`.
   */
  function CountTtsBit<T>(tts: seq<T>): (n: nat)
    decreases |tts|
  {
    if tts == [] then 0
    else if |tts| % 2 == 1 then Or1(Shl1(CountTtsBit(FirstOfPairs(tts[1..]))))
    else Shl1(CountTtsBit(FirstOfPairs(tts)))
  }

  /** The first position of `x` in `s`, if any. */
  function IndexOf(s: seq<string>, x: string): (r: Option<nat>)
    ensures r.Some? ==> r.value < |s| && s[r.value] == x && x !in s[..r.value]
    ensures r.None? <==> x !in s
  {
    if s == [] then None
    else if s[0] == x then Some(0)
    else match IndexOf(s[1..], x)
      case None => None
      case Some(i) =>
        assert s[..i + 1] == [s[0]] + s[1..][..i];
        Some(i + 1)
  }

  predicate Distinct(s: seq<string>)
  {
    forall i, j :: 0 <= i < j < |s| ==> s[i] != s[j]
  }

  /** The variant name the expansion appends after the caller's identifiers. */
  const LastVariant: string := "__CountIdentsLast"

  /**
   * `count_idents!`: the discriminant of the extra last variant of
   * `enum Idents { $($idents,)* __CountIdentsLast }`. A repeated variant name
   * does not compile: None.
   */
  function CountIdents(idents: seq<string>): (r: Option<nat>)
  {
    var variants := idents + [LastVariant];
    if Distinct(variants) then IndexOf(variants, LastVariant) else None
  }

  lemma {:induction false} CountTtsIsLength<T>(tts: seq<T>)
    ensures CountTts(tts) == |tts|
  {
    if tts != [] { CountTtsIsLength(tts[..|tts| - 1]); }
  }

  lemma {:induction false} CountTtsRIsLength<T>(tts: seq<T>)
    ensures CountTtsR(tts) == |tts|
  {
    if tts != [] { CountTtsRIsLength(tts[1..]); }
  }

  lemma {:induction false} CountTtsRImprIsLength<T>(tts: seq<T>)
    ensures CountTtsRImpr(tts) == |tts|
    decreases |tts|
  {
    if |tts| >= 20 { CountTtsRImprIsLength(tts[20..]); }
    else if |tts| >= 10 { CountTtsRImprIsLength(tts[10..]); }
    else if |tts| >= 5 { CountTtsRImprIsLength(tts[5..]); }
    else if |tts| >= 1 { CountTtsRImprIsLength(tts[1..]); }
  }

  lemma {:induction false} CountTtsBitIsLength<T>(tts: seq<T>)
    ensures CountTtsBit(tts) == |tts|
    decreases |tts|
  {
    if tts == [] {
    } else if |tts| % 2 == 1 {
      CountTtsBitIsLength(FirstOfPairs(tts[1..]));
    } else {
      CountTtsBitIsLength(FirstOfPairs(tts));
    }
  }

  /** Distinct identifiers, none of them the appended variant, count to their number; a repeat does not compile. */
  lemma CountIdentsIsLength(idents: seq<string>)
    ensures Distinct(idents) && LastVariant !in idents ==> CountIdents(idents) == Some(|idents|)
    ensures !Distinct(idents) ==> CountIdents(idents) == None
  {
    var variants := idents + [LastVariant];
    if Distinct(idents) && LastVariant !in idents {
      assert Distinct(variants);
      assert variants[..|idents|] == idents;
    }
    if !Distinct(idents) {
      var i, j :| 0 <= i < j < |idents| && idents[i] == idents[j];
      assert variants[i] == variants[j];
    }
  }

  /** The assertions of basic.rs's `main`: 3 for `0 1 2`, 4 for `0 1 2 4`, 700 for 700 commas, 3 for `A, B, C`. */
  lemma MainAssertions()
    ensures CountTts([0, 1, 2]) == 3
    ensures CountTtsR([0, 1, 2, 4]) == 4
    ensures CountTtsRImpr(seq(700, _ => ',')) == 700
    ensures CountIdents(["A", "B", "C"]) == Some(3)
  {
    CountTtsIsLength([0, 1, 2]);
    CountTtsRImprIsLength(seq(700, _ => ','));
    CountIdentsIsLength(["A", "B", "C"]);
  }
}

=== FILE: macro_pushdown.dfy ===
/**
 * The push-down accumulator macros `init_array!` and `init_array1!` of
 * my_macro/src/pushdown_acc.rs. An expansion is modelled as the list of
 * element expressions it leaves inside `{ let e = $e; [ … ] }`; evaluating the
 * block evaluates the caller's expression once, in the `let`, and then each
 * element.
 */
module MacroPushdown {
  import opened Wrappers

  /** An element expression the accumulator emits. */
  datatype Item =
    | CloneOfE               // `e.clone()`
    | CloneOfEPlus(k: int)   // `e.clone()+k`
    | First                  // the `first` expression of `init_array1!`
    | UserExpr               // the caller's `$e` itself (never emitted by these macros)

  /**
   * `init_array!(@accum (n, e) -> (body))`: the rules for 1, 2 and 3 append
   * `e,` and continue with one less; the rule for 0 closes the array; any other
   * count has no rule, so the invocation does not expand (None).
   */
  function InitArrayAccum(n: nat, body: seq<Item>): (r: Option<seq<Item>>)
  {
    if n == 0 then Some(body)
    else if n <= 3 then InitArrayAccum(n - 1, body + [CloneOfE])
    else None
  }

  /** `init_array![e; n]`: the accumulation started with an empty body. */
  function InitArray(n: nat): (r: Option<seq<Item>>)
  {
    InitArrayAccum(n, [])
  }

  /** `init_array1!(@accum (n, e) -> (body))`: the rule for n appends `e+(4-n),`. */
  function InitArray1Accum(n: nat, body: seq<Item>): (r: Option<seq<Item>>)
  {
    if n == 0 then Some(body)
    else if n <= 3 then InitArray1Accum(n - 1, body + [CloneOfEPlus(4 - n)])
    else None
  }

  /** `init_array1![e; n; first x]`: the accumulation started with the body `x,`. */
  function InitArray1(n: nat): (r: Option<seq<Item>>)
  {
    InitArray1Accum(n, [First])
  }

  /** The value of one element, given the value `e` of the `let` and the `first` value. */
  function EvalItem(it: Item, e: int, first: int, user: int): int
  {
    match it
    case CloneOfE => e
    case CloneOfEPlus(k) => e + k
    case First => first
    case UserExpr => user
  }

  /** The array a block evaluates to. */
  function EvalBlock(items: seq<Item>, e: int, first: int): (r: seq<int>)
    ensures |r| == |items|
  {
    seq(|items|, i requires 0 <= i < |items| => EvalItem(items[i], e, first, e))
  }

  /** How many times the caller's expression is evaluated: once in the `let`, once per `UserExpr` element. */
  function Evaluations(items: seq<Item>): (c: nat)
  {
    if items == [] then 1 else Evaluations(items[1..]) + (if items[0] == UserExpr then 1 else 0)
  }

  lemma {:induction false} InitArrayAccumShape(n: nat, body: seq<Item>)
    ensures n <= 3 ==> InitArrayAccum(n, body) == Some(body + seq(n, _ => CloneOfE))
    ensures n > 3 ==> InitArrayAccum(n, body) == None
  {
    if 1 <= n <= 3 {
      InitArrayAccumShape(n - 1, body + [CloneOfE]);
      assert body + [CloneOfE] + seq(n - 1, _ => CloneOfE) == body + seq(n, _ => CloneOfE);
    } else if n == 0 {
      assert body + seq(n, _ => CloneOfE) == body;
    }
  }

  /** `init_array![e; n]` gives n clones of the one value of `e` for n in 0..3 and does not expand otherwise. */
  lemma InitArrayResult(n: nat, e: int)
    ensures n <= 3 ==> InitArray(n).Some? && EvalBlock(InitArray(n).value, e, 0) == seq(n, _ => e)
    ensures n <= 3 ==> Evaluations(InitArray(n).value) == 1
    ensures n > 3 ==> InitArray(n) == None
  {
    InitArrayAccumShape(n, []);
    if n <= 3 {
      assert [] + seq(n, _ => CloneOfE) == seq(n, _ => CloneOfE);
      NoUserExpr(seq(n, _ => CloneOfE));
    }
  }

  lemma {:induction false} InitArray1AccumShape(n: nat, body: seq<Item>)
    ensures n <= 3 ==> InitArray1Accum(n, body) == Some(body + seq(n, i => CloneOfEPlus(4 - n + i)))
    ensures n > 3 ==> InitArray1Accum(n, body) == None
  {
    if 1 <= n <= 3 {
      InitArray1AccumShape(n - 1, body + [CloneOfEPlus(4 - n)]);
      assert [CloneOfEPlus(4 - n)] + seq(n - 1, i => CloneOfEPlus(4 - (n - 1) + i)) == seq(n, i => CloneOfEPlus(4 - n + i));
      assert body + [CloneOfEPlus(4 - n)] + seq(n - 1, i => CloneOfEPlus(4 - (n - 1) + i))
          == body + seq(n, i => CloneOfEPlus(4 - n + i));
    } else if n == 0 {
      assert body + seq(n, i => CloneOfEPlus(4 - n + i)) == body;
    }
  }

  /** `init_array1![e; n; first x]` is `[x, e+(4-n), …, e+3]`, n+1 elements, for n in 0..3; other counts do not expand. */
  lemma InitArray1Result(n: nat, e: int, x: int)
    ensures n <= 3 ==> InitArray1(n).Some? && |InitArray1(n).value| == n + 1
    ensures n <= 3 ==> var r := EvalBlock(InitArray1(n).value, e, x);
      r[0] == x && forall i :: 1 <= i <= n ==> r[i] == e + (4 - n) + (i - 1)
    ensures n <= 3 ==> Evaluations(InitArray1(n).value) == 1
    ensures n > 3 ==> InitArray1(n) == None
  {
    InitArray1AccumShape(n, [First]);
    if n <= 3 {
      NoUserExpr([First] + seq(n, i => CloneOfEPlus(4 - n + i)));
    }
  }

  lemma {:induction false} NoUserExpr(items: seq<Item>)
    requires UserExpr !in items
    ensures Evaluations(items) == 1
  {
    if items != [] { NoUserExpr(items[1..]); }
  }
}

=== FILE: macro_recurrence.dfy ===
/**
 * my_macro/src/lib.rs: the `count_exprs!` macro and the iterator that
 * `recurrence!` expands to. The recurrence's element type is modelled as
 * `int` and its recurrence expression as a function of the `IndexOffset` view
 * and of the index `ind`.
 */
module MacroRecurrence {
  import opened Wrappers

  /**
   * `count_exprs!`: `1` for no input and for one expression, and
   * `1 + count_exprs!(tail)` for a head followed by more.
   */
  function CountExprs<T>(es: seq<T>): (n: nat)
  {
    if |es| <= 1 then 1 else 1 + CountExprs(es[1..])
  }

  /** One expression or more count to their number; no expression counts as 1. */
  lemma {:induction false} CountExprsIsLength<T>(es: seq<T>)
    ensures CountExprs(es) == if es == [] then 1 else |es|
  {
    if |es| > 1 { CountExprsIsLength(es[1..]); }
  }

  const UsizeModulus: nat := 0x1_0000_0000_0000_0000

  /** `IndexOffset`: the window `slice` seen through the absolute index `offset`. */
  datatype IndexOffset = IndexOffset(slice: seq<int>, offset: nat)

  /**
   * `IndexOffset::index`: the real index `index - offset + MEM_SIZE` computed
   * with `Wrapping<usize>`; a real index outside the window panics (None).
   */
  function Index(io: IndexOffset, index: nat): (r: Option<int>)
    ensures r.Some? ==> r.value in io.slice
  {
    var at := (index - io.offset + |io.slice|) % UsizeModulus;
    if at < |io.slice| then Some(io.slice[at]) else None
  }

  /** With offset `ind`, the index `ind - k` reads the k-th newest slot `mem[MEM_SIZE - k]`. */
  lemma IndexReadsBack(w: seq<int>, ind: nat, k: nat)
    requires 1 <= k <= |w| < UsizeModulus && k <= ind
    ensures Index(IndexOffset(w, ind), ind - k) == Some(w[|w| - k])
  {
    assert (ind - k - ind + |w|) % UsizeModulus == |w| - k;
  }

  /**
   * The k-th element of the sequence a recurrence defines: the initial values
   * first, then the recurrence evaluated with `ind = k` over the window of the
   * `|inits|` elements before it.
   */
  function Elem(inits: seq<int>, recur: (IndexOffset, nat) -> int, k: nat): int
    requires |inits| >= 1
    decreases k, 1
  {
    if k < |inits| then inits[k] else recur(IndexOffset(Window(inits, recur, k), k), k)
  }

  /** The `|inits|` elements just before index k (k >= |inits|). */
  function Window(inits: seq<int>, recur: (IndexOffset, nat) -> int, k: nat): (w: seq<int>)
    requires |inits| >= 1 && k >= |inits|
    ensures |w| == |inits|
    decreases k, 0
  {
    seq(|inits|, j requires 0 <= j < |inits| => Elem(inits, recur, k - |inits| + j))
  }

  /** The first window is the initial values themselves. */
  lemma FirstWindow(inits: seq<int>, recur: (IndexOffset, nat) -> int)
    requires |inits| >= 1
    ensures Window(inits, recur, |inits|) == inits
  {
  }

  /** Advancing one index drops the oldest element and appends the newest. */
  lemma WindowShift(inits: seq<int>, recur: (IndexOffset, nat) -> int, k: nat)
    requires |inits| >= 1 && k >= |inits|
    ensures Window(inits, recur, k + 1) == Window(inits, recur, k)[1..] + [Elem(inits, recur, k)]
  {
  }

  /** The window `mem` holds after `pos` calls to `next`. */
  function WindowAt(inits: seq<int>, recur: (IndexOffset, nat) -> int, pos: nat): (w: seq<int>)
    requires |inits| >= 1
    ensures |w| == |inits|
  {
    Window(inits, recur, if pos < |inits| then |inits| else pos)
  }

  /** The iterator `recurrence!` builds: the window `mem` of MEM_SIZE values and the position `pos`. */
  class Recurrence {
    const inits: seq<int>
    const recur: (IndexOffset, nat) -> int
    const memSize: nat
    var mem: array<int>
    var pos: nat

    ghost predicate Valid()
      reads this, mem
    {
      |inits| >= 1 && memSize == |inits| && mem.Length == memSize &&
      mem[..] == WindowAt(inits, recur, pos)
    }

    /** `Recurrence { mem: [$($inits),+], pos: 0 }` with `MEM_SIZE = count_exprs!($($inits),+)`. */
    constructor (inits: seq<int>, recur: (IndexOffset, nat) -> int)
      requires |inits| >= 1
      ensures Valid() && fresh(mem)
      ensures this.inits == inits && this.recur == recur && pos == 0
      ensures memSize == CountExprs(inits) && mem[..] == inits
    {
      CountExprsIsLength(inits);
      this.inits := inits;
      this.recur := recur;
      memSize := CountExprs(inits);
      var m := new int[|inits|](i requires 0 <= i < |inits| => inits[i]);
      mem := m;
      pos := 0;
      FirstWindow(inits, recur);
    }

    /**
     * `Iterator::next`: returns the element at `pos` (never None). Below
     * MEM_SIZE it is an initial value read from `mem`; afterwards the
     * recurrence is evaluated with `ind = pos` and the window shifted by the
     * reverse swap loop.
     */
    method Next() returns (v: int)
      requires Valid()
      modifies this`pos, mem
      ensures Valid()
      ensures pos == old(pos) + 1
      ensures v == Elem(inits, recur, old(pos))
      ensures mem[..] == if old(pos) < memSize then old(mem[..]) else old(mem[..])[1..] + [v]
    {
      if pos < memSize {
        v := mem[pos];
        pos := pos + 1;
      } else {
        v := recur(IndexOffset(mem[..], pos), pos);
        ghost var was := mem[..];
        var swapTemp := v;
        var i := memSize;
        while i > 0
          modifies mem
          invariant 0 <= i <= memSize
          invariant mem[..i] == was[..i]
          invariant mem[i..] == (was + [v])[i + 1..]
          invariant swapTemp == (was + [v])[i]
        {
          i := i - 1;
          swapTemp, mem[i] := mem[i], swapTemp;
        }
        assert mem[..] == mem[0..];
        WindowShift(inits, recur, pos);
        pos := pos + 1;
      }
    }
  }

  /** `a[n-1] + a[n-2]`, the recurrence of the `fib` instance in `main` (a panicking read counts as 0). */
  function FibRecur(a: IndexOffset, n: nat): int
  {
    if n < 2 then 0 else Index(a, n - 1).GetOr(0) + Index(a, n - 2).GetOr(0)
  }

  /** `recurrence![a[n]: u64 = 0, 1; ...; a[n-1] + a[n-2]]` yields the Fibonacci numbers. */
  lemma FibIsFibonacci(n: nat)
    ensures Elem([0, 1], FibRecur, 0) == 0 && Elem([0, 1], FibRecur, 1) == 1
    ensures n >= 2 ==> Elem([0, 1], FibRecur, n) == Elem([0, 1], FibRecur, n - 1) + Elem([0, 1], FibRecur, n - 2)
  {
    if n >= 2 {
      var w := Window([0, 1], FibRecur, n);
      IndexReadsBack(w, n, 1);
      IndexReadsBack(w, n, 2);
    }
  }
}

=== FILE: math_context.dfy ===
/**
 * math_lang/src/main.rs: `Context::process_command`, one command of the
 * rewriting language over a token stream:
 *
 *   rule NAME HEAD = BODY    define a named rule
 *   shape EXPR               start shaping an expression
 *   apply NAME               rewrite the expression being shaped with a named rule
 *   apply rule HEAD = BODY   ... or with an anonymous rule
 *   done                     finish shaping
 *
 * What `println!` writes is kept as the string `printed`.
 */
module MathContext {
  import opened Wrappers
  import E = MathExpr
  import opened MathParser

  /** The keywords a command may start with. */
  const CommandKinds: set<TokenKind> := {Rule, Shape, Apply, Done}

  /** The context as a value: the named rules and the expression being shaped. */
  datatype State = State(rules: map<string, E.Rule>, current: Option<E.Expr>)

  /**
   * `HEAD = BODY`, as in `rule` and `apply rule`: `Expr::parse`, an expected
   * `=`, `Expr::parse`. Each `Expr::parse` loses the token after a lone symbol.
   */
  function ParseRule(toks: seq<Token>): (r: Result<(E.Rule, seq<Token>)>)
    ensures r.Ok? ==> SuffixOf(r.value.1, toks)
  {
    var head :- ParseWrapped(toks);
    var equals :- Expect(head.1, {Equals});
    var body :- ParseWrapped(equals.1);
    Ok((E.Rule(head.0, body.0), body.1))
  }

  /** `HEAD = BODY` read with `parse_peekable` on the command's own stream, so that no token is lost. */
  function SharedRule(toks: seq<Token>): (r: Result<(E.Rule, seq<Token>)>)
    ensures r.Ok? ==> SuffixOf(r.value.1, toks)
  {
    var head :- ParseExpr(toks);
    var equals :- Expect(head.1, {Equals});
    var body :- ParseExpr(equals.1);
    Ok((E.Rule(head.0, body.0), body.1))
  }

  /** Rewriting the shaped expression with a rule, and the line printed for it. */
  function Applied(rules: map<string, E.Rule>, rule: E.Rule, e: E.Expr, rest: seq<Token>): Result<(State, seq<Token>, string)>
  {
    match E.Rewritten(rule, e)
    case None => Panic(ExpectedSymbolInRule)
    case Some(e') => Ok((State(rules, Some(e')), rest, " => " + E.Show(e') + "\n"))
  }

  /**
   * `process_command`: the new state, the tokens left and the text printed,
   * or the error. On an error nothing of the context has changed.
   */
  function Command(st: State, toks: seq<Token>): Result<(State, seq<Token>, string)>
  {
    var keyword :- Expect(toks, CommandKinds);
    Dispatch(st, keyword.0.kind, keyword.1)
  }

  /** The `match` on the keyword. */
  function Dispatch(st: State, kind: TokenKind, toks: seq<Token>): Result<(State, seq<Token>, string)>
  {
    match kind
    case Rule => DefineCommand(st, toks)
    case Shape => ShapeCommand(st, toks)
    case Apply => ApplyCommand(st, toks)
    case Done => DoneCommand(st, toks)
    case _ => Panic(UnexpectedKind)
  }

  /** After `rule`: a fresh name, then `HEAD = BODY`. */
  function DefineCommand(st: State, toks: seq<Token>): Result<(State, seq<Token>, string)>
  {
    var name :- Expect(toks, {Sym});
    if name.0.text in st.rules then Err(RuleAlreadyExists(name.0.text))
    else
      var rule :- ParseRule(name.1);
      Ok((State(st.rules[name.0.text := rule.0], st.current), rule.1, "rule " + E.ShowRule(rule.0) + "\n"))
  }

  /** After `shape`: the expression to shape, unless one is being shaped already. */
  function ShapeCommand(st: State, toks: seq<Token>): Result<(State, seq<Token>, string)>
  {
    if st.current.Some? then Err(AlreadyShaping)
    else
      var e :- ParseWrapped(toks);
      Ok((State(st.rules, Some(e.0)), e.1, "shaping " + E.Show(e.0) + "\n"))
  }

  /** After `apply`: a rule name or an anonymous `rule HEAD = BODY`. */
  function ApplyCommand(st: State, toks: seq<Token>): Result<(State, seq<Token>, string)>
  {
    if st.current.None? then Err(NoShapingInPlace)
    else
      var token :- Expect(toks, {Sym, Rule});
      if token.0.kind == Sym then
        if token.0.text in st.rules then Applied(st.rules, st.rules[token.0.text], st.current.value, token.1)
        else Err(RuleDoesNotExist(token.0.text))
      else
        var rule :- ParseRule(token.1);
        Applied(st.rules, rule.0, st.current.value, rule.1)
  }

  /** `done`: stop shaping. */
  function DoneCommand(st: State, toks: seq<Token>): Result<(State, seq<Token>, string)>
  {
    if st.current.Some? then Ok((State(st.rules, None), toks, ""))
    else Err(NoShapingInPlace)
  }

  /** `Context`. */
  class Context {
    var rules: map<string, E.Rule>
    var current: Option<E.Expr>
    /** Everything `println!` has written. */
    var printed: string

    /** `Context::default()`. */
    constructor()
      ensures rules == map[] && current == None && printed == ""
    {
      rules := map[];
      current := None;
      printed := "";
    }

    function Snapshot(): State
      reads this
    {
      State(rules, current)
    }

    /** `Context::process_command`. */
    method ProcessCommand(lex: TokenStream) returns (r: Result<()>)
      modifies this, lex
      ensures r == Outcome(Command(old(Snapshot()), old(lex.toks)))
      ensures r.Ok? ==> var c := Command(old(Snapshot()), old(lex.toks)).value;
        Snapshot() == c.0 && lex.toks == c.1 && printed == old(printed) + c.2
      ensures !r.Ok? ==> Snapshot() == old(Snapshot()) && printed == old(printed)
    {
      var keyword := ExpectTokenKind(lex, CommandKinds);
      if !keyword.Ok? {
        return keyword.PropagateFailure();
      }
      match keyword.value.kind {
        case Rule => r := ProcessRule(lex);
        case Shape => r := ProcessShape(lex);
        case Apply => r := ProcessApply(lex);
        case Done => r := ProcessDone(lex);
        case _ => r := Panic(UnexpectedKind);
      }
    }

    /** The `rule` arm: a fresh name, then `HEAD = BODY`. */
    method ProcessRule(lex: TokenStream) returns (r: Result<()>)
      modifies this, lex
      ensures r == Outcome(DefineCommand(old(Snapshot()), old(lex.toks)))
      ensures r.Ok? ==> var c := DefineCommand(old(Snapshot()), old(lex.toks)).value;
        Snapshot() == c.0 && lex.toks == c.1 && printed == old(printed) + c.2
      ensures !r.Ok? ==> Snapshot() == old(Snapshot()) && printed == old(printed)
    {
      var name := ExpectTokenKind(lex, {Sym});
      if !name.Ok? {
        return name.PropagateFailure();
      }
      if name.value.text in rules {
        return Err(RuleAlreadyExists(name.value.text));
      }
      var rule := RuleDefinition(lex);
      if !rule.Ok? {
        return rule.PropagateFailure();
      }
      printed := printed + ("rule " + E.ShowRule(rule.value) + "\n");
      rules := rules[name.value.text := rule.value];
      return Ok(());
    }

    /** The `shape` arm. */
    method ProcessShape(lex: TokenStream) returns (r: Result<()>)
      modifies this, lex
      ensures r == Outcome(ShapeCommand(old(Snapshot()), old(lex.toks)))
      ensures r.Ok? ==> var c := ShapeCommand(old(Snapshot()), old(lex.toks)).value;
        Snapshot() == c.0 && lex.toks == c.1 && printed == old(printed) + c.2
      ensures !r.Ok? ==> Snapshot() == old(Snapshot()) && printed == old(printed)
    {
      if current.Some? {
        return Err(AlreadyShaping);
      }
      var e := Parse(lex);
      if !e.Ok? {
        return e.PropagateFailure();
      }
      printed := printed + ("shaping " + E.Show(e.value) + "\n");
      current := Some(e.value);
      return Ok(());
    }

    /** The `apply` arm: a rule name or an anonymous `rule HEAD = BODY`. */
    method ProcessApply(lex: TokenStream) returns (r: Result<()>)
      modifies this, lex
      ensures r == Outcome(ApplyCommand(old(Snapshot()), old(lex.toks)))
      ensures r.Ok? ==> var c := ApplyCommand(old(Snapshot()), old(lex.toks)).value;
        Snapshot() == c.0 && lex.toks == c.1 && printed == old(printed) + c.2
      ensures !r.Ok? ==> Snapshot() == old(Snapshot()) && printed == old(printed)
    {
      if current.None? {
        return Err(NoShapingInPlace);
      }
      var token := ExpectTokenKind(lex, {Sym, Rule});
      if !token.Ok? {
        return token.PropagateFailure();
      }
      var rule: E.Rule;
      if token.value.kind == Sym {
        if token.value.text !in rules {
          return Err(RuleDoesNotExist(token.value.text));
        }
        rule := rules[token.value.text];
      } else {
        var parsed := RuleDefinition(lex);
        if !parsed.Ok? {
          return parsed.PropagateFailure();
        }
        rule := parsed.value;
      }
      var e' := rule.ApplyAll(current.value);
      if e'.None? {
        return Panic(ExpectedSymbolInRule);
      }
      printed := printed + (" => " + E.Show(e'.value) + "\n");
      current := e';
      return Ok(());
    }

    /** The `done` arm. */
    method ProcessDone(lex: TokenStream) returns (r: Result<()>)
      modifies this
      ensures r == Outcome(DoneCommand(old(Snapshot()), lex.toks))
      ensures r.Ok? ==> var c := DoneCommand(old(Snapshot()), lex.toks).value;
        Snapshot() == c.0 && lex.toks == c.1 && printed == old(printed) + c.2
      ensures !r.Ok? ==> Snapshot() == old(Snapshot()) && printed == old(printed)
    {
      if current.None? {
        return Err(NoShapingInPlace);
      }
      current := None;
      assert printed + "" == printed;
      return Ok(());
    }
  }

  /** The outcome without the new state. */
  function Outcome(c: Result<(State, seq<Token>, string)>): Result<()>
  {
    match c
    case Ok(_) => Ok(())
    case Err(e) => Err(e)
    case Panic(p) => Panic(p)
  }

  /** `HEAD = BODY` on the stream: `Expr::parse`, `expect_token_kind` for `=`, `Expr::parse`. */
  method RuleDefinition(lex: TokenStream) returns (r: Result<E.Rule>)
    modifies lex
    ensures r == Value(ParseRule(old(lex.toks)))
    ensures r.Ok? ==> lex.toks == ParseRule(old(lex.toks)).value.1
  {
    var head := Parse(lex);
    if !head.Ok? {
      return head.PropagateFailure();
    }
    var equals := ExpectTokenKind(lex, {Equals});
    if !equals.Ok? {
      return equals.PropagateFailure();
    }
    var body := Parse(lex);
    if !body.Ok? {
      return body.PropagateFailure();
    }
    return Ok(E.Rule(head.value, body.value));
  }

  // ---------------------------------------------------------------- lemmas

  /** A command must start with one of the four keywords. */
  lemma NotACommand(st: State, toks: seq<Token>)
    ensures toks == [] ==> Command(st, toks) == Panic(LexerExhausted)
    ensures toks != [] && toks[0].kind !in CommandKinds ==>
      Command(st, toks) == Err(UnexpectedToken(CommandKinds, toks[0]))
  {
  }

  /** `shape` while an expression is being shaped is refused. */
  lemma ShapeWhileShaping(st: State, toks: seq<Token>)
    requires st.current.Some? && toks != [] && toks[0].kind == Shape
    ensures Command(st, toks) == Err(AlreadyShaping)
  {
  }

  /** `apply` and `done` need an expression being shaped. */
  lemma NothingShaped(st: State, toks: seq<Token>)
    requires st.current.None? && toks != [] && toks[0].kind in {Apply, Done}
    ensures Command(st, toks) == Err(NoShapingInPlace)
  {
  }

  /** `done` drops the shaped expression and keeps the rules. */
  lemma DoneClears(st: State, toks: seq<Token>)
    requires st.current.Some? && toks != [] && toks[0].kind == Done
    ensures Command(st, toks) == Ok((State(st.rules, None), toks[1..], ""))
  {
  }

  /** After a keyword, the command is the arm for that keyword on what follows. */
  lemma CommandAfter(st: State, keyword: Token, toks: seq<Token>)
    requires keyword.kind in CommandKinds
    ensures Command(st, [keyword] + toks) == Dispatch(st, keyword.kind, toks)
  {
    assert ([keyword] + toks)[1..] == toks;
  }

  lemma Regroup(a: Token, b: Token, c: Token, d: Token, t: seq<Token>, r: seq<Token>)
    ensures [a, b, c, d] + t + r == [a, b] + ([c, d] + t + r)
  {
  }

  /** `rule` and a name: the command is the `rule` arm from the name on. */
  lemma RuleCommand(st: State, keyword: Token, name: Token, def: seq<Token>)
    requires keyword.kind == Rule
    ensures Command(st, [keyword, name] + def) == DefineCommand(st, [name] + def)
  {
    assert [keyword, name] + def == [keyword] + ([name] + def);
    CommandAfter(st, keyword, [name] + def);
  }

  /**
   * `shape EXPR` starts shaping the expression and prints it. After a lone
   * symbol the next token is lost, so `shape x` followed by the end of the
   * line takes the end with it.
   */
  lemma ShapeStarts(st: State, keyword: Token, e: E.Expr, rest: seq<Token>)
    requires st.current.None? && keyword.kind == Shape
    requires e.Sym? ==> rest == [] || rest[0].kind != OpenParen
    ensures Command(st, [keyword] + Tokens(e) + rest)
      == Ok((State(st.rules, Some(e)), Leftover(e, rest), "shaping " + E.Show(e) + "\n"))
  {
    var after := Tokens(e) + rest;
    assert [keyword] + Tokens(e) + rest == [keyword] + after;
    CommandAfter(st, keyword, after);
    ParseWrappedTokens(e, rest);
  }

  /** A rule name cannot be defined twice. */
  lemma Redefinition(st: State, keyword: Token, name: Token, rest: seq<Token>)
    requires keyword.kind == Rule && name.kind == Sym && name.text in st.rules
    ensures Command(st, [keyword, name] + rest) == Err(RuleAlreadyExists(name.text))
  {
    var toks := [keyword, name] + rest;
    assert toks[1..] == [name] + rest;
  }

  /**
   * `rule NAME HEAD = BODY` with an application as head adds the rule under a
   * fresh name and prints it; a lone symbol as body takes the next token.
   */
  lemma DefineRule(st: State, keyword: Token, name: Token, head: E.Expr, equals: Token, body: E.Expr, rest: seq<Token>)
    requires keyword.kind == Rule && name.kind == Sym && name.text !in st.rules
    requires head.Fun? && equals.kind == Equals
    requires body.Sym? ==> rest == [] || rest[0].kind != OpenParen
    ensures Command(st, [keyword, name] + Tokens(head) + [equals] + Tokens(body) + rest)
      == Ok((State(st.rules[name.text := E.Rule(head, body)], st.current), Leftover(body, rest),
             "rule " + E.ShowRule(E.Rule(head, body)) + "\n"))
  {
    var afterName := Tokens(head) + [equals] + Tokens(body) + rest;
    assert [keyword, name] + Tokens(head) + [equals] + Tokens(body) + rest == [keyword, name] + afterName;
    RuleCommand(st, keyword, name, afterName);
    DefineAfterKeyword(st, name, head, equals, body, rest);
  }

  /** What follows `rule`: the fresh name and the definition. */
  lemma DefineAfterKeyword(st: State, name: Token, head: E.Expr, equals: Token, body: E.Expr, rest: seq<Token>)
    requires name.kind == Sym && name.text !in st.rules
    requires head.Fun? && equals.kind == Equals
    requires body.Sym? ==> rest == [] || rest[0].kind != OpenParen
    ensures DefineCommand(st, [name] + (Tokens(head) + [equals] + Tokens(body) + rest))
      == Ok((State(st.rules[name.text := E.Rule(head, body)], st.current), Leftover(body, rest),
             "rule " + E.ShowRule(E.Rule(head, body)) + "\n"))
  {
    var afterName := Tokens(head) + [equals] + Tokens(body) + rest;
    assert Expect([name] + afterName, {Sym}) == Ok((name, afterName)) by {
      assert ([name] + afterName)[1..] == afterName;
    }
    RuleTokens(head, equals, body, rest);
  }

  /**
   * `HEAD = BODY` with an application as head parses back into the rule; a
   * lone symbol as body takes the token after it.
   */
  lemma RuleTokens(head: E.Expr, equals: Token, body: E.Expr, rest: seq<Token>)
    requires head.Fun? && equals.kind == Equals
    requires body.Sym? ==> rest == [] || rest[0].kind != OpenParen
    ensures ParseRule(Tokens(head) + [equals] + Tokens(body) + rest) == Ok((E.Rule(head, body), Leftover(body, rest)))
  {
    var tail := Tokens(body) + rest;
    var afterHead := [equals] + tail;
    var toks := Tokens(head) + afterHead;
    assert Tokens(head) + [equals] + Tokens(body) + rest == toks;
    assert ParseWrapped(toks) == Ok((head, afterHead)) by {
      ParseWrappedTokens(head, afterHead);
    }
    assert Expect(afterHead, {Equals}) == Ok((equals, tail)) by {
      assert afterHead[1..] == tail;
    }
    assert ParseWrapped(tail) == Ok((body, Leftover(body, rest))) by {
      ParseWrappedTokens(body, rest);
    }
  }

  /**
   * With a lone symbol as head, `Expr::parse` takes the `=` with it, and the
   * rule is refused at the body's first token.
   */
  lemma SymbolHeadRule(x: string, equals: Token, body: E.Expr, rest: seq<Token>)
    requires equals.kind == Equals
    ensures ParseRule([Token(Sym, x), equals] + Tokens(body) + rest)
      == Err(UnexpectedToken({Equals}, Token(Sym, body.name)))
  {
    var tail := Tokens(body) + rest;
    var toks := [Token(Sym, x)] + ([equals] + tail);
    assert [Token(Sym, x), equals] + Tokens(body) + rest == toks;
    assert ParseWrapped(toks) == Ok((E.Sym(x), tail)) by {
      ParseWrappedTokens(E.Sym(x), [equals] + tail);
      assert ([equals] + tail)[1..] == tail;
    }
  }

  /** `rule NAME x = BODY`, a lone symbol as head, defines nothing. */
  lemma DefineSymbolHead(st: State, keyword: Token, name: Token, x: string, equals: Token, body: E.Expr, rest: seq<Token>)
    requires keyword.kind == Rule && name.kind == Sym && name.text !in st.rules
    requires equals.kind == Equals
    ensures Command(st, [keyword, name, Token(Sym, x), equals] + Tokens(body) + rest)
      == Err(UnexpectedToken({Equals}, Token(Sym, body.name)))
  {
    var def := [Token(Sym, x), equals] + Tokens(body) + rest;
    Regroup(keyword, name, Token(Sym, x), equals, Tokens(body), rest);
    RuleCommand(st, keyword, name, def);
    SymbolHeadAfterKeyword(st, name, x, equals, body, rest);
  }

  /** What follows `rule` when the head is a lone symbol. */
  lemma SymbolHeadAfterKeyword(st: State, name: Token, x: string, equals: Token, body: E.Expr, rest: seq<Token>)
    requires name.kind == Sym && name.text !in st.rules
    requires equals.kind == Equals
    ensures DefineCommand(st, [name] + ([Token(Sym, x), equals] + Tokens(body) + rest))
      == Err(UnexpectedToken({Equals}, Token(Sym, body.name)))
  {
    var def := [Token(Sym, x), equals] + Tokens(body) + rest;
    assert Expect([name] + def, {Sym}) == Ok((name, def)) by {
      assert ([name] + def)[1..] == def;
    }
    SymbolHeadRule(x, equals, body, rest);
  }

  /**
   * Read on the command's own stream, `HEAD = BODY` parses back into the rule
   * whatever the head, and leaves exactly what follows.
   */
  lemma SharedRuleTokens(head: E.Expr, equals: Token, body: E.Expr, rest: seq<Token>)
    requires equals.kind == Equals
    requires body.Sym? ==> rest == [] || rest[0].kind != OpenParen
    ensures SharedRule(Tokens(head) + [equals] + Tokens(body) + rest) == Ok((E.Rule(head, body), rest))
  {
    var tail := Tokens(body) + rest;
    var afterHead := [equals] + tail;
    var toks := Tokens(head) + afterHead;
    assert Tokens(head) + [equals] + Tokens(body) + rest == toks;
    assert ParseExpr(toks) == Ok((head, afterHead)) by {
      ParseTokens(head, afterHead);
    }
    assert Expect(afterHead, {Equals}) == Ok((equals, tail)) by {
      assert afterHead[1..] == tail;
    }
    assert ParseExpr(tail) == Ok((body, rest)) by {
      ParseTokens(body, rest);
    }
  }

  /** `apply NAME` rewrites the shaped expression with the named rule, or reports an unknown name. */
  lemma ApplyNamed(st: State, keyword: Token, name: Token, rest: seq<Token>)
    requires st.current.Some? && keyword.kind == Apply && name.kind == Sym
    ensures name.text !in st.rules ==>
      Command(st, [keyword, name] + rest) == Err(RuleDoesNotExist(name.text))
    ensures name.text in st.rules && E.Rewritten(st.rules[name.text], st.current.value).Some? ==>
      var e' := E.Rewritten(st.rules[name.text], st.current.value).value;
      Command(st, [keyword, name] + rest) == Ok((State(st.rules, Some(e')), rest, " => " + E.Show(e') + "\n"))
  {
    var toks := [keyword, name] + rest;
    assert toks[1..] == [name] + rest;
    assert ([name] + rest)[1..] == rest;
  }

  /**
   * The rules only grow: a command that succeeds keeps every existing rule as
   * it was, and only `rule` adds one, under a name not yet defined.
   */
  lemma RulesKept(st: State, toks: seq<Token>)
    requires Command(st, toks).Ok?
    ensures var st' := Command(st, toks).value.0;
      forall n :: n in st.rules ==> n in st'.rules && st'.rules[n] == st.rules[n]
    ensures var st' := Command(st, toks).value.0;
      toks[0].kind != Rule ==> st'.rules == st.rules
    ensures var st' := Command(st, toks).value.0;
      toks[0].kind == Rule ==> exists n :: n !in st.rules && n in st'.rules && st'.rules == st.rules[n := st'.rules[n]]
  {
    assert Expect(toks, CommandKinds).Ok?;
    assert toks == [toks[0]] + toks[1..];
    CommandAfter(st, toks[0], toks[1..]);
    DispatchKeepsRules(st, toks[0].kind, toks[1..]);
  }

  /** `RulesKept` for the arm of each keyword. */
  lemma DispatchKeepsRules(st: State, kind: TokenKind, toks: seq<Token>)
    requires Dispatch(st, kind, toks).Ok?
    ensures var st' := Dispatch(st, kind, toks).value.0;
      forall n :: n in st.rules ==> n in st'.rules && st'.rules[n] == st.rules[n]
    ensures var st' := Dispatch(st, kind, toks).value.0;
      kind != Rule ==> st'.rules == st.rules
    ensures var st' := Dispatch(st, kind, toks).value.0;
      kind == Rule ==> exists n :: n !in st.rules && n in st'.rules && st'.rules == st.rules[n := st'.rules[n]]
  {
    var st' := Dispatch(st, kind, toks).value.0;
    if kind == Rule {
      var name := Expect(toks, {Sym}).value.0;
      assert name.text !in st.rules && st'.rules == st.rules[name.text := st'.rules[name.text]];
    }
  }
}

=== FILE: math_expr.dfy ===
/**
 * math_lang/src/main.rs: expressions, first-order pattern matching,
 * substitution of bindings, single-rule rewriting (`apply_all`) and the
 * `Display` rendering. A `panic!` is a `None` result.
 */
module MathExpr {
  import opened Wrappers

  datatype Expr = Sym(name: string) | Fun(name: string, args: seq<Expr>)

  /** `Bindings`: pattern variable name to the value it matched. */
  type Bindings = map<string, Expr>

  // ---------------------------------------------------------------- display

  /** `Display for Expr`: a symbol is its name, an application is `name(arg,arg,...)`. */
  function Show(e: Expr): string
    decreases e
  {
    match e
    case Sym(name) => name
    case Fun(name, args) => name + "(" + ShowArgs(args) + ")"
  }

  /** The arguments, each but the first preceded by a comma. */
  function ShowArgs(es: seq<Expr>): string
    decreases es
  {
    if es == [] then ""
    else if |es| == 1 then Show(es[0])
    else Show(es[0]) + "," + ShowArgs(es[1..])
  }

  // --------------------------------------------------------------- matching

  /** The symbols of an expression: the variables when it is used as a pattern. */
  function Vars(e: Expr): set<string>
    decreases e
  {
    match e
    case Sym(name) => {name}
    case Fun(_, args) => VarsArgs(args)
  }

  function VarsArgs(es: seq<Expr>): set<string>
    decreases es
  {
    if es == [] then {} else Vars(es[0]) + VarsArgs(es[1..])
  }

  /** The function names of an expression. */
  function Heads(e: Expr): set<string>
    decreases e
  {
    match e
    case Sym(_) => {}
    case Fun(name, args) => {name} + HeadsArgs(args)
  }

  function HeadsArgs(es: seq<Expr>): set<string>
    decreases es
  {
    if es == [] then {} else Heads(es[0]) + HeadsArgs(es[1..])
  }

  /**
   * `pattern_match_inner` on a map of bindings: a variable binds on its first
   * occurrence and afterwards matches only a value equal to its binding; an
   * application matches an application of the same name and arity whose
   * arguments match left to right. `None` is a failed match.
   */
  function Match(p: Expr, v: Expr, b: Bindings): Option<Bindings>
    decreases p
  {
    match p
    case Sym(name) =>
      if name in b then (if b[name] == v then Some(b) else None)
      else Some(b[name := v])
    case Fun(name1, ps) =>
      match v
      case Fun(name2, vs) => if name1 == name2 && |ps| == |vs| then MatchArgs(ps, vs, b) else None
      case Sym(_) => None
  }

  function MatchArgs(ps: seq<Expr>, vs: seq<Expr>, b: Bindings): Option<Bindings>
    requires |ps| == |vs|
    decreases ps
  {
    if ps == [] then Some(b)
    else match Match(ps[0], vs[0], b)
      case None => None
      case Some(b') => MatchArgs(ps[1..], vs[1..], b')
  }

  /** `pattern_match`: match from no bindings. */
  function Matches(p: Expr, v: Expr): Option<Bindings>
  {
    Match(p, v, map[])
  }

  method PatternMatchInner(p: Expr, v: Expr, b: Bindings) returns (ok: bool, b': Bindings)
    ensures ok == Match(p, v, b).Some?
    ensures ok ==> b' == Match(p, v, b).value
    decreases p
  {
    b' := b;
    match p
    case Sym(name) =>
      if name in b' {
        ok := b'[name] == v;
      } else {
        b' := b'[name := v];
        ok := true;
      }
    case Fun(name1, ps) =>
      if !(v.Fun? && name1 == v.name && |ps| == |v.args|) {
        return false, b';
      }
      var vs := v.args;
      for i := 0 to |ps|
        invariant MatchArgs(ps[i..], vs[i..], b') == MatchArgs(ps, vs, b)
      {
        assert ps[i..][1..] == ps[i + 1..] && vs[i..][1..] == vs[i + 1..];
        var argOk;
        argOk, b' := PatternMatchInner(ps[i], vs[i], b');
        if !argOk {
          return false, b';
        }
      }
      ok := true;
  }

  method PatternMatch(p: Expr, v: Expr) returns (r: Option<Bindings>)
    ensures r == Matches(p, v)
  {
    var ok, b := PatternMatchInner(p, v, map[]);
    r := if ok then Some(b) else None;
  }

  // ----------------------------------------------------------- substitution

  /**
   * `subsitute_bindings`: a bound symbol becomes its value, an unbound one
   * stays; an application keeps its arguments' count and is renamed only when
   * its name is bound to a symbol. A name bound to an application panics
   * ("Expected symbol in the rule"), which is `None`.
   */
  function Substituted(b: Bindings, e: Expr): Option<Expr>
    decreases e
  {
    match e
    case Sym(name) => Some(if name in b then b[name] else e)
    case Fun(name, args) =>
      if name in b && b[name].Fun? then None
      else
        var newName := if name in b then b[name].name else name;
        match SubstitutedArgs(b, args)
        case None => None
        case Some(newArgs) => Some(Fun(newName, newArgs))
  }

  function SubstitutedArgs(b: Bindings, es: seq<Expr>): (r: Option<seq<Expr>>)
    ensures r.Some? ==> |r.value| == |es|
    decreases es
  {
    if es == [] then Some([])
    else match Substituted(b, es[0])
      case None => None
      case Some(e) =>
        match SubstitutedArgs(b, es[1..])
        case None => None
        case Some(rest) => Some([e] + rest)
  }

  method SubstituteBindings(b: Bindings, e: Expr) returns (r: Option<Expr>)
    ensures r == Substituted(b, e)
    decreases e
  {
    match e
    case Sym(name) =>
      r := Some(if name in b then b[name] else e);
    case Fun(name, args) =>
      var newName := name;
      if name in b {
        if b[name].Fun? {
          return None;
        }
        newName := b[name].name;
      }
      var newArgs: seq<Expr> := [];
      assert args[0..] == args;
      PrefixedNil(SubstitutedArgs(b, args));
      for i := 0 to |args|
        invariant SubstitutedArgs(b, args) == Prefixed(newArgs, SubstitutedArgs(b, args[i..]))
      {
        assert args[i..][1..] == args[i + 1..];
        var arg := SubstituteBindings(b, args[i]);
        if arg.None? {
          return None;
        }
        PrefixedSnoc(newArgs, arg.value, SubstitutedArgs(b, args[i + 1..]));
        newArgs := newArgs + [arg.value];
      }
      assert args[|args|..] == [];
      assert newArgs + [] == newArgs;
      r := Some(Fun(newName, newArgs));
  }

  /** The arguments already built, followed by the outcome for the rest. */
  function Prefixed(done: seq<Expr>, rest: Option<seq<Expr>>): Option<seq<Expr>>
  {
    match rest
    case None => None
    case Some(es) => Some(done + es)
  }

  lemma PrefixedNil(rest: Option<seq<Expr>>)
    ensures Prefixed([], rest) == rest
  {
    if rest.Some? {
      assert [] + rest.value == rest.value;
    }
  }

  lemma PrefixedSnoc(done: seq<Expr>, e: Expr, rest: Option<seq<Expr>>)
    ensures Prefixed(done, Prefixed([e], rest)) == Prefixed(done + [e], rest)
  {
    if rest.Some? {
      assert done + ([e] + rest.value) == (done + [e]) + rest.value;
    }
  }

  // -------------------------------------------------------------- rewriting

  /** `Rule`: the head pattern and the body it is rewritten to. */
  datatype Rule = Rule(head: Expr, body: Expr)
  {
    /**
     * `Rule::apply_all`: if the head matches at the root, the substituted
     * body (not rewritten further); otherwise the same node with every child
     * rewritten.
     */
    method ApplyAll(e: Expr) returns (r: Option<Expr>)
      ensures r == Rewritten(this, e)
      decreases e
    {
      var bindings := PatternMatch(head, e);
      if bindings.Some? {
        r := SubstituteBindings(bindings.value, body);
        return;
      }
      match e
      case Sym(_) =>
        r := Some(e);
      case Fun(name, args) =>
        var newArgs: seq<Expr> := [];
        assert args[0..] == args;
        PrefixedNil(RewrittenArgs(this, args));
        for i := 0 to |args|
          invariant RewrittenArgs(this, args) == Prefixed(newArgs, RewrittenArgs(this, args[i..]))
        {
          assert args[i..][1..] == args[i + 1..];
          var arg := ApplyAll(args[i]);
          if arg.None? {
            return None;
          }
          PrefixedSnoc(newArgs, arg.value, RewrittenArgs(this, args[i + 1..]));
          newArgs := newArgs + [arg.value];
        }
        assert args[|args|..] == [];
        assert newArgs + [] == newArgs;
        r := Some(Fun(name, newArgs));
    }
  }

  /** `Display for Rule`. */
  function ShowRule(rule: Rule): string
  {
    Show(rule.head) + " = " + Show(rule.body)
  }

  /** What `apply_all` returns; `None` when a substitution panics. */
  function Rewritten(rule: Rule, e: Expr): Option<Expr>
    decreases e
  {
    match Matches(rule.head, e)
    case Some(b) => Substituted(b, rule.body)
    case None =>
      match e
      case Sym(_) => Some(e)
      case Fun(name, args) =>
        match RewrittenArgs(rule, args)
        case None => None
        case Some(newArgs) => Some(Fun(name, newArgs))
  }

  function RewrittenArgs(rule: Rule, es: seq<Expr>): (r: Option<seq<Expr>>)
    ensures r.Some? ==> |r.value| == |es|
    decreases es
  {
    if es == [] then Some([])
    else match Rewritten(rule, es[0])
      case None => None
      case Some(e) =>
        match RewrittenArgs(rule, es[1..])
        case None => None
        case Some(rest) => Some([e] + rest)
  }

  // ----------------------------------------------------------------- lemmas

  /** `big` holds every binding of `small`. */
  predicate Extends(big: Bindings, small: Bindings)
  {
    forall k | k in small :: k in big && big[k] == small[k]
  }

  /** A successful match keeps the bindings it started with and binds exactly the pattern's variables on top. */
  lemma {:induction false} MatchExtends(p: Expr, v: Expr, b: Bindings)
    ensures Match(p, v, b).Some? ==>
      Extends(Match(p, v, b).value, b) && Match(p, v, b).value.Keys == b.Keys + Vars(p)
    decreases p
  {
    match p
    case Sym(_) =>
    case Fun(name1, ps) =>
      if v.Fun? && name1 == v.name && |ps| == |v.args| {
        MatchArgsExtends(ps, v.args, b);
      }
  }

  lemma {:induction false} MatchArgsExtends(ps: seq<Expr>, vs: seq<Expr>, b: Bindings)
    requires |ps| == |vs|
    ensures MatchArgs(ps, vs, b).Some? ==>
      Extends(MatchArgs(ps, vs, b).value, b) && MatchArgs(ps, vs, b).value.Keys == b.Keys + VarsArgs(ps)
    decreases ps
  {
    if ps != [] {
      MatchExtends(ps[0], vs[0], b);
      if Match(ps[0], vs[0], b).Some? {
        MatchArgsExtends(ps[1..], vs[1..], Match(ps[0], vs[0], b).value);
      }
    }
  }

  /**
   * Matching is sound: substituting the bindings it produced (or any
   * extension of them) back into the pattern gives the value, provided no
   * function name of the pattern is itself bound.
   */
  lemma {:induction false} MatchSound(p: Expr, v: Expr, b: Bindings, big: Bindings)
    requires Match(p, v, b).Some? && Extends(big, Match(p, v, b).value)
    requires Heads(p) !! big.Keys
    ensures Substituted(big, p) == Some(v)
    decreases p
  {
    match p
    case Sym(_) =>
    case Fun(name1, ps) =>
      MatchArgsSound(ps, v.args, b, big);
  }

  lemma {:induction false} MatchArgsSound(ps: seq<Expr>, vs: seq<Expr>, b: Bindings, big: Bindings)
    requires |ps| == |vs| && MatchArgs(ps, vs, b).Some? && Extends(big, MatchArgs(ps, vs, b).value)
    requires HeadsArgs(ps) !! big.Keys
    ensures SubstitutedArgs(big, ps) == Some(vs)
    decreases ps
  {
    if ps != [] {
      var b1 := Match(ps[0], vs[0], b).value;
      MatchArgsExtends(ps[1..], vs[1..], b1);
      MatchSound(ps[0], vs[0], b, big);
      MatchArgsSound(ps[1..], vs[1..], b1, big);
      assert vs == [vs[0]] + vs[1..];
    }
  }

  /** A variable used twice in a pattern matches only equal values. */
  lemma RepeatedVariable(a: Expr, c: Expr)
    ensures Matches(Fun("f", [Sym("x"), Sym("x")]), Fun("f", [a, c])).Some? <==> a == c
  {
    var ps, vs := [Sym("x"), Sym("x")], [a, c];
    var b1 := map["x" := a];
    assert Match(ps[0], vs[0], map[]) == Some(b1);
    assert ps[1..] == [Sym("x")] && vs[1..] == [c];
    assert MatchArgs(ps[1..], vs[1..], b1) == (if a == c then Some(b1) else None);
  }

  /** Substituting no bindings changes nothing. */
  lemma {:induction false} SubstituteNothing(e: Expr)
    ensures Substituted(map[], e) == Some(e)
    decreases e
  {
    match e
    case Sym(_) =>
    case Fun(_, args) => SubstituteNothingArgs(args);
  }

  lemma {:induction false} SubstituteNothingArgs(es: seq<Expr>)
    ensures SubstitutedArgs(map[], es) == Some(es)
    decreases es
  {
    if es != [] {
      SubstituteNothing(es[0]);
      SubstituteNothingArgs(es[1..]);
      assert es == [es[0]] + es[1..];
    }
  }

  /** Substitution argument by argument: it panics iff one argument does, and otherwise keeps their order. */
  lemma {:induction false} SubstitutedArgsAt(b: Bindings, es: seq<Expr>)
    ensures SubstitutedArgs(b, es).Some? <==> forall i | 0 <= i < |es| :: Substituted(b, es[i]).Some?
    ensures SubstitutedArgs(b, es).Some? ==> forall i | 0 <= i < |es| :: Substituted(b, es[i]) == Some(SubstitutedArgs(b, es).value[i])
    decreases es
  {
    if es != [] {
      SubstitutedArgsAt(b, es[1..]);
      assert forall i | 1 <= i < |es| :: es[i] == es[1..][i - 1];
    }
  }

  /**
   * An application: a name bound to an application panics; otherwise the
   * name is replaced only when bound (to a symbol), the arity is kept, and
   * each argument is substituted in place.
   */
  lemma SubstituteApplication(b: Bindings, name: string, args: seq<Expr>)
    ensures var r := Substituted(b, Fun(name, args));
      (r.None? <==> (name in b && b[name].Fun?) || exists i | 0 <= i < |args| :: Substituted(b, args[i]).None?) &&
      (r.Some? ==>
        r.value.Fun? && r.value.name == (if name in b then b[name].name else name) &&
        |r.value.args| == |args| &&
        forall i | 0 <= i < |args| :: Substituted(b, args[i]) == Some(r.value.args[i]))
  {
    SubstitutedArgsAt(b, args);
  }

  /** Rewriting child by child: it panics iff one child does, and otherwise keeps their order. */
  lemma {:induction false} RewrittenArgsAt(rule: Rule, es: seq<Expr>)
    ensures RewrittenArgs(rule, es).Some? <==> forall i | 0 <= i < |es| :: Rewritten(rule, es[i]).Some?
    ensures RewrittenArgs(rule, es).Some? ==> forall i | 0 <= i < |es| :: Rewritten(rule, es[i]) == Some(RewrittenArgs(rule, es).value[i])
    decreases es
  {
    if es != [] {
      RewrittenArgsAt(rule, es[1..]);
      assert forall i | 1 <= i < |es| :: es[i] == es[1..][i - 1];
    }
  }

  /**
   * `apply_all` at one node: a head that matches at the root gives the
   * substituted body and nothing below it is rewritten; otherwise a symbol is
   * kept and an application keeps its name and arity with every child
   * rewritten.
   */
  lemma ApplyAllAtNode(rule: Rule, e: Expr)
    ensures Matches(rule.head, e).Some? ==> Rewritten(rule, e) == Substituted(Matches(rule.head, e).value, rule.body)
    ensures Matches(rule.head, e).None? && e.Sym? ==> Rewritten(rule, e) == Some(e)
    ensures Matches(rule.head, e).None? && e.Fun? ==>
      var r := Rewritten(rule, e);
      (r.Some? <==> forall i | 0 <= i < |e.args| :: Rewritten(rule, e.args[i]).Some?) &&
      (r.Some? ==>
        r.value.Fun? && r.value.name == e.name && |r.value.args| == |e.args| &&
        forall i | 0 <= i < |e.args| :: Rewritten(rule, e.args[i]) == Some(r.value.args[i]))
  {
    if e.Fun? {
      RewrittenArgsAt(rule, e.args);
    }
  }

  /** One-argument and two-argument applications, for the example below. */
  function App1(name: string, x: Expr): Expr
  {
    Fun(name, [x])
  }

  function App2(name: string, x: Expr, y: Expr): Expr
  {
    Fun(name, [x, y])
  }

  /** `swap(pair(x, y))` rewrites to `pair(y, x)` for any x and y. */
  lemma SwapOnce(x: Expr, y: Expr)
    ensures Rewritten(Rule(App1("swap", App2("pair", Sym("a"), Sym("b"))), App2("pair", Sym("b"), Sym("a"))),
      App1("swap", App2("pair", x, y))) == Some(App2("pair", y, x))
  {
    var head := App1("swap", App2("pair", Sym("a"), Sym("b")));
    var b := map["a" := x, "b" := y];
    var inner := [Sym("a"), Sym("b")];
    assert Match(inner[0], x, map[]) == Some(map["a" := x]);
    assert inner[1..] == [Sym("b")] && [x, y][1..] == [y];
    assert MatchArgs(inner, [x, y], map[]) == Some(b);
    assert Match(App2("pair", Sym("a"), Sym("b")), App2("pair", x, y), map[]) == Some(b);
    assert MatchArgs([App2("pair", Sym("a"), Sym("b"))], [App2("pair", x, y)], map[]) == Some(b);
    assert Matches(head, App1("swap", App2("pair", x, y))) == Some(b);
    var body := [Sym("b"), Sym("a")];
    assert body[1..] == [Sym("a")] && [Sym("a")][1..] == [];
    assert Substituted(b, Sym("b")) == Some(y) && Substituted(b, Sym("a")) == Some(x);
    assert SubstitutedArgs(b, []) == Some([]);
    assert [x] + [] == [x];
    assert SubstitutedArgs(b, [Sym("a")]) == Some([x]);
    assert [y] + [x] == [y, x];
    assert SubstitutedArgs(b, body) == Some([y, x]);
  }

  /** The `test_apply_all` case: both `swap` redexes under `foo` are rewritten, and nothing else. */
  lemma SwapExample()
    ensures
      var swap := Rule(App1("swap", App2("pair", Sym("a"), Sym("b"))), App2("pair", Sym("b"), Sym("a")));
      var fa, gb := App1("f", Sym("a")), App1("g", Sym("b"));
      var mc, nd := App1("m", Sym("c")), App1("n", Sym("d"));
      Rewritten(swap, App2("foo", App1("swap", App2("pair", fa, gb)), App1("swap", App2("pair", mc, nd))))
        == Some(App2("foo", App2("pair", gb, fa), App2("pair", nd, mc)))
  {
    var swap := Rule(App1("swap", App2("pair", Sym("a"), Sym("b"))), App2("pair", Sym("b"), Sym("a")));
    var fa, gb := App1("f", Sym("a")), App1("g", Sym("b"));
    var mc, nd := App1("m", Sym("c")), App1("n", Sym("d"));
    var left, right := App1("swap", App2("pair", fa, gb)), App1("swap", App2("pair", mc, nd));
    SwapOnce(fa, gb);
    SwapOnce(mc, nd);
    assert "swap" != "foo" by {
      assert "swap"[0] != "foo"[0];
    }
    assert Matches(swap.head, App2("foo", left, right)).None?;
    assert [left, right][1..] == [right] && [right][1..] == [];
    assert RewrittenArgs(swap, []) == Some([]);
    assert [App2("pair", nd, mc)] + [] == [App2("pair", nd, mc)];
    assert RewrittenArgs(swap, [right]) == Some([App2("pair", nd, mc)]);
    assert [App2("pair", gb, fa)] + [App2("pair", nd, mc)] == [App2("pair", gb, fa), App2("pair", nd, mc)];
    assert RewrittenArgs(swap, [left, right]) == Some([App2("pair", gb, fa), App2("pair", nd, mc)]);
  }
}

=== FILE: math_lexer.dfy ===
/**
 * math_lang/src/lexer.rs: the character lexer. The peekable character
 * iterator is the sequence of characters not yet consumed.
 */
module MathLexer {
  import opened Wrappers

  /** `TokenKind`, with the source's own spelling of `CloeParen`. */
  datatype TokenKind = Sym(name: string) | OpenParen | CloeParen | Comma | Equals

  datatype Token = Token(kind: TokenKind)

  /** `char::is_alphanumeric`, restricted to ASCII letters and digits. */
  predicate IsAlphanumeric(ch: char)
  {
    'a' <= ch <= 'z' || 'A' <= ch <= 'Z' || '0' <= ch <= '9'
  }

  /** A character `lex_symbol` appends to a symbol after its first one. */
  predicate IsSymbolChar(ch: char)
  {
    IsAlphanumeric(ch) || ch == '_'
  }

  /** The longest prefix of `s` made of symbol characters. */
  function SymbolRun(s: string): (r: string)
    ensures r <= s
  {
    if s != [] && IsSymbolChar(s[0]) then [s[0]] + SymbolRun(s[1..]) else []
  }

  /** The run is made of symbol characters and stops only at the end of the input or at another character. */
  lemma {:induction false} SymbolRunMaximal(s: string)
    ensures forall i | 0 <= i < |SymbolRun(s)| :: IsSymbolChar(SymbolRun(s)[i])
    ensures |SymbolRun(s)| < |s| ==> !IsSymbolChar(s[|SymbolRun(s)|])
    decreases |s|
  {
    if s != [] && IsSymbolChar(s[0]) {
      SymbolRunMaximal(s[1..]);
      assert SymbolRun(s) == [s[0]] + SymbolRun(s[1..]);
    }
  }

  /** The characters a token was read from. */
  function Text(t: Token): string
  {
    match t.kind
    case Sym(name) => name
    case OpenParen => "("
    case CloeParen => ")"
    case Comma => ","
    case Equals => "="
  }

  /** `Lexer::next` on the remaining input: the token, and the input left after it. */
  function NextToken(s: string): (r: (Option<Token>, string))
    ensures r.0.None? <==> s == []
    ensures r.0.Some? ==> Text(r.0.value) + r.1 == s && |r.1| < |s|
    ensures s != [] && s[0] in "(),=" ==> r.1 == s[1..]
    ensures s != [] && s[0] == '(' ==> r.0 == Some(Token(OpenParen))
    ensures s != [] && s[0] == ')' ==> r.0 == Some(Token(CloeParen))
    ensures s != [] && s[0] == ',' ==> r.0 == Some(Token(Comma))
    ensures s != [] && s[0] == '=' ==> r.0 == Some(Token(Equals))
    ensures s != [] && s[0] !in "(),=" ==> r.0 == Some(Token(Sym([s[0]] + SymbolRun(s[1..])))) && r.1 == s[1 + |SymbolRun(s[1..])|..]
  {
    if s == [] then (None, s)
    else
      var ch := s[0];
      match ch
      case '(' => (Some(Token(OpenParen)), s[1..])
      case ')' => (Some(Token(CloeParen)), s[1..])
      case ',' => (Some(Token(Comma)), s[1..])
      case '=' => (Some(Token(Equals)), s[1..])
      case _ =>
        var run := SymbolRun(s[1..]);
        assert s == [ch] + run + s[1 + |run|..] by {
          assert s[1..] == run + s[1 + |run|..];
        }
        (Some(Token(Sym([ch] + run))), s[1 + |run|..])
  }

  /** Every token of `s`, read with `next` until it returns `None`. */
  function Lex(s: string): seq<Token>
    decreases |s|
  {
    match NextToken(s)
    case (None, _) => []
    case (Some(t), rest) => [t] + Lex(rest)
  }

  function Texts(ts: seq<Token>): string
  {
    if ts == [] then "" else Text(ts[0]) + Texts(ts[1..])
  }

  /** Every input character lands in exactly one token, in order. */
  lemma {:induction false} LexRoundTrip(s: string)
    ensures Texts(Lex(s)) == s
    decreases |s|
  {
    match NextToken(s)
    case (None, _) =>
    case (Some(t), rest) =>
      LexRoundTrip(rest);
      assert Lex(s) == [t] + Lex(rest);
      assert ([t] + Lex(rest))[1..] == Lex(rest);
  }

  /** One more symbol character moves from the rest of the run to the part already read. */
  lemma RunStep(rest: string, run: string)
    requires rest != [] && IsSymbolChar(rest[0])
    ensures run + SymbolRun(rest) == (run + [rest[0]]) + SymbolRun(rest[1..])
  {
    assert SymbolRun(rest) == [rest[0]] + SymbolRun(rest[1..]);
  }

  /** Moving the first character of `rest` to the end of `run` keeps their concatenation. */
  lemma ShiftOne(run: string, rest: string)
    requires rest != []
    ensures run + rest == (run + [rest[0]]) + rest[1..]
    ensures (run + rest)[|run|..] == rest
  {
    assert rest == [rest[0]] + rest[1..];
  }

  class Lexer {
    /** What the peekable iterator has not yet yielded. */
    var chars: string

    constructor FromIter(input: string)
      ensures chars == input
    {
      chars := input;
    }

    /** `lex_symbol`: `first`, then every following symbol character, stopping at the first other one without consuming it. */
    method LexSymbol(first: char) returns (sym: string)
      modifies this
      ensures sym == [first] + SymbolRun(old(chars))
      ensures chars == old(chars)[|SymbolRun(old(chars))|..]
    {
      // `run` holds the characters pushed after `first`
      ghost var input := chars;
      var rest := chars;
      var run: string := [];
      while |rest| > 0 && IsSymbolChar(rest[0])
        invariant input == run + rest
        invariant SymbolRun(input) == run + SymbolRun(rest)
        decreases |rest|
      {
        var ch := rest[0];
        RunStep(rest, run);
        ShiftOne(run, rest);
        rest := rest[1..];
        run := run + [ch];
      }
      assert SymbolRun(rest) == [];
      assert SymbolRun(input) == run by {
        assert run + [] == run;
      }
      assert input[|run|..] == rest by {
        assert (run + rest)[|run|..] == rest;
      }
      chars := rest;
      sym := [first] + run;
    }

    /** `Iterator::next`. */
    method Next() returns (t: Option<Token>)
      modifies this
      ensures (t, chars) == NextToken(old(chars))
    {
      if chars == [] {
        return None;
      }
      var ch := chars[0];
      chars := chars[1..];
      match ch
      case '(' => t := Some(Token(OpenParen));
      case ')' => t := Some(Token(CloeParen));
      case ',' => t := Some(Token(Comma));
      case '=' => t := Some(Token(Equals));
      case _ =>
        var sym := LexSymbol(ch);
        t := Some(Token(Sym(sym)));
    }
  }
}

=== FILE: math_parser.dfy ===
/**
 * math_lang/src/main.rs: `Expr::parse_peekable`, `Expr::parse` and `expect_token_kind`
 * over a peekable stream of tokens, each a kind and its text. Source
 * locations are not modelled. A `.expect(...)` on an exhausted stream and an
 * `unreachable!` are `Panic` results.
 */
module MathParser {
  import opened Wrappers
  import E = MathExpr

  datatype TokenKind = Sym | OpenParen | CloseParen | Comma | Equals | Rule | Shape | Apply | Done | End

  datatype Token = Token(kind: TokenKind, text: string)

  /** `Error`, without source locations. */
  datatype Error =
    | UnexpectedToken(expected: set<TokenKind>, got: Token)
    | RuleAlreadyExists(name: string)
    | RuleDoesNotExist(name: string)
    | AlreadyShaping
    | NoShapingInPlace

  /** Why the program panics. */
  datatype PanicReason =
    | LexerExhausted          // "Completely exhausted lexer"
    | ExpectedSymbolInRule    // a function name bound to an application during substitution
    | UnexpectedKind          // `unreachable!` on a token kind outside the expected set

  /** `Result<T, Error>`, plus the panics. */
  datatype Result<T> = Ok(value: T) | Err(error: Error) | Panic(reason: PanicReason)
  {
    predicate IsFailure()
    {
      !Ok?
    }

    function PropagateFailure<U>(): Result<U>
      requires IsFailure()
    {
      if Err? then Err(error) else Panic(reason)
    }

    function Extract(): T
      requires Ok?
    {
      value
    }
  }

  /** A result without the tokens left over. */
  function Value<T>(r: Result<(T, seq<Token>)>): Result<T>
  {
    match r
    case Ok((v, _)) => Ok(v)
    case Err(e) => Err(e)
    case Panic(p) => Panic(p)
  }

  /** `rest` is what is left of `toks` after consuming some of it. */
  predicate SuffixOf(rest: seq<Token>, toks: seq<Token>)
  {
    |rest| <= |toks| && rest == toks[|toks| - |rest|..]
  }

  /** A suffix of a suffix is a suffix. */
  lemma SuffixTrans(a: seq<Token>, b: seq<Token>, c: seq<Token>)
    requires SuffixOf(a, b) && SuffixOf(b, c)
    ensures SuffixOf(a, c)
  {
    assert c[|c| - |b|..][|b| - |a|..] == c[|c| - |a|..];
  }

  // ------------------------------------------------------------ the grammar

  /**
   * `parse_peekable`: a symbol token, optionally followed by `(`, then either
   * `)` or one or more comma-separated expressions and a closing `)`.
   */
  function ParseExpr(toks: seq<Token>): (r: Result<(E.Expr, seq<Token>)>)
    ensures r.Ok? ==> SuffixOf(r.value.1, toks) && |r.value.1| < |toks|
    decreases |toks|, 0
  {
    if toks == [] then Panic(LexerExhausted)
    else if toks[0].kind != Sym then Err(UnexpectedToken({Sym}, toks[0]))
    else if |toks| == 1 || toks[1].kind != OpenParen then Ok((E.Sym(toks[0].text), toks[1..]))
    else if |toks| > 2 && toks[2].kind == CloseParen then Ok((E.Fun(toks[0].text, []), toks[3..]))
    else
      var args :- ParseArgs(toks[2..]);
      var close := args.1;
      if close == [] then Panic(LexerExhausted)
      else if close[0].kind == CloseParen then Ok((E.Fun(toks[0].text, args.0), close[1..]))
      else Err(UnexpectedToken({CloseParen}, close[0]))
  }

  /** The argument list after `(` when it is not empty: an expression, then more after each comma. */
  function ParseArgs(toks: seq<Token>): (r: Result<(seq<E.Expr>, seq<Token>)>)
    ensures r.Ok? ==> |r.value.0| >= 1 && SuffixOf(r.value.1, toks) && |r.value.1| < |toks|
    decreases |toks|, 1
  {
    var first :- ParseExpr(toks);
    var more :- ParseMore(first.1);
    SuffixTrans(more.1, first.1, toks);
    Ok(([first.0] + more.0, more.1))
  }

  /** The `while let Some(_) = lex.next_if(Comma)` loop: one more expression after each comma. */
  function ParseMore(toks: seq<Token>): (r: Result<(seq<E.Expr>, seq<Token>)>)
    ensures r.Ok? ==> SuffixOf(r.value.1, toks)
    decreases |toks|, 2
  {
    if toks != [] && toks[0].kind == Comma then
      var next :- ParseExpr(toks[1..]);
      var more :- ParseMore(next.1);
      SuffixTrans(more.1, next.1, toks[1..]);
      SuffixTrans(more.1, toks[1..], toks);
      Ok(([next.0] + more.0, more.1))
    else Ok(([], toks))
  }

  /** `expect_token_kind`. */
  function Expect(toks: seq<Token>, kinds: set<TokenKind>): (r: Result<(Token, seq<Token>)>)
    ensures r.Ok? ==> toks != [] && r.value == (toks[0], toks[1..]) && toks[0].kind in kinds
    ensures r.Err? ==> toks != [] && r.error == UnexpectedToken(kinds, toks[0]) && toks[0].kind !in kinds
    ensures r.Panic? <==> toks == []
  {
    if toks == [] then Panic(LexerExhausted)
    else if toks[0].kind in kinds then Ok((toks[0], toks[1..]))
    else Err(UnexpectedToken(kinds, toks[0]))
  }

  /**
   * `Expr::parse`: `parse_peekable` on a new `Peekable` wrapped around the
   * stream. After a lone symbol, the look for `(` has pulled the next token
   * into the wrapper's look-ahead, and that token is lost with the wrapper.
   */
  function ParseWrapped(toks: seq<Token>): (r: Result<(E.Expr, seq<Token>)>)
    ensures r.Ok? ==> SuffixOf(r.value.1, toks)
  {
    var parsed :- ParseExpr(toks);
    Ok((parsed.0, Leftover(parsed.0, parsed.1)))
  }

  /** What `Expr::parse` leaves of the tokens after `e`: one fewer after a lone symbol. */
  function Leftover(e: E.Expr, rest: seq<Token>): seq<Token>
  {
    if e.Sym? && rest != [] then rest[1..] else rest
  }

  // -------------------------------------------------------- the token stream

  /** `Peekable<impl Iterator<Item = Token>>`: the tokens not yet taken. */
  class TokenStream {
    var toks: seq<Token>

    constructor(toks: seq<Token>)
      ensures this.toks == toks
    {
      this.toks := toks;
    }

    method Next() returns (t: Option<Token>)
      modifies this
      ensures old(toks) == [] ==> t.None? && toks == []
      ensures old(toks) != [] ==> t == Some(old(toks)[0]) && toks == old(toks)[1..]
    {
      if toks == [] {
        t := None;
      } else {
        t := Some(toks[0]);
        toks := toks[1..];
      }
    }

    /** `next_if(|t| t.kind == kind)`. */
    method NextIf(kind: TokenKind) returns (t: Option<Token>)
      modifies this
      ensures old(toks) != [] && old(toks)[0].kind == kind ==> t == Some(old(toks)[0]) && toks == old(toks)[1..]
      ensures !(old(toks) != [] && old(toks)[0].kind == kind) ==> t.None? && toks == old(toks)
    {
      if toks != [] && toks[0].kind == kind {
        t := Some(toks[0]);
        toks := toks[1..];
      } else {
        t := None;
      }
    }
  }

  /** `expect_token_kind` on the stream. */
  method ExpectTokenKind(lex: TokenStream, kinds: set<TokenKind>) returns (r: Result<Token>)
    modifies lex
    ensures r == Value(Expect(old(lex.toks), kinds))
    ensures lex.toks == if old(lex.toks) == [] then [] else old(lex.toks)[1..]
  {
    var token := lex.Next();
    if token.None? {
      return Panic(LexerExhausted);
    }
    if token.value.kind in kinds {
      return Ok(token.value);
    }
    return Err(UnexpectedToken(kinds, token.value));
  }

  /** The arguments parsed so far, followed by the outcome for the rest. */
  function Prepend(done: seq<E.Expr>, r: Result<(seq<E.Expr>, seq<Token>)>): Result<(seq<E.Expr>, seq<Token>)>
  {
    match r
    case Ok((es, rest)) => Ok((done + es, rest))
    case Err(e) => Err(e)
    case Panic(p) => Panic(p)
  }

  /** `Expr::parse_peekable`. */
  method ParsePeekable(lex: TokenStream) returns (r: Result<E.Expr>)
    modifies lex
    ensures r == Value(ParseExpr(old(lex.toks)))
    ensures r.Ok? ==> lex.toks == ParseExpr(old(lex.toks)).value.1
    decreases |lex.toks|, 0
  {
    ghost var toks := lex.toks;
    var token := lex.Next();
    if token.None? {
      return Panic(LexerExhausted);
    }
    var name := token.value;
    if name.kind != Sym {
      return Err(UnexpectedToken({Sym}, name));
    }
    var open := lex.NextIf(OpenParen);
    if open.None? {
      return Ok(E.Sym(name.text));
    }
    var close := lex.NextIf(CloseParen);
    if close.Some? {
      return Ok(E.Fun(name.text, []));
    }
    assert lex.toks == toks[2..];
    var args := ParseArguments(lex);
    if !args.Ok? {
      return args.PropagateFailure();
    }
    var closeParen := lex.Next();
    if closeParen.None? {
      return Panic(LexerExhausted);
    }
    if closeParen.value.kind == CloseParen {
      return Ok(E.Fun(name.text, args.value));
    }
    return Err(UnexpectedToken({CloseParen}, closeParen.value));
  }

  /** The argument loop of `parse_peekable`, after `(` when the next token is not `)`. */
  method ParseArguments(lex: TokenStream) returns (r: Result<seq<E.Expr>>)
    modifies lex
    ensures r == Value(ParseArgs(old(lex.toks)))
    ensures r.Ok? ==> lex.toks == ParseArgs(old(lex.toks)).value.1
    decreases |lex.toks|, 1
  {
    var first := ParsePeekable(lex);
    if !first.Ok? {
      return first.PropagateFailure();
    }
    ghost var afterFirst := lex.toks;
    var more: seq<E.Expr> := [];
    PrependNil(ParseMore(afterFirst));
    while true
      invariant SuffixOf(lex.toks, afterFirst)
      invariant ParseMore(afterFirst) == Prepend(more, ParseMore(lex.toks))
      decreases |lex.toks|
    {
      ghost var before := lex.toks;
      var comma := lex.NextIf(Comma);
      if comma.None? {
        break;
      }
      MoreAfterComma(before);
      var arg := ParsePeekable(lex);
      if !arg.Ok? {
        return arg.PropagateFailure();
      }
      SuffixTrans(lex.toks, before[1..], before);
      SuffixTrans(lex.toks, before, afterFirst);
      PrependSnoc(more, arg.value, ParseMore(lex.toks));
      more := more + [arg.value];
    }
    assert more + [] == more;
    var args := [first.value] + more;
    return Ok(args);
  }

  /** `Expr::parse` on the stream. */
  method Parse(lex: TokenStream) returns (r: Result<E.Expr>)
    modifies lex
    ensures r == Value(ParseWrapped(old(lex.toks)))
    ensures r.Ok? ==> lex.toks == ParseWrapped(old(lex.toks)).value.1
  {
    // `lex.peekable()`: a wrapper over what is left, with an empty look-ahead
    var wrapper := new TokenStream(lex.toks);
    r := ParsePeekable(wrapper);
    if r.Ok? && r.value.Sym? && wrapper.toks != [] {
      // the failed `next_if(OpenParen)` took this token from `lex`; it dies with the wrapper
      lex.toks := wrapper.toks[1..];
    } else {
      lex.toks := wrapper.toks;
    }
  }

  /** One step of the comma loop. */
  lemma MoreAfterComma(toks: seq<Token>)
    requires toks != [] && toks[0].kind == Comma
    ensures ParseMore(toks) == match ParseExpr(toks[1..])
      case Ok((e, rest)) => Prepend([e], ParseMore(rest))
      case Err(x) => Err(x)
      case Panic(p) => Panic(p)
  {
  }

  lemma CommaThenExpr(toks: seq<Token>, e: E.Expr, more: seq<Token>, es: seq<E.Expr>, rest: seq<Token>)
    requires toks != [] && toks[0].kind == Comma
    requires ParseExpr(toks[1..]) == Ok((e, more))
    requires ParseMore(more) == Ok((es, rest))
    ensures ParseMore(toks) == Ok(([e] + es, rest))
  {
  }

  lemma PrependNil(r: Result<(seq<E.Expr>, seq<Token>)>)
    ensures Prepend([], r) == r
  {
    if r.Ok? {
      assert [] + r.value.0 == r.value.0;
    }
  }

  lemma PrependSnoc(done: seq<E.Expr>, e: E.Expr, r: Result<(seq<E.Expr>, seq<Token>)>)
    ensures Prepend(done, Prepend([e], r)) == Prepend(done + [e], r)
  {
    if r.Ok? {
      assert done + ([e] + r.value.0) == (done + [e]) + r.value.0;
    }
  }

  // ---------------------------------------------------------------- lemmas

  /** The text a token sequence spells. */
  function Texts(toks: seq<Token>): string
  {
    if toks == [] then "" else toks[0].text + Texts(toks[1..])
  }

  /** The tokens of an expression as `Display` writes it: name, `(`, comma-separated arguments, `)`. */
  function Tokens(e: E.Expr): (r: seq<Token>)
    ensures r != [] && r[0] == Token(Sym, e.name)
    decreases e, 1
  {
    match e
    case Sym(name) => [Token(Sym, name)]
    case Fun(name, args) => [Token(Sym, name), Token(OpenParen, "(")] + ArgTokens(args) + [Token(CloseParen, ")")]
  }

  function ArgTokens(es: seq<E.Expr>): (r: seq<Token>)
    ensures es != [] ==> r != [] && r[0].kind == Sym
    decreases es, 1
  {
    if es == [] then [] else Tokens(es[0]) + MoreTokens(es[1..])
  }

  /** The arguments after the first, each preceded by a comma. */
  function MoreTokens(es: seq<E.Expr>): (r: seq<Token>)
    ensures es != [] ==> r != [] && r[0].kind == Comma
    decreases es, 0
  {
    if es == [] then [] else [Token(Comma, ",")] + Tokens(es[0]) + MoreTokens(es[1..])
  }

  lemma {:induction false} TextsAppend(a: seq<Token>, b: seq<Token>)
    ensures Texts(a + b) == Texts(a) + Texts(b)
    decreases |a|
  {
    if a == [] {
      assert a + b == b;
    } else {
      TextsAppend(a[1..], b);
      assert (a + b)[1..] == a[1..] + b;
      assert Texts(a + b) == a[0].text + Texts(a[1..] + b);
    }
  }

  /** The tokens spell exactly what `Display` prints. */
  lemma {:induction false} TokensShow(e: E.Expr)
    ensures Texts(Tokens(e)) == E.Show(e)
    decreases e, 1
  {
    match e
    case Sym(name) =>
      assert Texts([Token(Sym, name)]) == name + Texts([]);
    case Fun(name, args) =>
      var open := [Token(Sym, name), Token(OpenParen, "(")];
      ArgTokensShow(args);
      TextsAppend(open, ArgTokens(args));
      TextsAppend(open + ArgTokens(args), [Token(CloseParen, ")")]);
      assert Texts(open) == name + "(" by {
        assert Texts(open) == name + Texts(open[1..]);
        assert Texts(open[1..]) == "(" + Texts([]);
      }
      assert Texts([Token(CloseParen, ")")]) == ")" + Texts([]);
  }

  lemma {:induction false} ArgTokensShow(es: seq<E.Expr>)
    ensures Texts(ArgTokens(es)) == E.ShowArgs(es)
    decreases es, 1
  {
    if es != [] {
      TokensShow(es[0]);
      TextsAppend(Tokens(es[0]), MoreTokens(es[1..]));
      MoreTokensShow(es[1..]);
    }
  }

  lemma {:induction false} MoreTokensShow(es: seq<E.Expr>)
    ensures es == [] ==> Texts(MoreTokens(es)) == ""
    ensures es != [] ==> Texts(MoreTokens(es)) == "," + E.ShowArgs(es)
    decreases es, 2
  {
    if es != [] {
      var comma := [Token(Comma, ",")];
      assert MoreTokens(es) == comma + ArgTokens(es);
      TextsAppend(comma, ArgTokens(es));
      assert Texts(comma) == "," + Texts([]);
      ArgTokensShow(es);
    }
  }

  /**
   * Parsing the tokens of an expression gives the expression back and leaves
   * what follows, provided a lone symbol is not followed by `(`.
   */
  lemma {:induction false} ParseTokens(e: E.Expr, rest: seq<Token>)
    requires e.Sym? ==> rest == [] || rest[0].kind != OpenParen
    ensures ParseExpr(Tokens(e) + rest) == Ok((e, rest))
    decreases e, 1
  {
    match e
    case Sym(name) =>
      assert (Tokens(e) + rest)[1..] == rest;
    case Fun(name, args) =>
      var toks := Tokens(e) + rest;
      var close := [Token(CloseParen, ")")] + rest;
      if args == [] {
        assert ArgTokens(args) == [];
        assert toks == [Token(Sym, name), Token(OpenParen, "("), Token(CloseParen, ")")] + rest;
        assert toks[3..] == rest;
      } else {
        assert toks[2..] == ArgTokens(args) + close;
        assert toks[1].kind == OpenParen;
        ParseArgTokens(args, close);
        assert close[1..] == rest;
      }
  }

  /**
   * `Expr::parse` reads back an application and leaves what follows, but
   * after a lone symbol it also takes the next token.
   */
  lemma ParseWrappedTokens(e: E.Expr, rest: seq<Token>)
    requires e.Sym? ==> rest == [] || rest[0].kind != OpenParen
    ensures ParseWrapped(Tokens(e) + rest) == Ok((e, Leftover(e, rest)))
    ensures e.Fun? ==> Leftover(e, rest) == rest
    ensures e.Sym? && rest != [] ==> Leftover(e, rest) == rest[1..]
  {
    ParseTokens(e, rest);
  }

  /** A token that is not a symbol cannot start an expression. */
  lemma NotSymbol(toks: seq<Token>)
    requires toks != [] && toks[0].kind != Sym
    ensures ParseExpr(toks) == Err(UnexpectedToken({Sym}, toks[0]))
  {
  }

  /**
   * After the arguments of an application, any token other than `)` (and
   * other than the comma that would continue the list) is reported as
   * expecting `)`.
   */
  lemma MissingCloseParen(name: string, args: seq<E.Expr>, t: Token, rest: seq<Token>)
    requires args != [] && t.kind != CloseParen && t.kind != Comma && t.kind != OpenParen
    ensures ParseExpr([Token(Sym, name), Token(OpenParen, "(")] + ArgTokens(args) + [t] + rest)
      == Err(UnexpectedToken({CloseParen}, t))
  {
    var toks := [Token(Sym, name), Token(OpenParen, "(")] + ArgTokens(args) + [t] + rest;
    var after := [t] + rest;
    assert toks[2..] == ArgTokens(args) + after;
    ParseArgTokens(args, after);
  }

  /** A non-empty argument list parses back when what follows neither continues the list nor opens a call. */
  lemma {:induction false} ParseArgTokens(es: seq<E.Expr>, rest: seq<Token>)
    requires es != []
    requires rest == [] || (rest[0].kind != Comma && rest[0].kind != OpenParen)
    ensures ParseArgs(ArgTokens(es) + rest) == Ok((es, rest))
    decreases es, 1
  {
    var more := MoreTokens(es[1..]) + rest;
    assert ArgTokens(es) + rest == Tokens(es[0]) + more;
    ParseTokens(es[0], more);
    ParseMoreTokens(es[1..], rest);
    assert [es[0]] + es[1..] == es;
  }

  lemma {:induction false} ParseMoreTokens(es: seq<E.Expr>, rest: seq<Token>)
    requires rest == [] || (rest[0].kind != Comma && rest[0].kind != OpenParen)
    ensures ParseMore(MoreTokens(es) + rest) == Ok((es, rest))
    decreases es, 0
  {
    if es == [] {
      assert MoreTokens(es) + rest == rest;
    } else {
      ParseMoreTokens(es[1..], rest);
      ParseMoreStep(es[0], es[1..], rest);
      assert [es[0]] + es[1..] == es;
    }
  }

  lemma MoreTokensCons(e: E.Expr, es: seq<E.Expr>, rest: seq<Token>)
    ensures MoreTokens([e] + es) + rest == [Token(Comma, ",")] + (Tokens(e) + (MoreTokens(es) + rest))
  {
    assert ([e] + es)[1..] == es;
  }

  /** One more `, EXPR` in front of a list that parses back. */
  lemma {:induction false} ParseMoreStep(e: E.Expr, es: seq<E.Expr>, rest: seq<Token>)
    requires rest == [] || (rest[0].kind != Comma && rest[0].kind != OpenParen)
    requires ParseMore(MoreTokens(es) + rest) == Ok((es, rest))
    ensures ParseMore(MoreTokens([e] + es) + rest) == Ok(([e] + es, rest))
    decreases e, 2
  {
    var more := MoreTokens(es) + rest;
    var toks := MoreTokens([e] + es) + rest;
    MoreTokensCons(e, es, rest);
    ParseTokens(e, more);
    CommaThenExpr(toks, e, more, es, rest);
  }

  /** A stream that ends inside an argument list makes the parser panic. */
  lemma Unterminated(name: string, args: seq<E.Expr>)
    requires args != []
    ensures ParseExpr([Token(Sym, name), Token(OpenParen, "(")] + ArgTokens(args)) == Panic(LexerExhausted)
  {
    var toks := [Token(Sym, name), Token(OpenParen, "(")] + ArgTokens(args);
    assert toks[2..] == ArgTokens(args) + [];
    ParseArgTokens(args, []);
  }
}

=== FILE: regex.dfy ===
/**
 * regex/src/main.rs: a pattern compiles to a table with one column per state
 * and 130 slots per column (one per ASCII code, plus slot 129 for the line
 * end). Slot `c` of column `s` says which state to go to on character `c` and
 * whether to consume it. A Rust panic (`unreachable!`, an index out of
 * bounds) is a `None` result.
 */
module Regex {
  import opened Wrappers

  /** `FSM_COLUMN_SIZE` and `FSM_LINE_END`. */
  const ColumnSize: nat := 130
  const LineEnd: nat := 129

  /** `FsmAction`: the next state, and how far the input head moves. */
  datatype Action = Action(next: nat, offset: int)

  type Column = c: seq<Action> | |c| == ColumnSize witness seq(ColumnSize, _ => Action(0, 0))

  datatype Regex = Regex(cs: seq<Column>)

  /** `FsmColumn::new`: every slot is the default action (0, 0). */
  function NewColumn(): (col: Column)
  {
    seq(ColumnSize, _ => Action(0, 0))
  }

  // ---------------------------------------------------------------- compile

  /** The column pushed for a literal character `c` when it becomes column `next - 1`. */
  function LiteralColumn(c: char, next: nat): Column
  {
    seq(ColumnSize, k => if k == c as int then Action(next, 1) else Action(0, 0))
  }

  /** The column pushed for `.`: every printable character, codes 32 to 126. */
  function DotColumn(next: nat): Column
  {
    seq(ColumnSize, k => if 32 <= k < 127 then Action(next, 1) else Action(0, 0))
  }

  /** The column pushed for `$`: only the line-end slot. */
  function EndColumn(next: nat): Column
  {
    NewColumn()[LineEnd := Action(next, 1)]
  }

  /** A slot `*` and `+` can rewrite: it leads to column `n` or nowhere; any other hits `unreachable!`. */
  predicate QuantOk(a: Action, n: nat)
  {
    a.next == n || a.next == 0
  }

  /** `*` on a slot of the last column, `n` being the number of columns. */
  function StarSlot(a: Action, n: nat): Action
    requires n >= 1
  {
    if a.next == n then Action(n - 1, a.offset) else Action(n, 0)
  }

  /** `+` on a slot of the clone of the last column, `n` being the number of columns before the clone. */
  function PlusSlot(a: Action, n: nat): Action
  {
    if a.next == n then a else Action(n + 1, 0)
  }

  function StarColumn(col: Column, n: nat): Option<Column>
    requires n >= 1
  {
    if forall k | 0 <= k < ColumnSize :: QuantOk(col[k], n) then Some(seq(ColumnSize, k requires 0 <= k < ColumnSize => StarSlot(col[k], n)))
    else None
  }

  function PlusColumn(col: Column, n: nat): Option<Column>
  {
    if forall k | 0 <= k < ColumnSize :: QuantOk(col[k], n) then Some(seq(ColumnSize, k requires 0 <= k < ColumnSize => PlusSlot(col[k], n)))
    else None
  }

  predicate IsQuantifier(c: char)
  {
    c == '*' || c == '+'
  }

  /** One iteration of the loop of `compile`, exactly as written. */
  function StepAsWritten(cs: seq<Column>, c: char): (r: Option<seq<Column>>)
    requires |cs| >= 1
    ensures r.Some? ==> |r.value| == |cs| + (if c == '*' then 0 else 1)
    ensures r.Some? ==> r.value[..|cs| - 1] == cs[..|cs| - 1]
    ensures r.Some? && c != '*' ==> r.value[..|cs|] == cs
  {
    var n := |cs|;
    match c
    case '$' => Some(cs + [EndColumn(n + 1)])
    case '.' => Some(cs + [DotColumn(n + 1)])
    case '*' =>
      (match StarColumn(cs[n - 1], n)
       case None => None
       case Some(col) => Some(cs[..n - 1] + [col]))
    case '+' =>
      (match PlusColumn(cs[n - 1], n)
       case None => None
       case Some(col) => Some(cs + [col]))
    case _ => if c as int < ColumnSize then Some(cs + [LiteralColumn(c, n + 1)]) else None
  }

  /** One iteration of `compile`, corrected: a quantifier with no atom before it is refused. */
  function Step(cs: seq<Column>, c: char): (r: Option<seq<Column>>)
    requires |cs| >= 1
    ensures IsQuantifier(c) && |cs| == 1 ==> r.None?
    ensures !(IsQuantifier(c) && |cs| == 1) ==> r == StepAsWritten(cs, c)
  {
    if IsQuantifier(c) && |cs| == 1 then None else StepAsWritten(cs, c)
  }

  function CompileFromAsWritten(cs: seq<Column>, src: string): Option<seq<Column>>
    requires |cs| >= 1
    decreases |src|
  {
    if src == [] then Some(cs)
    else match StepAsWritten(cs, src[0])
      case None => None
      case Some(cs') => CompileFromAsWritten(cs', src[1..])
  }

  function CompileFrom(cs: seq<Column>, src: string): Option<seq<Column>>
    requires |cs| >= 1
    decreases |src|
  {
    if src == [] then Some(cs)
    else match Step(cs, src[0])
      case None => None
      case Some(cs') => CompileFrom(cs', src[1..])
  }

  /** `Regex::compile` as written: one column 0, then one step per pattern character. */
  function CompileAsWritten(src: string): Option<Regex>
  {
    match CompileFromAsWritten([NewColumn()], src)
    case None => None
    case Some(cs) => Some(Regex(cs))
  }

  /** `Regex::compile`, corrected. */
  function CompileSpec(src: string): Option<Regex>
  {
    match CompileFrom([NewColumn()], src)
    case None => None
    case Some(cs) => Some(Regex(cs))
  }

  /** The `*` loop over the slots of the last column. */
  method RewriteStar(col: Column, n: nat) returns (r: Option<Column>)
    requires n >= 1
    ensures r == StarColumn(col, n)
  {
    var ts := new Action[ColumnSize](k requires 0 <= k < ColumnSize => col[k]);
    for k := 0 to ColumnSize
      invariant forall j | 0 <= j < k :: QuantOk(col[j], n) && ts[j] == StarSlot(col[j], n)
      invariant forall j | k <= j < ColumnSize :: ts[j] == col[j]
    {
      if ts[k].next == n {
        ts[k] := Action(n - 1, ts[k].offset);
      } else if ts[k].next == 0 {
        ts[k] := Action(n, 0);
      } else {
        assert !QuantOk(col[k], n);
        return None;
      }
    }
    assert ts[..] == seq(ColumnSize, k requires 0 <= k < ColumnSize => StarSlot(col[k], n));
    r := Some(ts[..]);
  }

  /** The `+` loop over the slots of the clone of the last column. */
  method RewritePlus(col: Column, n: nat) returns (r: Option<Column>)
    ensures r == PlusColumn(col, n)
  {
    var ts := new Action[ColumnSize](k requires 0 <= k < ColumnSize => col[k]);
    for k := 0 to ColumnSize
      invariant forall j | 0 <= j < k :: QuantOk(col[j], n) && ts[j] == PlusSlot(col[j], n)
      invariant forall j | k <= j < ColumnSize :: ts[j] == col[j]
    {
      if ts[k].next == n {
      } else if ts[k].next == 0 {
        ts[k] := Action(n + 1, 0);
      } else {
        assert !QuantOk(col[k], n);
        return None;
      }
    }
    assert ts[..] == seq(ColumnSize, k requires 0 <= k < ColumnSize => PlusSlot(col[k], n));
    r := Some(ts[..]);
  }

  /** The `.` loop: a fresh column with slots 32 to 126 set. */
  method FillDot(next: nat) returns (col: Column)
    ensures col == DotColumn(next)
  {
    var ts := new Action[ColumnSize](_ => Action(0, 0));
    for i := 32 to 127
      invariant forall k | 0 <= k < ColumnSize :: ts[k] == if 32 <= k < i then Action(next, 1) else Action(0, 0)
    {
      ts[i] := Action(next, 1);
    }
    col := ts[..];
  }

  /** The body of the `compile` loop for one pattern character. */
  method Push(cs: seq<Column>, c: char) returns (r: Option<seq<Column>>)
    requires |cs| >= 1
    ensures r == Step(cs, c)
  {
    var n := |cs|;
    if c == '$' {
      var ts := new Action[ColumnSize](_ => Action(0, 0));
      ts[LineEnd] := Action(n + 1, 1);
      assert ts[..] == EndColumn(n + 1);
      r := Some(cs + [ts[..]]);
    } else if c == '.' {
      var col := FillDot(n + 1);
      r := Some(cs + [col]);
    } else if c == '*' {
      if n == 1 {
        return None;
      }
      var col := RewriteStar(cs[n - 1], n);
      r := if col.None? then None else Some(cs[..n - 1] + [col.value]);
    } else if c == '+' {
      if n == 1 {
        return None;
      }
      var col := RewritePlus(cs[n - 1], n);
      r := if col.None? then None else Some(cs + [col.value]);
    } else if c as int < ColumnSize {
      var ts := new Action[ColumnSize](_ => Action(0, 0));
      ts[c as int] := Action(n + 1, 1);
      assert ts[..] == LiteralColumn(c, n + 1);
      r := Some(cs + [ts[..]]);
    } else {
      r := None;
    }
  }

  method Compile(src: string) returns (r: Option<Regex>)
    ensures r == CompileSpec(src)
  {
    var cs := [NewColumn()];
    for i := 0 to |src|
      invariant |cs| >= 1
      invariant CompileFrom(cs, src[i..]) == CompileFrom([NewColumn()], src)
    {
      var next := Push(cs, src[i]);
      if next.None? {
        return None;
      }
      cs := next.value;
    }
    return Some(Regex(cs));
  }

  // ------------------------------------------------------------------ match

  /** A slot of column `j` of an `n`-column table from which `match_str` makes progress. */
  predicate SlotProgresses(a: Action, j: nat, n: nat)
  {
    a.next <= n && (a.offset == 1 || (a.offset == 0 && (a.next == 0 || a.next > j)))
  }

  predicate ColumnProgresses(col: Column, j: nat, n: nat)
  {
    forall k | 0 <= k < ColumnSize :: SlotProgresses(col[k], j, n)
  }

  /**
   * Every slot of every reachable column either consumes one character or
   * moves to a later state (or to the failure state 0): the condition under
   * which `match_str` terminates.
   */
  predicate WellFormed(cs: seq<Column>)
  {
    forall j | 1 <= j < |cs| :: ColumnProgresses(cs[j], j, |cs|)
  }

  /** How far `state` is from leaving the loop without consuming input. */
  function Rank(cs: seq<Column>, state: nat): nat
  {
    if state == 0 || state > |cs| then 0 else |cs| + 1 - state
  }

  /** What `match_str` returns once its loop has stopped in `state`. */
  function Finish(cs: seq<Column>, state: nat): bool
  {
    if state == 0 then false
    else if state < |cs| then cs[state][LineEnd].next >= |cs|
    else true
  }

  /** The result of `match_str` from `state` with `head` characters consumed; `None` is a panic. */
  function MatchFrom(cs: seq<Column>, chars: string, state: nat, head: nat): Option<bool>
    requires WellFormed(cs) && head <= |chars|
    decreases |chars| - head, Rank(cs, state)
  {
    if 0 < state < |cs| && head < |chars| then
      var c := chars[head] as int;
      if c >= ColumnSize then None
      else
        var a := cs[state][c];
        assert SlotProgresses(a, state, |cs|);
        MatchFrom(cs, chars, a.next, head + a.offset)
    else Some(Finish(cs, state))
  }

  function Match(re: Regex, input: string): Option<bool>
    requires WellFormed(re.cs)
  {
    MatchFrom(re.cs, input, 1, 0)
  }

  /**
   * `Regex::match_str`. Each iteration consumes a character or moves to a
   * later state, so the loop ends; a character code of 130 or more indexes
   * past the column and panics.
   */
  method MatchStr(re: Regex, input: string) returns (r: Option<bool>)
    requires WellFormed(re.cs)
    ensures r == Match(re, input)
  {
    var cs := re.cs;
    var state: nat := 1;
    var head: nat := 0;
    var n := |input|;
    while 0 < state && state < |cs| && head < n
      invariant head <= n
      invariant MatchFrom(cs, input, state, head) == MatchFrom(cs, input, 1, 0)
      decreases n - head, Rank(cs, state)
    {
      var c := input[head] as int;
      if c >= ColumnSize {
        return None;
      }
      var action := cs[state][c];
      assert SlotProgresses(action, state, |cs|);
      state := action.next;
      head := head + action.offset;
    }
    if state == 0 {
      return Some(false);
    }
    if state < |cs| {
      var action := cs[state][LineEnd];
      state := action.next;
    }
    return Some(state >= |cs|);
  }

  /** State 0 is failure: the result is false whatever input is left. */
  lemma FailureIsFinal(cs: seq<Column>, chars: string, head: nat)
    requires WellFormed(cs) && head <= |chars|
    ensures MatchFrom(cs, chars, 0, head) == Some(false)
  {
  }

  /** Once the state reaches the column count, the rest of the input is ignored and the result is true. */
  lemma AcceptIsFinal(cs: seq<Column>, chars: string, state: nat, head: nat)
    requires WellFormed(cs) && head <= |chars| && 1 <= |cs| <= state
    ensures MatchFrom(cs, chars, state, head) == Some(true)
  {
  }

  /** With the input exhausted in a live state, exactly one line-end transition decides the result. */
  lemma ExhaustedTakesLineEnd(cs: seq<Column>, chars: string, state: nat)
    requires WellFormed(cs) && 0 < state < |cs|
    ensures MatchFrom(cs, chars, state, |chars|) == Some(cs[state][LineEnd].next >= |cs|)
  {
  }

  // ------------------------------------------------- shape of a compiled table

  /** Column `j` as pushed for a literal, `.` or `$`: each slot fails or consumes into column j+1, at least one consumes. */
  predicate AtomShape(col: Column, j: nat)
  {
    (forall k | 0 <= k < ColumnSize :: col[k] == Action(0, 0) || col[k] == Action(j + 1, 1)) &&
    exists k | 0 <= k < ColumnSize :: col[k] == Action(j + 1, 1)
  }

  /** Column `j` after `*` or `+`: each slot consumes and stays, or falls through to j+1; at least one stays. */
  predicate LoopShape(col: Column, j: nat)
  {
    (forall k | 0 <= k < ColumnSize :: col[k] == Action(j, 1) || col[k] == Action(j + 1, 0)) &&
    exists k | 0 <= k < ColumnSize :: col[k] == Action(j, 1)
  }

  predicate Shaped(cs: seq<Column>)
  {
    |cs| >= 1 && cs[0] == NewColumn() &&
    forall j | 1 <= j < |cs| :: AtomShape(cs[j], j) || LoopShape(cs[j], j)
  }

  lemma ShapedWellFormed(cs: seq<Column>)
    requires Shaped(cs)
    ensures WellFormed(cs)
  {
    forall j | 1 <= j < |cs|
      ensures ColumnProgresses(cs[j], j, |cs|)
    {
      assert AtomShape(cs[j], j) || LoopShape(cs[j], j);
    }
  }

  /** Every corrected compile step keeps the table in shape. */
  lemma StepShaped(cs: seq<Column>, c: char)
    requires Shaped(cs) && Step(cs, c).Some?
    ensures Shaped(Step(cs, c).value)
  {
    var n := |cs|;
    var r := Step(cs, c).value;
    if c == '$' {
      assert r == cs + [EndColumn(n + 1)];
      assert r[n][LineEnd] == Action(n + 1, 1);
      assert AtomShape(r[n], n);
    } else if c == '.' {
      assert r == cs + [DotColumn(n + 1)];
      assert r[n][32] == Action(n + 1, 1);
      assert AtomShape(r[n], n);
    } else if c == '*' {
      StarShaped(cs);
    } else if c == '+' {
      PlusShaped(cs);
    } else {
      assert r == cs + [LiteralColumn(c, n + 1)];
      assert r[n][c as int] == Action(n + 1, 1);
      assert AtomShape(r[n], n);
    }
    assert forall j | 1 <= j < n :: r[j] == cs[j] || c == '*';
  }

  lemma StarShaped(cs: seq<Column>)
    requires Shaped(cs) && Step(cs, '*').Some?
    ensures Shaped(Step(cs, '*').value)
  {
    var n := |cs|;
    var j := n - 1;
    var last := cs[j];
    var col := StarColumn(last, n).value;
    assert Step(cs, '*').value == cs[..j] + [col];
    assert AtomShape(last, j);
    var k :| 0 <= k < ColumnSize && last[k] == Action(j + 1, 1);
    assert col[k] == Action(j, 1);
    assert LoopShape(col, j);
  }

  lemma PlusShaped(cs: seq<Column>)
    requires Shaped(cs) && Step(cs, '+').Some?
    ensures Shaped(Step(cs, '+').value)
  {
    var n := |cs|;
    var j := n - 1;
    var last := cs[j];
    var col := PlusColumn(last, n).value;
    assert Step(cs, '+').value == cs + [col];
    assert AtomShape(last, j);
    var k :| 0 <= k < ColumnSize && last[k] == Action(j + 1, 1);
    assert col[k] == Action(n, 1);
    assert LoopShape(col, n);
  }

  lemma {:induction false} CompileFromShaped(cs: seq<Column>, src: string)
    requires Shaped(cs) && CompileFrom(cs, src).Some?
    ensures Shaped(CompileFrom(cs, src).value)
    decreases |src|
  {
    if src != [] {
      StepShaped(cs, src[0]);
      CompileFromShaped(Step(cs, src[0]).value, src[1..]);
    }
  }

  /**
   * A compiled table keeps the all-(0,0) column 0, and every step of
   * `match_str` over it makes progress, so matching terminates.
   */
  lemma CompileWellFormed(src: string)
    requires CompileSpec(src).Some?
    ensures var cs := CompileSpec(src).value.cs;
      |cs| >= 1 && cs[0] == NewColumn() && WellFormed(cs)
  {
    assert Shaped([NewColumn()]);
    CompileFromShaped([NewColumn()], src);
    ShapedWellFormed(CompileSpec(src).value.cs);
  }

  // ---------------------------------------------------- what each step builds

  /** A literal sets only its own slot; `.` sets exactly the printable slots; `$` only the line end. */
  lemma AtomColumns(c: char, next: nat)
    ensures forall k | 0 <= k < ColumnSize ::
      LiteralColumn(c, next)[k] == (if k == c as int then Action(next, 1) else Action(0, 0)) &&
      DotColumn(next)[k] == (if 32 <= k <= 126 then Action(next, 1) else Action(0, 0)) &&
      EndColumn(next)[k] == (if k == LineEnd then Action(next, 1) else Action(0, 0))
  {
  }

  /**
   * `*` on the last column (the n-th): slots that led on now loop to that
   * column with their offset, failing slots fall through without consuming;
   * any other slot panics. `+` does the same on a clone pushed after it,
   * whose looping slots already point at the clone.
   */
  lemma QuantifierColumns(col: Column, n: nat)
    requires n >= 1
    ensures StarColumn(col, n).Some? <==> forall k | 0 <= k < ColumnSize :: col[k].next == n || col[k].next == 0
    ensures PlusColumn(col, n).Some? <==> forall k | 0 <= k < ColumnSize :: col[k].next == n || col[k].next == 0
    ensures StarColumn(col, n).Some? ==> forall k | 0 <= k < ColumnSize ::
      StarColumn(col, n).value[k] == if col[k].next == n then Action(n - 1, col[k].offset) else Action(n, 0)
    ensures PlusColumn(col, n).Some? ==> forall k | 0 <= k < ColumnSize ::
      PlusColumn(col, n).value[k] == if col[k].next == n then col[k] else Action(n + 1, 0)
  {
  }

  // ------------------------------------------------------------- the finding

  /**
   * As written, `*+` turns column 0 into all (1,0) and then clones it as
   * column 1: every slot of column 1 jumps to column 1 without consuming, so
   * `match_str` repeats the same (state, head) forever on any non-empty
   * input. The corrected compile refuses a quantifier with nothing before it.
   */
  lemma LeadingQuantifierSelfLoop()
    ensures CompileAsWritten("*+").Some?
    ensures var cs := CompileAsWritten("*+").value.cs;
      |cs| == 2 && (forall c | 0 <= c < ColumnSize :: cs[1][c] == Action(1, 0)) && !WellFormed(cs)
    ensures CompileSpec("*+").None?
  {
    var star := StarColumn(NewColumn(), 1);
    assert star.Some?;
    var looping := seq(ColumnSize, _ => Action(1, 0));
    assert star.value == looping;
    assert forall k | 0 <= k < ColumnSize :: QuantOk(looping[k], 1) && PlusSlot(looping[k], 1) == looping[k];
    assert seq(ColumnSize, k requires 0 <= k < ColumnSize => PlusSlot(looping[k], 1)) == looping;
    assert PlusColumn(looping, 1) == Some(looping);
    assert StepAsWritten([NewColumn()], '*') == Some([looping]);
    assert [looping] + [looping] == [looping, looping];
    assert StepAsWritten([looping], '+') == Some([looping, looping]);
    assert "*+"[1..] == "+";
    assert CompileFromAsWritten([looping], "+") == Some([looping, looping]);
    assert !SlotProgresses(looping[0], 1, 2);
  }

  /** The corrected compile agrees with the one as written once column 1 exists. */
  lemma {:induction false} CompileFromAgrees(cs: seq<Column>, src: string)
    requires |cs| >= 2
    ensures CompileFrom(cs, src) == CompileFromAsWritten(cs, src)
    decreases |src|
  {
    if src != [] {
      assert Step(cs, src[0]) == StepAsWritten(cs, src[0]);
      if Step(cs, src[0]).Some? {
        CompileFromAgrees(Step(cs, src[0]).value, src[1..]);
      }
    }
  }

  /** Patterns that do not start with a quantifier compile exactly as written. */
  lemma CompileAgrees(src: string)
    requires src == [] || !IsQuantifier(src[0])
    ensures CompileSpec(src) == CompileAsWritten(src)
  {
    if src != [] {
      var first := Step([NewColumn()], src[0]);
      if first.Some? {
        CompileFromAgrees(first.value, src[1..]);
      }
    }
  }

  // ------------------------------------------------------- literal patterns

  /** A character that compiles as a literal and never sets the line-end slot. */
  predicate PlainLiteral(c: char)
  {
    c as int < LineEnd && c != '$' && c != '.' && c != '*' && c != '+'
  }

  /** The columns a run of literals pushes, the first of them leading to column `first`. */
  function LiteralColumns(p: string, first: nat): (r: seq<Column>)
    ensures |r| == |p|
  {
    if p == [] then [] else [LiteralColumn(p[0], first)] + LiteralColumns(p[1..], first + 1)
  }

  lemma {:induction false} LiteralColumnsAt(p: string, first: nat, i: nat)
    requires i < |p|
    ensures LiteralColumns(p, first)[i] == LiteralColumn(p[i], first + i)
    decreases i
  {
    if i > 0 {
      LiteralColumnsAt(p[1..], first + 1, i - 1);
    }
  }

  /** Each literal of the pattern appends one column that consumes exactly that character. */
  lemma {:induction false} CompileLiterals(cs: seq<Column>, p: string)
    requires |cs| >= 1 && forall i | 0 <= i < |p| :: PlainLiteral(p[i])
    ensures CompileFrom(cs, p) == Some(cs + LiteralColumns(p, |cs| + 1))
    decreases |p|
  {
    if p == [] {
      assert cs + [] == cs;
    } else {
      var cs' := cs + [LiteralColumn(p[0], |cs| + 1)];
      assert CompileFrom(cs, p) == CompileFrom(cs', p[1..]) by {
        assert Step(cs, p[0]) == Some(cs');
      }
      assert CompileFrom(cs', p[1..]) == Some(cs' + LiteralColumns(p[1..], |cs'| + 1)) by {
        CompileLiterals(cs', p[1..]);
      }
      assert cs' + LiteralColumns(p[1..], |cs'| + 1) == cs + LiteralColumns(p, |cs| + 1) by {
        assert LiteralColumns(p, |cs| + 1) == [LiteralColumn(p[0], |cs| + 1)] + LiteralColumns(p[1..], |cs| + 2);
      }
    }
  }

  lemma {:induction false} LiteralRun(cs: seq<Column>, p: string, s: string, j: nat)
    requires forall i | 0 <= i < |p| :: PlainLiteral(p[i])
    requires forall i | 0 <= i < |s| :: s[i] as int < ColumnSize
    requires cs == [NewColumn()] + LiteralColumns(p, 2)
    requires WellFormed(cs)
    requires 1 <= j <= |p| + 1 && j - 1 <= |s| && s[..j - 1] == p[..j - 1]
    ensures MatchFrom(cs, s, j, j - 1) == Some(p <= s)
    decreases |p| + 1 - j
  {
    if j == |p| + 1 {
      assert s[..|p|] == p;
    } else {
      LiteralColumnsAt(p, 2, j - 1);
      assert cs[j] == LiteralColumn(p[j - 1], j + 1);
      if j - 1 == |s| {
        assert cs[j][LineEnd] == Action(0, 0);
      } else if s[j - 1] == p[j - 1] {
        assert s[..j] == p[..j];
        LiteralRun(cs, p, s, j + 1);
      } else {
        assert cs[j][s[j - 1] as int] == Action(0, 0);
        assert !(p <= s);
      }
    }
  }

  /** A pattern of plain literals matches an input exactly when it is a prefix of the input. */
  lemma LiteralPatternIsPrefix(p: string, s: string)
    requires forall i | 0 <= i < |p| :: PlainLiteral(p[i])
    requires forall i | 0 <= i < |s| :: s[i] as int < ColumnSize
    ensures CompileSpec(p).Some? && WellFormed(CompileSpec(p).value.cs) &&
      Match(CompileSpec(p).value, s) == Some(p <= s)
  {
    CompileLiterals([NewColumn()], p);
    CompileWellFormed(p);
    var cs := CompileSpec(p).value.cs;
    LiteralRun(cs, p, s, 1);
  }
}

=== FILE: stack_memory.dfy ===
/**
 * The abstract machine both stack walkers of stack_print run on: a 64-bit
 * address space whose readable words are given by a map from byte address to
 * word. A read at an address outside the map is a fault that ends the process.
 */
module StackMemory {

  const AddrModulus: nat := 0x1_0000_0000_0000_0000

  /** `X86_USER_MAX_VA`, the ceiling of x86-64 user-space addresses. */
  const UserMaxVa: nat := 0x00007FFFFFFFFFFF

  type Word = x: nat | x < AddrModulus

  /** Readable memory: the 64-bit word stored at each mapped byte address. */
  type Memory = map<Word, Word>

  /** The loop guard of both walkers: non-null and below the user-space ceiling. */
  predicate Plausible(fp: Word)
  {
    0 < fp < UserMaxVa
  }

  /** `a - d` on 64-bit addresses, wrapping below zero. */
  function SubWrap(a: Word, d: nat): (r: Word)
    ensures d <= a ==> r == a - d
  {
    (a - d) % AddrModulus
  }
}

=== FILE: stack_print_c.dfy ===
/**
 * stack_print/stack_print.c: `print_stack_trace_fp_chain`. The frame pointer
 * register's value is an input; `fp[-1]` and `fp[-2]` are the words at byte
 * addresses fp-8 and fp-16. Standard output is the returned string. Because a
 * chain need not end, the loop runs for at most `bound` iterations.
 */
module StackPrintC {
  import opened StackMemory
  import Hex

  const Header: string := "=== Stack trace from fp chain ===\n"
  const Footer: string := "=== End ===\n\n"

  /** One frame as printed: where it was found, `fp[-1]` and `fp[-2]`. */
  datatype Frame = Frame(fp: Word, ret: Word, oldSp: Word)

  /** How the walk stopped. */
  datatype Stop =
    | Null                        // fp became 0: the footer is printed
    | Ceiling                     // fp reached X86_USER_MAX_VA: the footer is printed
    | FaultRet(at: Word)          // reading fp[-1] faulted: the process dies
    | FaultOld(at: Word, ret: Word) // fp[-1] printed, then reading fp[-2] faulted
    | Bound                       // the iteration bound of the model was reached

  /** `printf("Return address: 0x%016" PRIxPTR "\n", fp[-1])`. */
  function RetLine(ret: Word): string
  {
    "Return address: 0x" + Hex.Padded(ret, 16) + "\n"
  }

  /** `printf("Old stack pointer: 0x%016" PRIxPTR "\n", fp[-2])`. */
  function OldLine(oldSp: Word): string
  {
    "Old stack pointer: 0x" + Hex.Padded(oldSp, 16) + "\n"
  }

  /** The three lines one iteration prints. */
  function FrameText(f: Frame): string
  {
    RetLine(f.ret) + OldLine(f.oldSp) + "\n"
  }

  function FramesText(frames: seq<Frame>): string
  {
    if frames == [] then "" else FramesText(frames[..|frames| - 1]) + FrameText(frames[|frames| - 1])
  }

  /** What the walk prints after its last whole frame. */
  function Tail(stop: Stop): string
  {
    match stop
    case Null => Footer
    case Ceiling => Footer
    case FaultRet(_) => ""
    case FaultOld(_, ret) => RetLine(ret)
    case Bound => ""
  }

  /** The whole output of a walk. */
  function Output(frames: seq<Frame>, stop: Stop): string
  {
    Header + FramesText(frames) + Tail(stop)
  }

  /** The frames the loop visits from `fp` within `fuel` iterations, and how it stops. */
  function Chain(mem: Memory, fp: Word, fuel: nat): (r: (seq<Frame>, Stop))
    ensures |r.0| <= fuel
    decreases fuel
  {
    if !Plausible(fp) then ([], if fp == 0 then Null else Ceiling)
    else if fuel == 0 then ([], Bound)
    else if SubWrap(fp, 8) !in mem then ([], FaultRet(fp))
    else if SubWrap(fp, 16) !in mem then ([], FaultOld(fp, mem[SubWrap(fp, 8)]))
    else
      var f := Frame(fp, mem[SubWrap(fp, 8)], mem[SubWrap(fp, 16)]);
      var rest := Chain(mem, f.oldSp, fuel - 1);
      ([f] + rest.0, rest.1)
  }

  /**
   * The walk loop: while fp is non-null and below the ceiling, print fp[-1]
   * and fp[-2] and continue with fp[-2]; then the footer. `derefs` lists every
   * fp the loop dereferenced.
   */
  method PrintStackTrace(mem: Memory, fp0: Word, bound: nat) returns (out: string, frames: seq<Frame>, stop: Stop, derefs: seq<Word>)
    ensures (frames, stop) == Chain(mem, fp0, bound)
    ensures out == Output(frames, stop)
    ensures forall p :: p in derefs ==> Plausible(p)
    ensures |derefs| == |frames| + (if stop.FaultRet? || stop.FaultOld? then 1 else 0)
  {
    // `printed` is what the loop has written after the header
    var printed := "";
    frames, derefs := [], [];
    var fp: Word := fp0;
    var fuel: nat := bound;
    PrependNil([], Chain(mem, fp, fuel));
    while fp != 0 && fp < UserMaxVa
      invariant forall p :: p in derefs ==> Plausible(p)
      invariant |derefs| == |frames|
      invariant printed == FramesText(frames)
      invariant Chain(mem, fp0, bound) == Prepend(frames, Chain(mem, fp, fuel))
      decreases fuel
    {
      if fuel == 0 {
        stop := Bound;
        break;
      }
      derefs := derefs + [fp];
      if SubWrap(fp, 8) !in mem {
        stop := FaultRet(fp);
        break;
      }
      var ret := mem[SubWrap(fp, 8)];
      if SubWrap(fp, 16) !in mem {
        // the return-address line is printed before fp[-2] is read
        stop := FaultOld(fp, ret);
        break;
      }
      var oldSp := mem[SubWrap(fp, 16)];
      var f := Frame(fp, ret, oldSp);
      printed := PrintFrame(printed, frames, f);
      Advance(mem, frames, f, fuel);
      frames := frames + [f];
      fp := oldSp;
      fuel := fuel - 1;
    }
    if !Plausible(fp) {
      stop := if fp == 0 then Null else Ceiling;
    }
    PrependNil(frames, ([], stop));
    out := Finish(printed, frames, stop);
  }

  /** The frames walked so far, followed by the rest of a walk. */
  function Prepend(frames: seq<Frame>, r: (seq<Frame>, Stop)): (seq<Frame>, Stop)
  {
    (frames + r.0, r.1)
  }

  lemma PrependNil(frames: seq<Frame>, r: (seq<Frame>, Stop))
    ensures Prepend([], r) == r
    ensures Prepend(frames, ([], r.1)) == (frames, r.1)
  {
    assert [] + r.0 == r.0;
    assert frames + [] == frames;
  }

  /** The header before, and after the loop what follows the last whole frame. */
  method Finish(printed: string, frames: seq<Frame>, stop: Stop) returns (out: string)
    requires printed == FramesText(frames)
    ensures out == Output(frames, stop)
  {
    out := Header + printed + Tail(stop);
  }

  /** The three lines of one iteration, appended to what is already printed. */
  method PrintFrame(printed: string, frames: seq<Frame>, f: Frame) returns (p: string)
    requires printed == FramesText(frames)
    ensures p == FramesText(frames + [f])
  {
    p := printed + FrameText(f);
    assert (frames + [f])[..|frames|] == frames;
  }

  /** One iteration of the walk loop, seen on the specification. */
  lemma Advance(mem: Memory, frames: seq<Frame>, f: Frame, fuel: nat)
    requires Plausible(f.fp) && fuel > 0
    requires SubWrap(f.fp, 8) in mem && f.ret == mem[SubWrap(f.fp, 8)]
    requires SubWrap(f.fp, 16) in mem && f.oldSp == mem[SubWrap(f.fp, 16)]
    ensures Prepend(frames, Chain(mem, f.fp, fuel)) == Prepend(frames + [f], Chain(mem, f.oldSp, fuel - 1))
  {
    var rest := Chain(mem, f.oldSp, fuel - 1);
    assert frames + ([f] + rest.0) == (frames + [f]) + rest.0;
  }

  /** A null starting frame pointer prints only the header and the footer. */
  lemma NullStart(mem: Memory, fuel: nat)
    ensures Chain(mem, 0, fuel) == ([], Null)
    ensures Output([], Null) == Header + Footer
  {
  }

  /**
   * Each visited frame was plausible, its words are the ones stored at fp-8
   * and fp-16, and the next frame is exactly the old stack pointer printed.
   */
  lemma {:induction false} ChainFacts(mem: Memory, fp: Word, fuel: nat)
    ensures var (fs, stop) := Chain(mem, fp, fuel);
      (forall i :: 0 <= i < |fs| ==> (Plausible(fs[i].fp)
          && SubWrap(fs[i].fp, 8) in mem && fs[i].ret == mem[SubWrap(fs[i].fp, 8)]
          && SubWrap(fs[i].fp, 16) in mem && fs[i].oldSp == mem[SubWrap(fs[i].fp, 16)])) &&
      (fs != [] ==> fs[0].fp == fp) &&
      (forall i :: 0 <= i < |fs| - 1 ==> fs[i + 1].fp == fs[i].oldSp) &&
      ((stop.Null? || stop.Ceiling?) ==> !Plausible(if fs == [] then fp else fs[|fs| - 1].oldSp))
    decreases fuel
  {
    if Plausible(fp) && fuel > 0 && SubWrap(fp, 8) in mem && SubWrap(fp, 16) in mem {
      ChainFacts(mem, mem[SubWrap(fp, 16)], fuel - 1);
    }
  }

  /** A well-formed chain: `fps` are plausible frame pointers, each one's fp[-2] is the next, the last's is `last`. */
  predicate IsChain(mem: Memory, fps: seq<Word>, last: Word)
  {
    (forall i :: 0 <= i < |fps| ==> Plausible(fps[i]) && SubWrap(fps[i], 8) in mem && SubWrap(fps[i], 16) in mem) &&
    (forall i :: 0 <= i < |fps| ==> Link(mem, fps, i, last))
  }

  /** fp[-2] of the i-th frame pointer of `fps` is the next one, or `last` after the final one. */
  predicate Link(mem: Memory, fps: seq<Word>, i: nat, last: Word)
    requires i < |fps|
  {
    SubWrap(fps[i], 16) in mem && mem[SubWrap(fps[i], 16)] == if i + 1 < |fps| then fps[i + 1] else last
  }

  /**
   * A chain of N frames ending in a null or out-of-range link is walked to
   * completion: exactly its N frames, in order, each with its two stored
   * words, and then the footer.
   */
  lemma {:induction false} FiniteChain(mem: Memory, fps: seq<Word>, last: Word, fuel: nat)
    requires |fps| >= 1 && IsChain(mem, fps, last) && !Plausible(last) && fuel >= |fps|
    ensures var (fs, stop) := Chain(mem, fps[0], fuel);
      |fs| == |fps| && stop == (if last == 0 then Null else Ceiling) &&
      forall i :: 0 <= i < |fps| ==> fs[i] == Frame(fps[i], mem[SubWrap(fps[i], 8)], mem[SubWrap(fps[i], 16)])
  {
    var fp := fps[0];
    assert Plausible(fp) && SubWrap(fp, 8) in mem && SubWrap(fp, 16) in mem;
    var next := mem[SubWrap(fp, 16)];
    var rest := Chain(mem, next, fuel - 1);
    assert Chain(mem, fp, fuel) == ([Frame(fp, mem[SubWrap(fp, 8)], next)] + rest.0, rest.1);
    assert Link(mem, fps, 0, last);
    if |fps| == 1 {
      assert next == last;
    } else {
      assert next == fps[1];
      assert IsChain(mem, fps[1..], last) by {
        forall i | 0 <= i < |fps| - 1
          ensures Link(mem, fps[1..], i, last)
        {
          assert Link(mem, fps, i + 1, last);
        }
      }
      FiniteChain(mem, fps[1..], last, fuel - 1);
    }
  }

  /** Each printed word is `0x` and exactly 16 lower-case hex digits that read back as the word. */
  lemma RetLineFormat(ret: Word)
    ensures var t := RetLine(ret);
      |t| == 35 && t[..18] == "Return address: 0x" && t[34] == '\n' &&
      Hex.AllHex(t[18..34]) && Hex.Value(t[18..34]) == ret
  {
    Hex.Pow16Sixteen();
    Hex.PaddedExact(ret, 16);
    var t := RetLine(ret);
    assert t[18..34] == Hex.Padded(ret, 16);
  }

  lemma OldLineFormat(oldSp: Word)
    ensures var t := OldLine(oldSp);
      |t| == 38 && t[..21] == "Old stack pointer: 0x" && t[37] == '\n' &&
      Hex.AllHex(t[21..37]) && Hex.Value(t[21..37]) == oldSp
  {
    Hex.Pow16Sixteen();
    Hex.PaddedExact(oldSp, 16);
    var t := OldLine(oldSp);
    assert t[21..37] == Hex.Padded(oldSp, 16);
  }
}

=== FILE: stack_print_rust.dfy ===
/**
 * stack_print/src/main.rs: the frame-pointer walk of `main`. The starting
 * value of `fp` is an input. As written, `p.wrapping_sub(8)` and
 * `p.wrapping_sub(16)` step back 8 and 16 `u64` elements, that is 64 and 128
 * bytes; the loop prints those two addresses (not the words stored there)
 * and continues with the word stored 128 bytes below fp. Standard output is
 * the returned string; the loop runs for at most `bound` iterations.
 */
module StackPrintRust {
  import opened StackMemory
  import Hex

  const Footer: string := "=== End ===\n"
  const ReturnLabel: string := "Return address: "
  const OldSpLabel: string := "Old Stack pointer: "

  /** How the walk stopped. */
  datatype Stop =
    | Null            // fp became 0: the footer is printed
    | Ceiling         // fp reached X86_USER_MAX_VA: the footer is printed
    | Fault(at: Word) // the frame at `at` was printed, then reading its next fp faulted
    | Bound           // the iteration bound of the model was reached

  /** `{:p}` of a raw pointer: `0x` and the address in lower-case hex without padding. */
  function Pointer(a: Word): string
  {
    "0x" + Hex.Minimal(a)
  }

  /** `fp as *mut u64` stepped back `k` elements. */
  function ElemBack(fp: Word, k: nat): Word
  {
    SubWrap(fp, 8 * k)
  }

  /** The three `println!` calls of one iteration; `println!("\n")` ends in two newlines. */
  function FrameText(fp: Word): string
  {
    ReturnLabel + Pointer(ElemBack(fp, 8)) + " \n" +
    OldSpLabel + Pointer(ElemBack(fp, 16)) + "\n" +
    "\n\n"
  }

  function FramesText(fps: seq<Word>): string
  {
    if fps == [] then "" else FramesText(fps[..|fps| - 1]) + FrameText(fps[|fps| - 1])
  }

  function Output(fps: seq<Word>, stop: Stop): string
  {
    FramesText(fps) + if stop.Null? || stop.Ceiling? then Footer else ""
  }

  /** The frame pointers the loop prints from `fp` within `fuel` iterations, and how it stops. */
  function Chain(mem: Memory, fp: Word, fuel: nat): (r: (seq<Word>, Stop))
    ensures |r.0| <= fuel
    decreases fuel
  {
    if !Plausible(fp) then ([], if fp == 0 then Null else Ceiling)
    else if fuel == 0 then ([], Bound)
    else if ElemBack(fp, 16) !in mem then ([fp], Fault(fp))
    else
      var rest := Chain(mem, mem[ElemBack(fp, 16)], fuel - 1);
      ([fp] + rest.0, rest.1)
  }

  function Prepend(fps: seq<Word>, r: (seq<Word>, Stop)): (seq<Word>, Stop)
  {
    (fps + r.0, r.1)
  }

  lemma PrependNil(fps: seq<Word>, r: (seq<Word>, Stop))
    ensures Prepend([], r) == r
    ensures Prepend(fps, ([], r.1)) == (fps, r.1)
  {
    assert [] + r.0 == r.0;
    assert fps + [] == fps;
  }

  /**
   * The loop of `main`: while fp is non-null and below the ceiling, print the
   * two addresses and load the next fp; then the footer. Every fp that is
   * dereferenced is plausible.
   */
  method Walk(mem: Memory, fp0: Word, bound: nat) returns (out: string, fps: seq<Word>, stop: Stop)
    ensures (fps, stop) == Chain(mem, fp0, bound)
    ensures out == Output(fps, stop)
    ensures forall p :: p in fps ==> Plausible(p)
  {
    var printed := "";
    fps := [];
    var fp: Word := fp0;
    var fuel: nat := bound;
    PrependNil([], Chain(mem, fp, fuel));
    while fp > 0 && fp < UserMaxVa
      invariant forall p :: p in fps ==> Plausible(p)
      invariant printed == FramesText(fps)
      invariant Chain(mem, fp0, bound) == Prepend(fps, Chain(mem, fp, fuel))
      decreases fuel
    {
      if fuel == 0 {
        stop := Bound;
        break;
      }
      printed := PrintFrame(printed, fps, fp);
      if ElemBack(fp, 16) !in mem {
        FaultStep(mem, fps, fp, fuel);
        fps := fps + [fp];
        stop := Fault(fp);
        PrependNil(fps, ([], stop));
        break;
      }
      var next := mem[ElemBack(fp, 16)];
      Advance(mem, fps, fp, fuel);
      fps := fps + [fp];
      fp := next;
      fuel := fuel - 1;
    }
    if !Plausible(fp) {
      stop := if fp == 0 then Null else Ceiling;
    }
    PrependNil(fps, ([], stop));
    out := Finish(printed, fps, stop);
  }

  lemma Printed(fps: seq<Word>, fp: Word)
    ensures FramesText(fps + [fp]) == FramesText(fps) + FrameText(fp)
  {
    assert (fps + [fp])[..|fps|] == fps;
  }

  /** The iteration whose next-fp slot is unmapped prints its frame and faults. */
  lemma FaultStep(mem: Memory, fps: seq<Word>, fp: Word, fuel: nat)
    requires Plausible(fp) && fuel > 0 && ElemBack(fp, 16) !in mem
    ensures Prepend(fps, Chain(mem, fp, fuel)) == (fps + [fp], Fault(fp))
  {
  }

  /** After the loop: the footer, unless the walk faulted or hit the bound. */
  method Finish(printed: string, fps: seq<Word>, stop: Stop) returns (out: string)
    requires printed == FramesText(fps)
    ensures out == Output(fps, stop)
  {
    out := printed + if stop.Null? || stop.Ceiling? then Footer else "";
  }

  /** The three `println!` calls of one iteration, appended to what is already printed. */
  method PrintFrame(printed: string, fps: seq<Word>, fp: Word) returns (p: string)
    requires printed == FramesText(fps)
    ensures p == FramesText(fps + [fp])
  {
    p := printed + FrameText(fp);
    Printed(fps, fp);
  }

  /** One iteration of the loop that loads the next fp, seen on the specification. */
  lemma Advance(mem: Memory, fps: seq<Word>, fp: Word, fuel: nat)
    requires Plausible(fp) && fuel > 0 && ElemBack(fp, 16) in mem
    ensures Prepend(fps, Chain(mem, fp, fuel)) == Prepend(fps + [fp], Chain(mem, mem[ElemBack(fp, 16)], fuel - 1))
  {
    var rest := Chain(mem, mem[ElemBack(fp, 16)], fuel - 1);
    assert fps + ([fp] + rest.0) == (fps + [fp]) + rest.0;
  }

  /** A null starting frame pointer prints only the footer. */
  lemma NullStart(mem: Memory, fuel: nat)
    ensures Output(Chain(mem, 0, fuel).0, Chain(mem, 0, fuel).1) == Footer
  {
    assert Output([], Null) == "" + Footer;
  }

  /**
   * Every printed frame pointer was plausible; each next one is the word stored
   * 128 bytes below the previous; a fault happens only at the last one, whose
   * slot is unmapped; a footer means the last link left the plausible range.
   */
  lemma {:induction false} ChainFacts(mem: Memory, fp: Word, fuel: nat)
    ensures var (fs, stop) := Chain(mem, fp, fuel);
      (forall i :: 0 <= i < |fs| ==> Plausible(fs[i])) &&
      (fs != [] ==> fs[0] == fp) &&
      (forall i :: 0 <= i < |fs| - 1 ==> ElemBack(fs[i], 16) in mem && fs[i + 1] == mem[ElemBack(fs[i], 16)]) &&
      (stop.Fault? <==> fs != [] && ElemBack(fs[|fs| - 1], 16) !in mem) &&
      (stop.Fault? ==> stop.at == fs[|fs| - 1]) &&
      ((stop.Null? || stop.Ceiling?) ==>
        !Plausible(if fs == [] then fp else mem[ElemBack(fs[|fs| - 1], 16)]))
    decreases fuel
  {
    if Plausible(fp) && fuel > 0 && ElemBack(fp, 16) in mem {
      ChainFacts(mem, mem[ElemBack(fp, 16)], fuel - 1);
    }
  }

  /** `{:p}` prints `0x` and at most 16 hex digits, without leading zeros, that read back as the address. */
  lemma PointerFormat(a: Word)
    ensures var t := Pointer(a);
      t[..2] == "0x" && 3 <= |t| <= 18 && Hex.AllHex(t[2..]) && Hex.Value(t[2..]) == a &&
      (t[2] == '0' <==> a == 0)
  {
    Hex.MinimalDigits(a);
    Hex.MinimalValue(a);
    Hex.Pow16Sixteen();
    Hex.MinimalLength(a, 16);
    Hex.MinimalLeading(a);
    assert Pointer(a)[2..] == Hex.Minimal(a);
  }
}

=== FILE: tcp_connection.dfy ===
/**
 * tcp_rust/src/tcp.rs: one connection's transmission control block (TCB),
 * and what `accept`, `write`, `on_packet` and `close` do to it.
 *
 * The IP and TCP headers are reduced to the fields the code sets or reads;
 * every segment handed to the network interface is appended to `sent`.
 */
module TcpConnection {
  import opened Wrappers
  import opened TcpSeq

  type byte = x: nat | x < 0x100

  /** A `u16` window. */
  type u16 = x: nat | x < WindowLimit

  datatype State = Listen | SynRcvd | Estab | TimeWait | FinWait1 | FinWait2

  /** `Available`: whether a reader (or writer) waiting on the connection may go on. */
  datatype Available = Available(read: bool, write: bool)

  /** An incoming segment, as far as `accept` and `on_packet` look at it. */
  datatype Segment = Segment(seqn: u32, ackn: u32, window: u16, syn: bool, ack: bool, fin: bool, data: seq<byte>)

  /** A segment `write` hands to the interface: the sequence fields, the SYN and FIN flags, the payload. */
  datatype Sent = Sent(seqn: u32, ackn: u32, syn: bool, fin: bool, payload: seq<byte>)

  datatype ErrorKind = ConnectionAborted | WouldBlock | AddrInUse | NotConnected

  /** `io::Result`. */
  datatype IoResult<T> = Ok(value: T) | Err(kind: ErrorKind)

  /** Why `on_packet` panics. */
  datatype PanicReason =
    | DataWithAck        // `assert!(data.is_empty())` on an acknowledging segment
    | FinUnimplemented   // `unimplemented!()`: a FIN outside FIN-WAIT-2

  /** What `on_packet` returns, or the panic. */
  datatype Outcome = Ready(avail: Available) | Panic(reason: PanicReason)

  /**
   * The connection as a value: the state, the send sequence variables
   * (SND.UNA, SND.NXT, SND.WND, ISS), the receive sequence variables
   * (RCV.NXT, RCV.WND, IRS), the SYN and FIN flags of the outgoing header,
   * the two byte queues, `closed`, and the segments sent so far.
   */
  datatype Tcb = Tcb(
    state: State,
    una: u32, nxt: u32, sndWnd: u16, iss: u32,
    rcvNxt: u32, rcvWnd: u16, irs: u32,
    syn: bool, fin: bool,
    incoming: seq<byte>, unacked: seq<byte>,
    closed: bool,
    sent: seq<Sent>)

  /** The largest IP packet `write` builds. */
  const PacketSize: nat := 1500

  /** An IPv4 header and a TCP header, neither with options. */
  const HeaderSize: nat := 40

  /** What is left of a packet for the payload. */
  const PayloadRoom: nat := PacketSize - HeaderSize

  function Min(a: nat, b: nat): nat
  {
    if a <= b then a else b
  }

  /** 1 when the flag is set. */
  function Octet(flag: bool): nat
  {
    if flag then 1 else 0
  }

  /** `is_rcv_closed`: nothing more will arrive. */
  predicate IsRcvClosed(t: Tcb)
  {
    t.state == TimeWait
  }

  /** `availability`. */
  function Availability(t: Tcb): (a: Available)
    ensures a.read <==> t.state == TimeWait || t.incoming != []
    ensures !a.write
  {
    Available(IsRcvClosed(t) || t.incoming != [], false)
  }

  /**
   * `write`: one segment with as much of the payload as fits, sent at
   * SND.NXT with the ACK field at RCV.NXT; SND.NXT moves past the payload,
   * the SYN and the FIN, and both flags are cleared.
   */
  function Sending(t: Tcb, payload: seq<byte>): (r: (Tcb, nat))
    ensures r.1 == Min(|payload|, PayloadRoom)
    ensures r.0 == t.(nxt := r.0.nxt, syn := false, fin := false, sent := r.0.sent)
    ensures r.0.sent == t.sent + [Sent(t.nxt, t.rcvNxt, t.syn, t.fin, payload[..r.1])]
  {
    var n := Min(|payload|, PayloadRoom);
    (t.(nxt := Add(t.nxt, n + Octet(t.syn) + Octet(t.fin)), syn := false, fin := false,
        sent := t.sent + [Sent(t.nxt, t.rcvNxt, t.syn, t.fin, payload[..n])]),
     n)
  }

  /** `accept`: the TCB a SYN creates, after its SYN-ACK went out; nothing without SYN. */
  function Accepted(seg: Segment): (r: Option<Tcb>)
  {
    if !seg.syn then None
    else
      var t := Tcb(SynRcvd, 0, 0, 1024, 0, Add(seg.seqn, 1), seg.window, seg.seqn,
                   true, false, [], [], false, []);
      Some(Sending(t, []).0)
  }

  /** `on_packet`. */
  function Receive(t: Tcb, seg: Segment): (Tcb, Outcome)
  {
    var slen := SegLen(|seg.data|, seg.syn, seg.fin);
    if !Acceptable(t.rcvNxt, t.rcvWnd, seg.seqn, slen) then
      var t1 := Sending(t, []).0;
      (t1, Ready(Availability(t1)))
    else
      var t1 := t.(rcvNxt := Add(seg.seqn, slen));
      if !seg.ack then (t1, Ready(Availability(t1)))
      else Acknowledge(t1, seg)
  }

  predicate Synchronized(s: State)
  {
    s == Estab || s == FinWait1 || s == FinWait2
  }

  /** `on_packet` from the SEG.ACK processing on. */
  function Acknowledge(t: Tcb, seg: Segment): (Tcb, Outcome)
  {
    var t2 := if t.state == SynRcvd && IsBetweenWrapped(Sub(t.una, 1), seg.ackn, Add(t.nxt, 1))
              then t.(state := Estab) else t;
    if Synchronized(t2.state) then AckSynchronized(t2, seg) else Finish(t2, seg)
  }

  /** SEG.ACK in ESTABLISHED, FIN-WAIT-1 or FIN-WAIT-2. */
  function AckSynchronized(t: Tcb, seg: Segment): (Tcb, Outcome)
  {
    if !IsBetweenWrapped(t.una, seg.ackn, Add(t.nxt, 1)) then (t, Ready(Availability(t)))
    else if seg.data != [] then (t.(una := seg.ackn), Panic(DataWithAck))
    else
      var t3 := t.(una := seg.ackn);
      var t4 := if t3.state == Estab then Sending(t3.(fin := true), []).0.(state := FinWait1) else t3;
      Finish(t4, seg)
  }

  /** `on_packet` from the FIN-WAIT-1 check on. */
  function Finish(t: Tcb, seg: Segment): (Tcb, Outcome)
  {
    var t5 := if t.state == FinWait1 && t.una == t.iss + 2 then t.(state := FinWait2) else t;
    if !seg.fin then (t5, Ready(Availability(t5)))
    else if t5.state == FinWait2 then
      var t6 := Sending(t5, []).0.(state := TimeWait);
      (t6, Ready(Availability(t6)))
    else (t5, Panic(FinUnimplemented))
  }

  /** `close`. */
  function Closing(t: Tcb): (Tcb, IoResult<()>)
  {
    match t.state
    case SynRcvd => (t.(closed := true, state := FinWait1), Ok(()))
    case Estab => (t.(closed := true, state := FinWait1), Ok(()))
    case FinWait1 => (t.(closed := true), Ok(()))
    case FinWait2 => (t.(closed := true), Ok(()))
    case _ => (t.(closed := true), Err(NotConnected))
  }

  // ------------------------------------------------------------ the class

  /** `Connection`. */
  class Connection {
    var state: State
    var una: u32
    var nxt: u32
    var sndWnd: u16
    var iss: u32
    var rcvNxt: u32
    var rcvWnd: u16
    var irs: u32
    var syn: bool
    var fin: bool
    var incoming: seq<byte>
    var unacked: seq<byte>
    var closed: bool
    var sent: seq<Sent>

    function Snapshot(): Tcb
      reads this
    {
      Tcb(state, una, nxt, sndWnd, iss, rcvNxt, rcvWnd, irs, syn, fin, incoming, unacked, closed, sent)
    }

    constructor FromTcb(t: Tcb)
      ensures Snapshot() == t
    {
      state, una, nxt, sndWnd, iss := t.state, t.una, t.nxt, t.sndWnd, t.iss;
      rcvNxt, rcvWnd, irs := t.rcvNxt, t.rcvWnd, t.irs;
      syn, fin := t.syn, t.fin;
      incoming, unacked, closed, sent := t.incoming, t.unacked, t.closed, t.sent;
    }

    /** `is_rcv_closed`. */
    predicate RcvClosed()
      reads this
      ensures RcvClosed() <==> IsRcvClosed(Snapshot())
    {
      state == TimeWait
    }

    /** `availability`. */
    function Avail(): (a: Available)
      reads this
      ensures a == Availability(Snapshot())
    {
      Available(RcvClosed() || incoming != [], false)
    }

    /** `write`. */
    method Write(payload: seq<byte>) returns (n: nat)
      modifies this
      ensures (Snapshot(), n) == Sending(old(Snapshot()), payload)
    {
      n := Min(|payload|, PayloadRoom);
      sent := sent + [Sent(nxt, rcvNxt, syn, fin, payload[..n])];
      ghost var start := nxt;
      nxt := Add(nxt, n);
      if syn {
        AddAdd(start, n, 1);
        nxt := Add(nxt, 1);
        syn := false;
      }
      if fin {
        AddAdd(start, n + Octet(old(syn)), 1);
        nxt := Add(nxt, 1);
        fin := false;
      }
    }

    /** `close`. */
    method Close() returns (r: IoResult<()>)
      modifies this
      ensures (Snapshot(), r) == Closing(old(Snapshot()))
    {
      closed := true;
      match state {
        case SynRcvd =>
          state := FinWait1;
        case Estab =>
          state := FinWait1;
        case FinWait1 =>
        case FinWait2 =>
        case _ =>
          return Err(NotConnected);
      }
      return Ok(());
    }

    /** `on_packet`. */
    method OnPacket(seg: Segment) returns (r: Outcome)
      modifies this
      ensures (Snapshot(), r) == Receive(old(Snapshot()), seg)
    {
      var slen := SegLen(|seg.data|, seg.syn, seg.fin);
      var okay := Acceptable(rcvNxt, rcvWnd, seg.seqn, slen);
      if !okay {
        var _ := Write([]);
        return Ready(Avail());
      }
      rcvNxt := Add(seg.seqn, slen);
      if !seg.ack {
        return Ready(Avail());
      }
      r := OnAck(seg);
    }

    /** The SEG.ACK and FIN processing of `on_packet`. */
    method OnAck(seg: Segment) returns (r: Outcome)
      modifies this
      ensures (Snapshot(), r) == Acknowledge(old(Snapshot()), seg)
    {
      if state == SynRcvd && IsBetweenWrapped(Sub(una, 1), seg.ackn, Add(nxt, 1)) {
        state := Estab;
      }
      if Synchronized(state) {
        r := OnAckSynchronized(seg);
      } else {
        r := OnFin(seg);
      }
    }

    method OnAckSynchronized(seg: Segment) returns (r: Outcome)
      modifies this
      ensures (Snapshot(), r) == AckSynchronized(old(Snapshot()), seg)
    {
      if !IsBetweenWrapped(una, seg.ackn, Add(nxt, 1)) {
        return Ready(Avail());
      }
      una := seg.ackn;
      if seg.data != [] {
        return Panic(DataWithAck);
      }
      if state == Estab {
        fin := true;
        var _ := Write([]);
        state := FinWait1;
      }
      r := OnFin(seg);
    }

    method OnFin(seg: Segment) returns (r: Outcome)
      modifies this
      ensures (Snapshot(), r) == Finish(old(Snapshot()), seg)
    {
      if state == FinWait1 && una == iss + 2 {
        state := FinWait2;
      }
      if seg.fin {
        if state == FinWait2 {
          var _ := Write([]);
          state := TimeWait;
        } else {
          return Panic(FinUnimplemented);
        }
      }
      return Ready(Avail());
    }
  }

  /** `Connection::accept`: a new connection for a SYN, after sending the SYN-ACK. */
  method Accept(seg: Segment) returns (c: Option<Connection>)
    ensures c.None? <==> Accepted(seg).None?
    ensures c.Some? ==> fresh(c.value) && c.value.Snapshot() == Accepted(seg).value
  {
    if !seg.syn {
      return None;
    }
    var conn := new Connection.FromTcb(Tcb(SynRcvd, 0, 0, 1024, 0, Add(seg.seqn, 1), seg.window, seg.seqn,
                                           true, false, [], [], false, []));
    var _ := conn.Write([]);
    return Some(conn);
  }

  // ---------------------------------------------------------------- lemmas

  /** `accept` answers only a SYN; the new connection is in SYN-RECEIVED with its SYN-ACK sent. */
  lemma AcceptInitial(seg: Segment)
    ensures Accepted(seg).Some? <==> seg.syn
    ensures seg.syn ==> var t := Accepted(seg).value;
      && t.state == SynRcvd && t.iss == 0 && t.una == 0 && t.nxt == 1
      && t.irs == seg.seqn && t.rcvNxt == Add(seg.seqn, 1)
      && t.rcvWnd == seg.window && t.sndWnd == 1024
      && !t.syn && !t.fin && !t.closed && t.incoming == [] && t.unacked == []
      && t.sent == [Sent(0, Add(seg.seqn, 1), true, false, [])]
      && Availability(t) == Available(false, false)
  {
  }

  /** `write` moves SND.NXT by exactly the sequence space the segment occupies. */
  lemma WriteAdvances(t: Tcb, payload: seq<byte>)
    ensures var (t', n) := Sending(t, payload);
      && n <= |payload| && (|payload| <= PayloadRoom ==> n == |payload|)
      && Dist(t.nxt, t'.nxt) == n + Octet(t.syn) + Octet(t.fin)
      && !t'.syn && !t'.fin
      && t'.state == t.state && t'.una == t.una && t'.rcvNxt == t.rcvNxt
  {
  }

  /**
   * An unacceptable segment is answered with an empty segment carrying
   * SND.NXT and RCV.NXT, and changes nothing else: not the state, not
   * RCV.NXT, not SND.UNA.
   */
  lemma UnacceptableOnlyAcks(t: Tcb, seg: Segment)
    requires !Acceptable(t.rcvNxt, t.rcvWnd, seg.seqn, SegLen(|seg.data|, seg.syn, seg.fin))
    ensures var (t', r) := Receive(t, seg);
      && t'.state == t.state && t'.rcvNxt == t.rcvNxt && t'.una == t.una
      && t'.incoming == t.incoming && t'.closed == t.closed
      && t'.sent == t.sent + [Sent(t.nxt, t.rcvNxt, t.syn, t.fin, [])]
      && r == Ready(Availability(t'))
  {
  }

  /** An acceptable segment moves RCV.NXT just past itself, whatever else happens. */
  lemma AcceptableAdvancesRcvNxt(t: Tcb, seg: Segment)
    requires Acceptable(t.rcvNxt, t.rcvWnd, seg.seqn, SegLen(|seg.data|, seg.syn, seg.fin))
    ensures Receive(t, seg).0.rcvNxt == Add(seg.seqn, SegLen(|seg.data|, seg.syn, seg.fin))
  {
    var t1 := t.(rcvNxt := Add(seg.seqn, SegLen(|seg.data|, seg.syn, seg.fin)));
    if seg.ack {
      AcknowledgeKeepsRcvNxt(t1, seg);
    }
  }

  /** Nothing after the acceptance test touches RCV.NXT. */
  lemma AcknowledgeKeepsRcvNxt(t: Tcb, seg: Segment)
    ensures Acknowledge(t, seg).0.rcvNxt == t.rcvNxt
  {
    var t2 := if t.state == SynRcvd && IsBetweenWrapped(Sub(t.una, 1), seg.ackn, Add(t.nxt, 1))
              then t.(state := Estab) else t;
    if !Synchronized(t2.state) {
      FinishKeepsRcvNxt(t2, seg);
    } else if IsBetweenWrapped(t2.una, seg.ackn, Add(t2.nxt, 1)) && seg.data == [] {
      var t3 := t2.(una := seg.ackn);
      var t4 := if t3.state == Estab then Sending(t3.(fin := true), []).0.(state := FinWait1) else t3;
      FinishKeepsRcvNxt(t4, seg);
      assert AckSynchronized(t2, seg) == Finish(t4, seg);
    }
  }

  lemma FinishKeepsRcvNxt(t: Tcb, seg: Segment)
    ensures Finish(t, seg).0.rcvNxt == t.rcvNxt
  {
  }

  /** The order of the states a passive open goes through. */
  function Rank(s: State): nat
  {
    match s
    case Listen => 0
    case SynRcvd => 1
    case Estab => 2
    case FinWait1 => 3
    case FinWait2 => 4
    case TimeWait => 5
  }

  /** `on_packet` and `close` never move a connection back to an earlier state. */
  lemma StateNeverGoesBack(t: Tcb, seg: Segment)
    ensures Rank(Receive(t, seg).0.state) >= Rank(t.state)
    ensures Rank(Closing(t).0.state) >= Rank(t.state)
  {
    var slen := SegLen(|seg.data|, seg.syn, seg.fin);
    if Acceptable(t.rcvNxt, t.rcvWnd, seg.seqn, slen) && seg.ack {
      AcknowledgeNeverGoesBack(t.(rcvNxt := Add(seg.seqn, slen)), seg);
    }
  }

  lemma AcknowledgeNeverGoesBack(t: Tcb, seg: Segment)
    ensures Rank(Acknowledge(t, seg).0.state) >= Rank(t.state)
  {
    var t2 := if t.state == SynRcvd && IsBetweenWrapped(Sub(t.una, 1), seg.ackn, Add(t.nxt, 1))
              then t.(state := Estab) else t;
    if !Synchronized(t2.state) {
      FinishNeverGoesBack(t2, seg);
    } else if IsBetweenWrapped(t2.una, seg.ackn, Add(t2.nxt, 1)) && seg.data == [] {
      var t3 := t2.(una := seg.ackn);
      var t4 := if t3.state == Estab then Sending(t3.(fin := true), []).0.(state := FinWait1) else t3;
      FinishNeverGoesBack(t4, seg);
      assert AckSynchronized(t2, seg) == Finish(t4, seg);
    }
  }

  lemma FinishNeverGoesBack(t: Tcb, seg: Segment)
    ensures Rank(Finish(t, seg).0.state) >= Rank(t.state)
  {
  }

  /** `close` from SYN-RECEIVED or ESTABLISHED goes to FIN-WAIT-1; a second `close` changes nothing more. */
  lemma CloseTwice(t: Tcb)
    ensures Closing(t).0.closed
    ensures Closing(t).1.Ok? <==> t.state in {SynRcvd, Estab, FinWait1, FinWait2}
    ensures Closing(t).1.Ok? ==> Closing(t).0.state == (if t.state in {SynRcvd, Estab} then FinWait1 else t.state)
    ensures Closing(Closing(t).0).0 == Closing(t).0
    ensures Closing(Closing(t).0).1 == Closing(t).1
  {
  }

  /** An acceptable segment that carries nothing but an ACK. */
  predicate PureAck(t: Tcb, seg: Segment)
  {
    && seg.ack && !seg.syn && !seg.fin && seg.data == []
    && Acceptable(t.rcvNxt, t.rcvWnd, seg.seqn, 0)
  }

  /**
   * The ACK of the SYN-ACK takes a fresh connection to ESTABLISHED, and the
   * same call sends a FIN at once and moves on to FIN-WAIT-1.
   */
  lemma Handshake(syn: Segment, seg: Segment)
    requires syn.syn
    requires PureAck(Accepted(syn).value, seg) && seg.ackn == 1
    ensures var (t', r) := Receive(Accepted(syn).value, seg);
      && t'.state == FinWait1 && t'.una == 1 && t'.nxt == 2
      && t'.sent == Accepted(syn).value.sent + [Sent(1, seg.seqn, false, true, [])]
      && r == Ready(Available(false, false))
  {
    var t := Accepted(syn).value;
    assert IsBetweenWrapped(Sub(0, 1), 1, 2);
    assert Add(seg.seqn, 0) == seg.seqn;
  }

  /**
   * In SYN-RECEIVED, an acknowledging segment moves the connection on
   * exactly when SEG.ACK lies in (SND.UNA - 1, SND.NXT + 1); any other
   * SEG.ACK leaves it in SYN-RECEIVED.
   */
  lemma SynRcvdLeavesOnAck(t: Tcb, seg: Segment)
    requires t.state == SynRcvd
    ensures Acknowledge(t, seg).0.state != SynRcvd <==> IsBetweenWrapped(Sub(t.una, 1), seg.ackn, Add(t.nxt, 1))
  {
  }

  /**
   * SEG.ACK == SND.UNA is in the SYN-RECEIVED window but acknowledges
   * nothing new: the connection reaches ESTABLISHED and returns there,
   * without sending a FIN and without looking at the segment's FIN.
   */
  lemma SynRcvdAckAtUna(t: Tcb, seg: Segment)
    requires t.state == SynRcvd && seg.ackn == t.una
    requires IsBetweenWrapped(Sub(t.una, 1), seg.ackn, Add(t.nxt, 1))
    ensures Acknowledge(t, seg) == (t.(state := Estab), Ready(Availability(t.(state := Estab))))
  {
    BetweenIsForward(t.una, seg.ackn, Add(t.nxt, 1));
  }

  /** In FIN-WAIT-1, the ACK of our FIN (SND.UNA reaching ISS + 2) leads to FIN-WAIT-2. */
  lemma FinAcked(t: Tcb, seg: Segment)
    requires t.state == FinWait1 && PureAck(t, seg)
    requires IsBetweenWrapped(t.una, seg.ackn, Add(t.nxt, 1))
    ensures var t' := Receive(t, seg).0;
      t'.una == seg.ackn && t'.state == (if seg.ackn == t.iss + 2 then FinWait2 else FinWait1)
  {
  }

  /** In FIN-WAIT-2, a FIN that also acknowledges something new leads to TIME-WAIT, with an ACK sent. */
  lemma FinInFinWait2(t: Tcb, seg: Segment)
    requires t.state == FinWait2 && seg.ack && seg.fin && !seg.syn && seg.data == []
    requires Acceptable(t.rcvNxt, t.rcvWnd, seg.seqn, 1)
    requires IsBetweenWrapped(t.una, seg.ackn, Add(t.nxt, 1))
    ensures var (t', r) := Receive(t, seg);
      && t'.state == TimeWait && t'.una == seg.ackn
      && t'.rcvNxt == Add(seg.seqn, 1)
      && t'.sent == t.sent + [Sent(t.nxt, t'.rcvNxt, t.syn, t.fin, [])]
      && r == Ready(Available(true, false))
  {
  }

  /**
   * The early return on an ACK that acknowledges nothing new also skips the
   * FIN: in FIN-WAIT-2 with everything acknowledged, a peer's FIN carrying
   * SEG.ACK == SND.NXT is consumed (RCV.NXT moves past it) without a reply
   * and without leaving FIN-WAIT-2.
   */
  lemma FinWithOldAckIgnored(t: Tcb, seg: Segment)
    requires t.state == FinWait2 && t.una == t.nxt && seg.ackn == t.nxt
    requires seg.ack && seg.fin && !seg.syn && seg.data == []
    requires Acceptable(t.rcvNxt, t.rcvWnd, seg.seqn, 1)
    ensures var (t', r) := Receive(t, seg);
      && t'.state == FinWait2 && t'.sent == t.sent
      && t'.rcvNxt == Add(seg.seqn, 1)
      && r == Ready(Availability(t'))
  {
  }

  /**
   * A FIN that reaches the FIN check hits `unimplemented!` exactly when the
   * connection is not in FIN-WAIT-2 once the FIN-WAIT-1 check has run.
   */
  lemma FinElsewherePanics(t: Tcb, seg: Segment)
    requires seg.fin
    ensures Finish(t, seg).1 == Panic(FinUnimplemented)
      <==> !(t.state == FinWait2 || (t.state == FinWait1 && t.una == t.iss + 2))
  {
  }

  /**
   * In LISTEN and TIME-WAIT, and in SYN-RECEIVED when the ACK is out of
   * range, no ACK is processed, so an acceptable FIN with ACK goes straight
   * to the FIN check and hits `unimplemented!`; in TIME-WAIT that is a
   * retransmitted FIN of the peer.
   */
  lemma FinUnsynchronizedPanics(t: Tcb, seg: Segment)
    requires seg.ack && seg.fin
    requires || t.state == Listen || t.state == TimeWait
             || (t.state == SynRcvd && !IsBetweenWrapped(Sub(t.una, 1), seg.ackn, Add(t.nxt, 1)))
    requires Acceptable(t.rcvNxt, t.rcvWnd, seg.seqn, SegLen(|seg.data|, seg.syn, seg.fin))
    ensures Receive(t, seg).1 == Panic(FinUnimplemented)
  {
  }

  /**
   * A FIN on the ACK of the SYN-ACK: the connection passes ESTABLISHED and
   * sends its own FIN, but SND.UNA is 1, short of ISS + 2, so it is still in
   * FIN-WAIT-1 at the FIN check and hits `unimplemented!`.
   */
  lemma HandshakeFinPanics(syn: Segment, seg: Segment)
    requires syn.syn
    requires seg.ack && seg.fin && !seg.syn && seg.data == [] && seg.ackn == 1
    requires Acceptable(Accepted(syn).value.rcvNxt, Accepted(syn).value.rcvWnd, seg.seqn, SegLen(0, false, true))
    ensures Receive(Accepted(syn).value, seg).1 == Panic(FinUnimplemented)
  {
    assert IsBetweenWrapped(Sub(0, 1), 1, 2);
  }

  // ------------------------------------------------------------- finding

  /**
   * RCV.NXT := SEG.SEQ + 1 in `accept` as written: a plain `u32` addition,
   * which overflows (and panics in a debug build) for SEG.SEQ = 2^32 - 1.
   */
  function InitialRcvNxtAsWritten(seqn: u32): Option<u32>
  {
    if seqn + 1 < Modulus then Some(seqn + 1) else None
  }

  /** The SYN whose sequence number is the last of the space makes `accept` overflow. */
  lemma SynAtTopOverflows()
    ensures InitialRcvNxtAsWritten(Modulus - 1) == None
    ensures forall s: u32 :: s < Modulus - 1 ==> InitialRcvNxtAsWritten(s) == Some(Add(s, 1))
  {
  }

  /** With wrapping addition, RCV.NXT is always the octet after the SYN. */
  lemma AcceptRcvNxtFollowsSyn(seg: Segment)
    requires seg.syn
    ensures Dist(seg.seqn, Accepted(seg).value.rcvNxt) == 1
    ensures Accepted(seg).value.irs == seg.seqn
  {
  }
}

=== FILE: tcp_interface.dfy ===
/**
 * tcp_rust/src/lib.rs: the connection manager shared by the packet loop and
 * the user-facing `TcpStream`, `TcpListener` and `Interface`, one locked step
 * at a time. A call that would wait on a condition variable returns `Wait`
 * instead of waiting.
 */
module TcpInterface {
  import opened Wrappers
  import opened TcpSeq
  import opened TcpConnection

  /** `SENDQUEUE_SIZE`: the most bytes `unacked` may hold. */
  const SendQueueSize: nat := 1024

  /** `Quad`: source and destination address and port. */
  datatype Quad = Quad(srcAddr: u32, srcPort: u16, dstAddr: u32, dstPort: u16)

  /** A call under the lock: it returns, it would wait on a condition variable, or it panics. */
  datatype Step<T> = Return(result: IoResult<T>) | Wait | Abort

  /** What the packet loop did with a segment. */
  datatype Dispatched =
    | Delivered(outcome: Outcome)   // handed to the connection of its quad
    | Queued                        // a new connection, queued for `accept` on its port
    | Dropped                       // no connection and no listener, or no SYN

  /** `ConnectionManager`. */
  class ConnectionManager {
    var terminate: bool
    var connections: map<Quad, Connection>
    /** For each bound port, the accepted connections not yet taken by `TcpListener::accept`. */
    var pending: map<u16, seq<Quad>>

    constructor()
      ensures !terminate && connections == map[] && pending == map[]
    {
      terminate := false;
      connections := map[];
      pending := map[];
    }

    /**
     * Every queued quad names a connection, is queued under its own
     * destination port, and is queued once.
     */
    predicate Valid()
      reads this
    {
      && (forall p, i :: p in pending && 0 <= i < |pending[p]| ==>
            pending[p][i] in connections && pending[p][i].dstPort == p)
      && (forall p, i, j :: p in pending && 0 <= i < j < |pending[p]| ==> pending[p][i] != pending[p][j])
    }

    /**
     * The part of `packet_loop` after a TCP segment for quad `q` is parsed:
     * a known quad gets `on_packet`; otherwise, when the destination port is
     * bound, `accept` may create a connection, which is queued at the back.
     */
    method Dispatch(q: Quad, seg: Segment) returns (d: Dispatched)
      modifies this, if q in connections then {connections[q]} else {}
      ensures q in old(connections) ==>
        && connections == old(connections) && pending == old(pending)
        && d.Delivered?
        && (connections[q].Snapshot(), d.outcome) == Receive(old(connections[q].Snapshot()), seg)
      ensures q !in old(connections) && q.dstPort in old(pending) && Accepted(seg).Some? ==>
        && d == Queued
        && q in connections && fresh(connections[q])
        && connections == old(connections)[q := connections[q]]
        && connections[q].Snapshot() == Accepted(seg).value
        && pending == old(pending)[q.dstPort := old(pending)[q.dstPort] + [q]]
      ensures q !in old(connections) && (q.dstPort !in old(pending) || Accepted(seg).None?) ==>
        d == Dropped && connections == old(connections) && pending == old(pending)
      ensures old(Valid()) ==> Valid()
      ensures terminate == old(terminate)
    {
      if q in connections {
        var c := connections[q];
        var a := c.OnPacket(seg);
        return Delivered(a);
      }
      if q.dstPort !in pending {
        return Dropped;
      }
      var c := Accept(seg);
      if c.None? {
        return Dropped;
      }
      connections := connections[q := c.value];
      pending := pending[q.dstPort := pending[q.dstPort] + [q]];
      return Queued;
    }
  }

  /** `Interface`, without the packet-loop thread. */
  class Interface {
    const ih: ConnectionManager

    constructor(ih: ConnectionManager)
      ensures this.ih == ih
    {
      this.ih := ih;
    }

    /** `Interface::bind`: start queueing connections for a port not yet bound. */
    method Bind(port: u16) returns (r: IoResult<TcpListener>)
      modifies ih
      ensures port !in old(ih.pending) ==>
        && r.Ok? && fresh(r.value) && r.value.port == port && r.value.ih == ih
        && ih.pending == old(ih.pending)[port := []]
      ensures port in old(ih.pending) ==> r == Err(AddrInUse) && ih.pending == old(ih.pending)
      ensures ih.connections == old(ih.connections) && ih.terminate == old(ih.terminate)
      ensures old(ih.Valid()) ==> ih.Valid()
    {
      if port in ih.pending {
        return Err(AddrInUse);
      }
      ih.pending := ih.pending[port := []];
      var listener := new TcpListener(port, ih);
      return Ok(listener);
    }
  }

  /** `TcpListener`. */
  class TcpListener {
    const port: u16
    const ih: ConnectionManager

    constructor(port: u16, ih: ConnectionManager)
      ensures this.port == port && this.ih == ih
    {
      this.port := port;
      this.ih := ih;
    }

    /** `TcpListener::accept`: the oldest queued connection of the port. */
    method Accept() returns (r: Step<TcpStream>)
      modifies ih
      ensures port !in old(ih.pending) ==> r == Abort && ih.pending == old(ih.pending)
      ensures port in old(ih.pending) && old(ih.pending)[port] == [] ==> r == Wait && ih.pending == old(ih.pending)
      ensures port in old(ih.pending) && old(ih.pending)[port] != [] ==>
        && r.Return? && r.result.Ok? && fresh(r.result.value)
        && r.result.value.quad == old(ih.pending)[port][0] && r.result.value.ih == ih
        && ih.pending == old(ih.pending)[port := old(ih.pending)[port][1..]]
      ensures ih.connections == old(ih.connections) && ih.terminate == old(ih.terminate)
      ensures old(ih.Valid()) ==> ih.Valid()
      ensures old(ih.Valid()) && r.Return? && r.result.Ok? ==>
        var q := r.result.value.quad;
        && q in ih.connections && q.dstPort == port
        && port in ih.pending && forall i :: 0 <= i < |ih.pending[port]| ==> ih.pending[port][i] != q
    {
      if port !in ih.pending {
        return Abort;
      }
      var queue := ih.pending[port];
      if queue == [] {
        return Wait;
      }
      ih.pending := ih.pending[port := queue[1..]];
      var stream := new TcpStream(queue[0], ih);
      return Return(Ok(stream));
    }
  }

  /** `TcpStream`. */
  class TcpStream {
    const quad: Quad
    const ih: ConnectionManager

    constructor(quad: Quad, ih: ConnectionManager)
      ensures this.quad == quad && this.ih == ih
    {
      this.quad := quad;
      this.ih := ih;
    }

    /**
     * `read`: the first bytes of `incoming`, as many as fit, copied into
     * `buf` and removed from the queue. `headLen` is where the queue's ring
     * buffer splits it into its two slices; the result does not depend on it.
     */
    method Read(buf: array<byte>, headLen: nat) returns (r: Step<nat>)
      modifies buf, if quad in ih.connections then {ih.connections[quad]} else {}
      ensures quad !in ih.connections ==> r == Return(Err(ConnectionAborted)) && buf[..] == old(buf[..])
      ensures quad in ih.connections ==> var c := ih.connections[quad];
        && (old(c.incoming) == [] && old(c.RcvClosed()) ==>
              r == Return(Ok(0)) && buf[..] == old(buf[..]) && c.Snapshot() == old(c.Snapshot()))
        && (old(c.incoming) == [] && !old(c.RcvClosed()) ==>
              r == Wait && buf[..] == old(buf[..]) && c.Snapshot() == old(c.Snapshot()))
        && (old(c.incoming) != [] ==>
              var n := Min(buf.Length, |old(c.incoming)|);
              && r == Return(Ok(n))
              && buf[..n] == old(c.incoming)[..n]
              && buf[n..] == old(buf[n..])
              && c.Snapshot() == old(c.Snapshot()).(incoming := old(c.incoming)[n..]))
      ensures ih.connections == old(ih.connections)
    {
      if quad !in ih.connections {
        return Return(Err(ConnectionAborted));
      }
      var c := ih.connections[quad];
      if c.RcvClosed() && c.incoming == [] {
        return Return(Ok(0));
      }
      if c.incoming == [] {
        return Wait;
      }
      var incoming := c.incoming;
      var nread := CopySlices(buf, incoming, headLen);
      c.incoming := incoming[nread..];
      return Return(Ok(nread));
    }

    /** `write`: queue as much of `data` as the send queue has room for. */
    method Write(data: seq<byte>) returns (r: IoResult<nat>)
      modifies if quad in ih.connections then {ih.connections[quad]} else {}
      ensures quad !in ih.connections ==> r == Err(ConnectionAborted)
      ensures quad in ih.connections ==> var c := ih.connections[quad];
        && (|old(c.unacked)| >= SendQueueSize ==> r == Err(WouldBlock) && c.Snapshot() == old(c.Snapshot()))
        && (|old(c.unacked)| < SendQueueSize ==>
              var n := Min(|data|, SendQueueSize - |old(c.unacked)|);
              && r == Ok(n)
              && c.Snapshot() == old(c.Snapshot()).(unacked := old(c.unacked) + data[..n])
              && |c.unacked| <= SendQueueSize)
      ensures ih.connections == old(ih.connections)
    {
      if quad !in ih.connections {
        return Err(ConnectionAborted);
      }
      var c := ih.connections[quad];
      if |c.unacked| >= SendQueueSize {
        return Err(WouldBlock);
      }
      var n := Min(|data|, SendQueueSize - |c.unacked|);
      c.unacked := c.unacked + data[..n];
      return Ok(n);
    }

    /** `flush`: done only once nothing is left unacknowledged. */
    method Flush() returns (r: IoResult<()>)
      ensures quad !in ih.connections ==> r == Err(ConnectionAborted)
      ensures quad in ih.connections ==>
        (r == Ok(()) <==> ih.connections[quad].unacked == []) && (r != Ok(()) ==> r == Err(WouldBlock))
    {
      if quad !in ih.connections {
        return Err(ConnectionAborted);
      }
      var c := ih.connections[quad];
      if c.unacked == [] {
        return Ok(());
      }
      return Err(WouldBlock);
    }

    /** `shutdown`: `close` on the stream's connection. */
    method Shutdown() returns (r: IoResult<()>)
      modifies if quad in ih.connections then {ih.connections[quad]} else {}
      ensures quad !in ih.connections ==> r == Err(ConnectionAborted)
      ensures quad in ih.connections ==>
        (ih.connections[quad].Snapshot(), r) == Closing(old(ih.connections[quad].Snapshot()))
      ensures ih.connections == old(ih.connections)
    {
      if quad !in ih.connections {
        return Err(ConnectionAborted);
      }
      var c := ih.connections[quad];
      r := c.Close();
    }
  }

  /**
   * The copy in `read`: the queue is the ring buffer's head slice (its first
   * `headLen` bytes) followed by its tail slice; as much of the head as fits
   * goes to the front of `buf`, then as much of the tail as still fits.
   */
  method CopySlices(buf: array<byte>, incoming: seq<byte>, headLen: nat) returns (nread: nat)
    modifies buf
    ensures nread == Min(buf.Length, |incoming|)
    ensures buf[..nread] == incoming[..nread]
    ensures buf[nread..] == old(buf[nread..])
  {
    var h := Min(headLen, |incoming|);
    var hread := Min(buf.Length, h);
    CopyAt(buf, incoming, 0, hread);
    var tail := incoming[h..];
    var tread := Min(buf.Length - hread, |tail|);
    CopyAt(buf, tail, hread, tread);
    nread := hread + tread;
    assert tread > 0 ==> hread == h;
    assert forall k :: 0 <= k < nread ==> buf[k] == incoming[k];
  }

  /** `buf[at..at + count].copy_from_slice(&src[..count])`. */
  method CopyAt(buf: array<byte>, src: seq<byte>, at: nat, count: nat)
    requires at + count <= buf.Length && count <= |src|
    modifies buf
    ensures forall k :: 0 <= k < at ==> buf[k] == old(buf[k])
    ensures forall k :: at <= k < at + count ==> buf[k] == src[k - at]
    ensures forall k :: at + count <= k < buf.Length ==> buf[k] == old(buf[k])
  {
    for i := 0 to count
      invariant forall k :: 0 <= k < at ==> buf[k] == old(buf[k])
      invariant forall k :: at <= k < at + i ==> buf[k] == src[k - at]
      invariant forall k :: at + i <= k < buf.Length ==> buf[k] == old(buf[k])
    {
      buf[at + i] := src[i];
    }
  }
}

=== FILE: tcp_seq.dfy ===
/**
 * tcp_rust/src/tcp.rs: 32-bit sequence-number arithmetic and the segment
 * acceptance test of section 3.3 of RFC 793.
 */
module TcpSeq {

  const Modulus: nat := 0x1_0000_0000

  /** A `u32` sequence number. */
  type u32 = x: nat | x < Modulus

  /** `wrapping_add`. */
  function Add(a: u32, b: nat): (r: u32)
    ensures a + b < Modulus ==> r == a + b
  {
    (a + b) % Modulus
  }

  /** `wrapping_sub`. */
  function Sub(a: u32, b: nat): (r: u32)
    ensures b <= a ==> r == a - b
  {
    (a - b) % Modulus
  }

  /** How far `b` lies ahead of `a` going round the sequence space. */
  function Dist(a: u32, b: u32): (d: u32)
    ensures Add(a, d) == b
  {
    (b - a) % Modulus
  }

  /** `is_between_wrapped(start, x, end)`, branch for branch. */
  function IsBetweenWrapped(start: u32, x: u32, end: u32): bool
  {
    if start == x then false
    else if start < x then !(end >= start && end <= x)
    else end < start && end > x
  }

  /**
   * The comparison means what section 3.3 of RFC 793 asks for: going round
   * the sequence space from `start`, one meets `x` strictly before `end`.
   */
  lemma BetweenIsForward(start: u32, x: u32, end: u32)
    ensures IsBetweenWrapped(start, x, end) <==> 0 < Dist(start, x) < Dist(start, end)
  {
  }

  /** The three cases the comparison distinguishes. */
  lemma BetweenCases(start: u32, x: u32, end: u32)
    ensures start == x ==> !IsBetweenWrapped(start, x, end)
    ensures start < x ==> (IsBetweenWrapped(start, x, end) <==> !(start <= end <= x))
    ensures start > x ==> (IsBetweenWrapped(start, x, end) <==> x < end < start)
  {
  }

  /** `a + b` then `+ c` wraps like adding `b + c` at once. */
  lemma AddAdd(a: u32, b: nat, c: nat)
    ensures Add(Add(a, b), c) == Add(a, b + c)
  {
  }

  // ------------------------------------------------------ segment acceptance

  /** A window size is a `u16`. */
  const WindowLimit: nat := 0x1_0000

  /**
   * SEG.LEN as `on_packet` computes it: the data length, plus one when SYN
   * or FIN is set (one in all, even when both are).
   */
  function SegLen(dataLen: nat, syn: bool, fin: bool): (n: nat)
    ensures n == dataLen || n == dataLen + 1
    ensures n == 0 <==> dataLen == 0 && !syn && !fin
  {
    if fin || syn then dataLen + 1 else dataLen
  }

  /** RCV.NXT =< s < RCV.NXT + RCV.WND, going round the sequence space. */
  predicate InWindow(nxt: u32, wnd: nat, s: u32)
  {
    Dist(nxt, s) < wnd
  }

  /** The acceptance test of `on_packet`, branch for branch. */
  function Acceptable(nxt: u32, wnd: nat, seqn: u32, slen: nat): bool
    requires wnd < WindowLimit
  {
    var wend := Add(nxt, wnd);
    if slen == 0 then
      if wnd == 0 then seqn == nxt
      else IsBetweenWrapped(Sub(nxt, 1), seqn, wend)
    else if wnd == 0 then false
    else
      IsBetweenWrapped(Sub(nxt, 1), seqn, wend)
      || IsBetweenWrapped(Sub(nxt, 1), Add(seqn, slen - 1), wend)
  }

  /** Comparing against (RCV.NXT - 1, RCV.NXT + RCV.WND) is the window test. */
  lemma WindowCheck(nxt: u32, wnd: nat, s: u32)
    requires 0 < wnd < WindowLimit
    ensures IsBetweenWrapped(Sub(nxt, 1), s, Add(nxt, wnd)) <==> InWindow(nxt, wnd, s)
  {
    var start := Sub(nxt, 1);
    BetweenIsForward(start, s, Add(nxt, wnd));
    DistBack(nxt, Add(nxt, wnd));
    DistBack(nxt, s);
    assert Dist(nxt, Add(nxt, wnd)) == wnd;
  }

  /** Measured from one place earlier, every point lies one further ahead (round the space). */
  lemma DistBack(a: u32, b: u32)
    ensures Dist(Sub(a, 1), b) == if Dist(a, b) == Modulus - 1 then 0 else Dist(a, b) + 1
  {
    if a == 0 {
      assert Sub(a, 1) == Modulus - 1;
    } else {
      assert Sub(a, 1) == a - 1;
    }
  }

  /**
   * The four cases of the segment receive test in section 3.3 of RFC 793:
   * a zero-length segment in a zero window only at RCV.NXT; a zero-length
   * segment in an open window when its sequence number is in the window; a
   * non-empty segment never in a zero window, and in an open window when its
   * first or its last octet is in the window.
   */
  lemma AcceptableCases(nxt: u32, wnd: nat, seqn: u32, slen: nat)
    requires wnd < WindowLimit
    ensures slen == 0 && wnd == 0 ==> (Acceptable(nxt, wnd, seqn, slen) <==> seqn == nxt)
    ensures slen == 0 && wnd > 0 ==> (Acceptable(nxt, wnd, seqn, slen) <==> InWindow(nxt, wnd, seqn))
    ensures slen > 0 && wnd == 0 ==> !Acceptable(nxt, wnd, seqn, slen)
    ensures slen > 0 && wnd > 0 ==>
      (Acceptable(nxt, wnd, seqn, slen) <==> InWindow(nxt, wnd, seqn) || InWindow(nxt, wnd, Add(seqn, slen - 1)))
  {
    if wnd > 0 {
      WindowCheck(nxt, wnd, seqn);
      if slen > 0 {
        WindowCheck(nxt, wnd, Add(seqn, slen - 1));
      }
    }
  }
}

=== FILE: wrappers.dfy ===
/** Option, the stand-in for Rust's `Option` and for results that may be absent. */
module Wrappers {

  datatype Option<+T> = None | Some(value: T) {

    /** The value, or `default` when there is none. */
    function GetOr(default: T): T
    {
      match this
      case Some(v) => v
      case None => default
    }
  }
}
